=== FILE: README.md ===
# retrogaragepf back end: a Dafny model of its commerce core

retrogaragepf is a NestJS marketplace for vintage goods. Sellers list
products, which an administrator approves or rejects. Buyers fill a cart
and pay through a Stripe checkout session. A Stripe webhook turns the paid
session into an order. Sellers dispatch the order and buyers confirm that
it arrived. Buyers and sellers talk in private chats, and users reach
support through support chats. Around that core sit single-use discount
codes, notifications, an in-memory user store, and the authentication
pieces: sign-in, sign-up and Google sign-in, the bearer and role guards,
and the JWT principal mapping. There are also two small validators, the
password-confirmation constraint and the request logger's colours.

The model is functional. Every table is a `seq` of rows that carry their
own key. A TypeORM `findOne` is the first matching row (`Tables.FindFirst`),
and fresh keys come from a `nextId` counter that stands in for the database
key generator. Every service method is a pure function from a store to a
`Result` holding the new store and the reply. `Err` carries the HTTP
exception the method throws (`BadRequest`, `NotFound`, `Forbidden`,
`Unauthorized`, or `InternalError` for an uncaught error). An `Err` always
comes with an unchanged store, so a rolled-back transaction and a check
that throws before writing look the same.

Money is kept as integer hundredths, because the decimal columns have
scale 2. The Stripe `unit_amount` of `price * 100` is therefore the price
itself, and `amount_total / 100` is `amount_total`. The following are
parameters of the functions that use them, never computed:
- the Stripe signature check and the session's line items;
- the random bytes of a discount code;
- the image host's upload;
- bcrypt's hash and compare;
- JWT signing and verification;
- Google's token check;
- the clock, as `now`.

Modules follow the source files:

| module | file |
|---|---|
| `Checkout` | `stripe.service.ts` |
| `Carts` | `cart.service.ts` |
| `Discounts` | `discountCode.service.ts` |
| `Orders` | `order.service.ts` |
| `Sales` | `ventas.service.ts` |
| `Chat` | `chat.service.ts` |
| `ChatGateway` | `chat.gateway.ts` |
| `Notifications` | `notifications.controller.ts`, `notifications.repository.ts` |
| `UsersRepository` | `users.repository.ts` |
| `ProductsDb` | `productsDb.service.ts` |
| `Auth` | `auth.service.ts` |
| `AuthGuard` | `auth.guard.ts` |
| `RolesGuard` | `roles.guard.ts` |
| `JwtStrategy` | `jwt.strategy.ts` |
| `MatchPassword` | `matchpassword.decorator.ts` |
| `Logger` | `logger.middleware.ts` |

`Commerce` holds the shared entities (products, carts, orders and their
items). `Tables` holds the lookup, filter, count, sum and sort helpers.
`Text` holds JavaScript's `trim` and `split`, and `toUpperCase` restricted to
ASCII letters. `Wrappers`
holds `Option` and `Result`.

Behaviour worth noting:
- **Cart stock.** `addToCart` compares the stock with the quantity being
  added, not with the cart's total after adding
  (`Carts.AddToCartChecksIncrementOnly`).
- **Webhook checks.** The webhook neither re-checks stock nor redeems a
  discount code. Stock may go negative (`Checkout.ApplyLinesStock` states
  no lower bound).
- **Order status.** Writing an item's status never recomputes its order's
  status (`Sales.UpdateOrderItemStatus`).
- **Missing carts.** A user without a cart gets "Cart not found"; no cart
  is created on the way.
- **Order statuses.** The order entity's status enum lists PENDING, PAID
  and CANCELLED, while the service also writes SHIPPED and DELIVERED. The
  model has all five.

## Model

| member | source | states |
|---|---|---|
| Checkout.CheckItem | src/stripe/stripe.service.ts:53-82 | An item becomes a line exactly when its quantity is positive, its product exists and the quantity is at most the stock. A non-positive quantity is refused as "Invalid quantity" whatever the product. The line carries the item's quantity and product, the product's title, and the server-side price as unit amount. |
| Checkout.BuildLineItems | src/stripe/stripe.service.ts:53-83 | The loop succeeds exactly when every item is acceptable. It then yields one line per item, in request order, each the line of that item. Otherwise the error is that of the first item it refuses. |
| Checkout.CreateCheckoutSession | src/stripe/stripe.service.ts:43-96 | An empty list is refused with "No items provided" before any lookup. The session is requested exactly when every item is acceptable. It carries currency "cop", only the user id as metadata, and one line per requested item in order. |
| Checkout.QuantityCheckedFirst | src/stripe/stripe.service.ts:53-56 | When the first refused item has a non-positive quantity, checkout fails with "Invalid quantity", even if that item's product does not exist. |
| Checkout.StockBoundary | src/stripe/stripe.service.ts:66-68 | A quantity equal to the stock is accepted; one more unit is refused with "Not enough stock". |
| Checkout.ApplyLines | src/stripe/stripe.service.ts:149-177 | The per-line loop of the transaction fails only with a server error, which aborts the transaction (`ApplyLinesSucceedsIff` says when). |
| Checkout.ApplyLinesSucceedsIff | src/stripe/stripe.service.ts:149-164 | The loop commits exactly when every line names an existing product. Stock decrements never remove a product. |
| Checkout.ApplyLine | src/stripe/stripe.service.ts:149-176 | One pass of the loop body succeeds exactly when the line names a product that exists. Otherwise it fails with a server error. |
| Checkout.ApplyLinesItems | src/stripe/stripe.service.ts:166-173 | The order items of a committed loop are the earlier ones followed by `ItemsFor` the lines, from the first fresh key on. |
| Checkout.ItemsForAt | src/stripe/stripe.service.ts:166-173 | The k-th item written is the k-th line's product, quantity and amount, under key `first + k`, in the new order. |
| Checkout.ApplyLinesFrame | src/stripe/stripe.service.ts:149-177 | A committed loop uses one fresh key per line and keeps the orders, the carts and the cart items. It only appends order items, one per line. |
| Checkout.DebitedStep | src/stripe/stripe.service.ts:175-176 | Processing one line takes its quantity off exactly the first product with that key, and leaves the other products as they were. |
| Checkout.ApplyLinesStock | src/stripe/stripe.service.ts:158-176 | After the loop, every product has lost exactly the total quantity the lines order of it. No lower bound is checked, and no other product field changes. |
| Checkout.ClearCarts | src/stripe/stripe.service.ts:179-181 | Exactly the cart items of the buyer's carts are deleted, and every other cart item is kept. |
| Checkout.HandleWebhook | src/stripe/stripe.service.ts:104-186 | A bad signature gives BadRequest "Invalid signature". The store is left unchanged when the event is not a completed session, when it has no buyer, or when an order already records the session. A fresh session that commits appends exactly one order with the session id and `amount_total`. |
| Checkout.FreshSessionCommitsIff | src/stripe/stripe.service.ts:133-164 | A fresh completed session commits exactly when every line names an existing product; otherwise nothing is written. |
| Checkout.FreshSessionCreates | src/stripe/stripe.service.ts:141-173 | A committed fresh session appends one new order, then one order item per line in line order under the keys that follow it (`ItemsFor`). Every earlier order, order item and cart is kept. |
| Checkout.FreshSessionDebitsStock | src/stripe/stripe.service.ts:175-176 | A committed fresh session takes each product's ordered quantity off its stock and changes nothing else about the products. |
| Checkout.FreshSessionClearsCart | src/stripe/stripe.service.ts:179-181 | A committed fresh session deletes exactly the buyer's cart items. |
| Checkout.WebhookRecordsSession | src/stripe/stripe.service.ts:127-147 | After a successful delivery of a completed session with a buyer, some order records that session. |
| Checkout.WebhookIdempotent | src/stripe/stripe.service.ts:127-131 | Redelivering an event that succeeded leaves the store as the first delivery left it, whatever the line items and the clock say then. |
| Checkout.WebhookKeepsSessionsUnique | src/stripe/stripe.service.ts:127-147 | The webhook keeps at most one order per session id. |
| Carts.FindCart | src/carts/cart.service.ts:39-45 | Finds a cart of the user, and finds none exactly when the user has no cart. |
| Carts.FindCartItem | src/carts/cart.service.ts:47-54 | Finds a row for the (cart, product) pair, and finds none exactly when no row holds the pair. |
| Carts.AddToCart | src/carts/cart.service.ts:26-66 | The errors come in order: unknown product is NotFound, stock below the quantity is BadRequest, no cart is NotFound. The call succeeds exactly when the product exists with enough stock and the user has a cart. Products, orders and carts are untouched, and the saved item is in the user's cart. |
| Carts.AddToCartAddsQuantity | src/carts/cart.service.ts:47-65 | The user's cart holds exactly `quantity` more of the product, and every other (cart, product) pair keeps its quantity. |
| Carts.AddToCartMerges | src/carts/cart.service.ts:54-57 | An existing row for the pair grows by the quantity. No row is added and the other rows are unchanged. |
| Carts.AddToCartAppends | src/carts/cart.service.ts:59-65 | Without a row for the pair, exactly one row with the quantity is appended under a fresh key. |
| Carts.AddToCartKeepsUnique | src/carts/cart.service.ts:47-65 | At most one row per (cart, product) before the call means at most one after it. |
| Carts.AddToCartChecksIncrementOnly | src/carts/cart.service.ts:35-37 | Adding one unit of a product in stock always succeeds for a user with a cart, whatever the cart already holds. |
| Carts.GetCart | src/carts/cart.service.ts:68-73 | Gives nothing exactly when the user has no cart; otherwise the user's cart with exactly its items. |
| Carts.RemoveItem | src/carts/cart.service.ts:75-77 | Deletes exactly the rows with that key and keeps all others. The affected count is 0 exactly when no row had the key. Nothing else changes. |
| Carts.RemoveAbsentItem | src/carts/cart.service.ts:75-77 | Removing a key no item has is not an error and changes nothing. |
| Carts.RemoveItemIdempotent | src/carts/cart.service.ts:75-77 | Removing twice is removing once; the second removal affects no row. |
| Discounts.HexBytesIsUpper | src/discountCode/discountCode.service.ts:24 | Upper-case hexadecimal text is its own upper-cased form. |
| Discounts.HexCodeIsUpper | src/discountCode/discountCode.service.ts:24 | A generated eight-character code is unchanged by `toUpperCase`, so the case-folding lookups find it. |
| Discounts.FindCode | src/discountCode/discountCode.service.ts:26-32 | The lookup finds nothing exactly when no row holds the code. |
| Discounts.Render | src/discountCode/discountCode.service.ts:24 | The candidate codes are the hex renderings of the random draws, in draw order. |
| Discounts.GenerateUniqueCode | src/discountCode/discountCode.service.ts:19-36 | Returns the first candidate no row holds; every earlier candidate is taken. |
| Discounts.Create | src/discountCode/discountCode.service.ts:38-50 | The new code is eight characters, is one of the draws, and no row held it before. It has the requested percentage and expiry, is active and unused, records no use, and is appended. Unique codes stay unique. |
| Discounts.FindLive | src/discountCode/discountCode.service.ts:59-65 | Finds an active, unused row whose code is the upper-cased input, and finds none exactly when there is none. |
| Discounts.ValidateCode | src/discountCode/discountCode.service.ts:58-76 | No live row gives "Invalid or already used code"; the only other error is "Discount expired". On success the row is stored and redeemable for the input at `now`. The ledger is never changed. |
| Discounts.ValidateCodeIff | src/discountCode/discountCode.service.ts:58-76 | With unique codes, validation succeeds exactly when some row is active, unused, not expired, and holds the upper-cased input. |
| Discounts.ValidateCodeIgnoresCase | src/discountCode/discountCode.service.ts:61 | Validating an input and its upper-cased form gives the same answer. |
| Discounts.FindUnused | src/discountCode/discountCode.service.ts:83-88 | Finds an unused row with the upper-cased code, ignoring activity and expiry. |
| Discounts.MarkAsUsed | src/discountCode/discountCode.service.ts:78-99 | Fails with "Discount already used" exactly when no unused row holds the code. Otherwise it sets `isUsed`, `usedAt` and `usedByUserId` on that one row and changes nothing else. |
| Discounts.MarkAsUsedSingleUse | src/discountCode/discountCode.service.ts:83-92 | After a code is spent, spending it again and validating it both fail. |
| Discounts.Deactivate | src/discountCode/discountCode.service.ts:101-112 | An unknown key is NotFound. Otherwise only the row with that key changes, and it becomes inactive. |
| Discounts.DeactivateBlocksValidation | src/discountCode/discountCode.service.ts:101-112 | A deactivated code no longer validates. |
| Discounts.CreatedCodeValidates | src/discountCode/discountCode.service.ts:38-76 | A freshly created code validates, and returns its own row, until it expires. |
| Orders.ItemsOf | src/orders/order.service.ts:101 | The order's items are exactly the items that reference it. |
| Orders.SetStatus | src/orders/order.service.ts:52-53 | Only the one order's status changes. |
| Orders.DispatchOrder | src/orders/order.service.ts:25-54 | The dispatch with its relations loaded under the order's own names. The errors come in order: missing order is NotFound, status not PAID is BadRequest, an item sold by someone else is Forbidden. Success sets that order, and only it, to SHIPPED. |
| Orders.LoadRelations | src/orders/order.service.ts:26-32 | Loading succeeds exactly when every requested relation is one the order declares; otherwise it is a server error. |
| Orders.DispatchOrderAsWritten | src/orders/order.service.ts:25-54 | Any success, and any answer other than a server error, is exactly what `DispatchOrder` answers. |
| Orders.DispatchAsWrittenAlwaysFails | src/orders/order.service.ts:26-46 | As written, every call is a server error. No order is shipped, and the NotFound, BadRequest and Forbidden answers are never given. |
| Orders.IntendedRelationsLoad | src/orders/entities/order.entity.ts:53-56 | Under the names `items`, `items.product` and `items.product.user` the relations load. |
| Orders.ReceiveOrder | src/orders/order.service.ts:56-79 | The errors come in order: missing order is NotFound, status not SHIPPED is BadRequest, a caller other than the buyer is Forbidden. Success sets that order, and only it, to DELIVERED. |
| Orders.StepsOnlyForward | src/orders/order.service.ts:39-77 | Dispatch and receive each move one order exactly one step forward on PAID, SHIPPED, DELIVERED, and touch no other order. |
| Orders.DeliveredIsFinal | src/orders/order.service.ts:39-70 | A delivered order can be moved by neither operation, by anyone. |
| Orders.DispatchChecksStatusFirst | src/orders/order.service.ts:39-50 | An order that is not PAID reports the status error even to someone who sells none of it. |
| Orders.DispatchEmptyOrder | src/orders/order.service.ts:44-46 | A paid order without items passes the seller check for anyone. |
| Orders.GetOrderById | src/orders/order.service.ts:95-109 | Succeeds exactly when the caller owns an order with that key, returning it with its items. Another user's order is NotFound, not Forbidden. |
| Orders.GetUserOrders | src/orders/order.service.ts:81-87 | Exactly the caller's orders, each once, newest first. |
| Sales.GetSellerSales | src/ventas/ventas.service.ts:20-35 | Exactly the items of the seller's products, narrowed to the status when one is given, each once, newest order first. |
| Sales.SqlSum | src/ventas/ventas.service.ts:45-49 | SQL `SUM` is NULL over no rows, and the arithmetic sum otherwise. |
| Sales.GetSellerStats | src/ventas/ventas.service.ts:37-52 | The statistics with the seller read as the product's owner. `totalSales` counts the seller's items, and it is 0 exactly when the seller has none; the sums are then NULL. The revenue is the sum of the subtotals. |
| Sales.GetSellerStatsAsWritten | src/ventas/ventas.service.ts:37-52 | Without a declared `seller` relation every call is a server error. With one, `totalSales` counts the items whose product that relation links to the caller. |
| Sales.StatsAsWrittenNeedOwnerRelation | src/ventas/ventas.service.ts:26-41 | A `seller` relation that names every product's owner gives exactly the owner-based statistics. |
| Sales.IndicatorsAddUp | src/ventas/ventas.service.ts:46-49 | The four status indicators add up to one per row. |
| Sales.StatusCountsAddUp | src/ventas/ventas.service.ts:44-49 | For a seller with sales, the four per-status counts add up to `totalSales`. |
| Sales.StatsMatchListing | src/ventas/ventas.service.ts:20-52 | The statistics count exactly the rows of the unfiltered listing. |
| Sales.UpdateOrderItemStatus | src/ventas/ventas.service.ts:54-74 | The write with the product's owner loaded. An unknown item is NotFound; the only other error is Forbidden. Success writes the requested status to that item only, from any status. Orders, products and carts are untouched. |
| Sales.UpdateOrderItemStatusAsWritten | src/ventas/ventas.service.ts:54-74 | Any success, and any answer other than a server error, is exactly what `UpdateOrderItemStatus` answers. |
| Sales.UpdateAsWrittenNeverWrites | src/ventas/ventas.service.ts:59-70 | As written, no call succeeds and none is Forbidden. A missing item may be NotFound; an existing item always gives a server error. |
| Sales.UpdateStatusOwnerOnly | src/ventas/ventas.service.ts:64-70 | The write succeeds exactly when the caller sells the item; anyone else gets Forbidden. |
| Chat.FindConversation | src/chat/chat.service.ts:66-68 | Finds a conversation with that key, and finds none exactly when there is none. |
| Chat.KeySetMembers | src/chat/chat.service.ts:31-33 | The key set holds exactly the ids of existing users. |
| Chat.ElementSet | src/chat/chat.service.ts:31-33 | The set of a list holds exactly its entries. |
| Chat.UsersFoundIsOverlap | src/chat/chat.service.ts:31-34 | With unique user keys, the `In(ids)` lookup finds as many users as there are distinct existing ids. |
| Chat.DistinctCount | src/chat/chat.service.ts:34 | A list has as many distinct entries as entries exactly when none repeats. |
| Chat.UsersCheckIff | src/chat/chat.service.ts:31-36 | The existence check passes exactly when every id is a user and no id repeats, so a repeated id is refused like an unknown one. |
| Chat.FindPrivate | src/chat/chat.service.ts:37-47 | Finds a private conversation with exactly two participant rows among the ids, and finds none exactly when there is none. |
| Chat.Enroll | src/chat/chat.service.ts:54-60 | One participant row per id, in order, under fresh keys. |
| Chat.CreateConversation | src/chat/chat.service.ts:29-62 | Fails with "Algunos usuarios no existen" exactly when the lookup finds fewer users than ids. A two-person private chat that exists is returned unchanged. Otherwise one active, unblocked conversation is added with one participant per id. |
| Chat.CreatedConversationHasEveryone | src/chat/chat.service.ts:52-61 | Every listed user takes part in a newly created conversation. |
| Chat.CreateMessage | src/chat/chat.service.ts:64-96 | Succeeds exactly when the conversation exists, is active and not blocked, and the sender takes part in it. It then appends one unread message with the content, sender and conversation; on failure nothing is stored. |
| Chat.CreateMessageGuardOrder | src/chat/chat.service.ts:69-84 | The guards are tried in order: deleted, then blocked, then not a participant, each with its own message. |
| Chat.MarkRead | src/chat/chat.service.ts:134-141 | Exactly the unread messages of the conversation sent by others become read, and nothing else changes. |
| Chat.History | src/chat/chat.service.ts:129-133 | Exactly the conversation's messages, each as often as it is stored, oldest first. |
| Chat.GetMessages | src/chat/chat.service.ts:118-143 | A non-participant is Forbidden and an inactive conversation NotFound. Otherwise it returns exactly the conversation's messages, each as often as it is stored, oldest first, as they were before the call. Only the read flags change. |
| Chat.GetMessagesIdempotent | src/chat/chat.service.ts:134-141 | A second read marks nothing more. |
| Chat.GetMessagesKeepsOwn | src/chat/chat.service.ts:137 | The caller's own messages, and other conversations' messages, are never touched. |
| Chat.SupportThread | src/chat/chat.service.ts:197-225 | The first active support conversation the user and the admin share is reused, and the store is left as it was. Without one, exactly one active, unblocked support conversation is appended, with exactly two participant rows (the user, then the admin). Users and messages are untouched in both cases, and conversation keys stay below the counter. |
| Chat.CreateSupportConversation | src/chat/chat.service.ts:187-233 | With no support admin the call is NotFound. Otherwise the thread is the one `SupportThread` gives for the first support admin, with its conversations and participants, and it gets exactly one new message from the user, holding the subject and the detail. |
| Chat.SupportThreadFoundAgain | src/chat/chat.service.ts:197-206 | In a store whose conversation keys are all below the counter, once the support thread is chosen or opened, the existing-conversation query finds that same thread first. |
| Chat.SupportRequestReusesThread | src/chat/chat.service.ts:197-225 | In a store whose conversation keys are all below the counter (an invariant `SupportThread` keeps), a second support request by the same user goes to the conversation of the first, and adds no conversation and no participant. |
| Chat.PutConversation | src/chat/chat.service.ts:240-241 | Replaces one conversation and changes nothing else. |
| Chat.BlockConversation | src/chat/chat.service.ts:235-243 | An unknown key is NotFound; otherwise only that conversation's blocked flag is set. |
| Chat.DeleteConversation | src/chat/chat.service.ts:245-261 | An unknown key is NotFound and a non-participant is Forbidden. Otherwise only the active flag is cleared and no row is removed. |
| Chat.DeleteConversationAsAdmin | src/chat/chat.service.ts:263-271 | An unknown key is NotFound; otherwise only the active flag is cleared, with no membership check. |
| Chat.DeletedConversationIsClosed | src/chat/chat.service.ts:72-128 | A deleted conversation keeps all its rows, refuses new messages and can no longer be read. |
| Chat.BlockedConversationRefusesMessages | src/chat/chat.service.ts:75-77 | A blocked, active conversation refuses new messages. |
| ChatGateway.ExtractConversationId | src/chat/chat.gateway.ts:46-69 | A non-blank string is returned as sent. For an object, a usable `conversationId` wins over `id`. Anything else gives null. |
| ChatGateway.ExtractedIdIsNotBlank | src/chat/chat.gateway.ts:49-67 | Any extracted id has a non-empty trimmed form. |
| ChatGateway.JoinConversation | src/chat/chat.gateway.ts:72-97 | A client without a user is disconnected, and a payload without an id is an error. Only a participant of the named conversation joins its room. |
| ChatGateway.ParticipantsJoin | src/chat/chat.gateway.ts:85-95 | Every authenticated participant who names the conversation joins it. |
| Notifications.ParseType | src/notifications/notifications.controller.ts:32-34 | A recognised value is exactly the string value of its type. |
| Notifications.ParseWire | src/notifications/notifications.controller.ts:32-34 | Every type's string value is recognised as that type. |
| Notifications.ParseTypeIff | src/notifications/notifications.controller.ts:32-34 | A string is recognised as a type exactly when it is that type's value. |
| Notifications.KnownTypes | src/notifications/notifications.controller.ts:29-34 | Exactly the types some trimmed piece names; unknown pieces are dropped. |
| Notifications.MentionsIff | src/notifications/notifications.controller.ts:29-34 | A piece names a type exactly when its trimmed form is that type's value. |
| Notifications.AddAll | src/notifications/notifications.controller.ts:35 | Filling the set adds exactly the new elements. |
| Notifications.AddAllOrder | src/notifications/notifications.controller.ts:26-35 | The set holds each type once, keeps what it held, and lists new types in the order of their first mention. |
| Notifications.ExclusionsSpec | src/notifications/notifications.controller.ts:35-43 | Each listed type once, in first-mention order, plus `daily_summary` exactly when the flag is the string "false". |
| Notifications.ParseExcludeTypesSpec | src/notifications/notifications.controller.ts:26-43 | The parsed list has no repeats. It holds exactly the recognised types mentioned, in first-mention order, plus `daily_summary` exactly when `includeDailySummary` is "false". |
| Notifications.ExcludeTypesMembers | src/notifications/notifications.controller.ts:28-35 | A type is excluded exactly when some comma-separated piece, once trimmed, is its value. |
| Notifications.NothingExcludedByDefault | src/notifications/notifications.controller.ts:28-44 | An absent or empty `excludeTypes` without the "false" flag excludes nothing. |
| Notifications.Create | src/notifications/notifications.repository.ts:13-20 | Appends exactly one unread notification with the user, type and message. When every key is below the store's counter, the new key is one no earlier row used, and the invariant still holds afterwards. |
| Notifications.FindByUser | src/notifications/notifications.repository.ts:22-27 | Exactly the user's notifications, of every type, each as often as it is stored, newest first. |
| Notifications.MarkAsRead | src/notifications/notifications.repository.ts:29-38 | Found only when both key and owner match; someone else's notification is NotFound. Only the read flag of that row is set. |
| Notifications.MarkAsReadIdempotent | src/notifications/notifications.repository.ts:36-37 | Marking twice is marking once. |
| Text.Trim | src/notifications/notifications.controller.ts:31 | The trimmed text is a slice of the input whose cut-off prefix and suffix are all whitespace, and it neither starts nor ends with whitespace. |
| Text.TrimEmptyIffBlank | src/chat/chat.gateway.ts:49 | Trimming yields the empty string exactly when the text is all whitespace. |
| Text.TrimIdempotent | src/products/productsDb.service.ts:88 | Trimming twice is trimming once. |
| Text.Upper | src/discountCode/discountCode.service.ts:61 | Upper-casing keeps the length, maps each character, and leaves no lower-case ASCII letter. |
| Text.UpperIdempotent | src/discountCode/discountCode.service.ts:61-85 | Upper-casing twice is upper-casing once. |
| Text.Split | src/notifications/notifications.controller.ts:30 | `split` gives at least one piece, and no piece contains the separator. |
| Text.JoinSplit | src/notifications/notifications.controller.ts:30 | Joining the pieces of a split with the separator gives back the input. |
| Text.SplitJoin | src/auth/guards/auth.guard.ts:25 | Splitting the join of separator-free pieces gives back the pieces. |
| UsersRepository.SliceIndex | src/users/users.repository.ts:224 | A `slice` index counts from the end when negative and is clamped to the length. |
| UsersRepository.Slice | src/users/users.repository.ts:224 | `slice` agrees with the subsequence for in-range bounds, stops at the end, and is empty when the end does not pass the start. |
| UsersRepository.StripAll | src/users/users.repository.ts:225-227 | Each listed user is the stored one without its password, in order. |
| UsersRepository.GetAllUsers | src/users/users.repository.ts:218-228 | For page ≥ 1, at most `limit` users. The i-th is the stored user at position (page−1)·limit + i, without its password. |
| UsersRepository.EveryUserOnItsPage | src/users/users.repository.ts:222-224 | The user at position k is listed on page k / limit + 1, at offset k mod limit. |
| UsersRepository.UserOnOnePageOnly | src/users/users.repository.ts:222-224 | The user at position k is listed on no other page. |
| UsersRepository.FindById | src/users/users.repository.ts:231 | The first user with that id, or none exactly when no user has it. |
| UsersRepository.GetUserById | src/users/users.repository.ts:230-235 | The first user with that id without its password; otherwise the not-found text, exactly when no user has the id. |
| UsersRepository.GetUserByEmail | src/users/users.repository.ts:237-240 | The first user with that email, or undefined exactly when no user has it. |
| UsersRepository.AddUser | src/users/users.repository.ts:242-245 | Appends the data with its email as id, keeps every earlier user, and returns the email. |
| UsersRepository.AddedUserIsFound | src/users/users.repository.ts:242-245 | The returned key finds the added user by id and by email, when no earlier user holds it. |
| UsersRepository.ApplyIdempotent | src/users/users.repository.ts:250 | Assigning the same fields twice is assigning them once, and an empty body changes nothing. |
| UsersRepository.UpdateUser | src/users/users.repository.ts:247-252 | Patches the supplied fields of the first user with that id and returns the id. An unknown id gives the not-found text and an unchanged list. |
| UsersRepository.UpdateUserTwice | src/users/users.repository.ts:247-252 | Repeating an update that keeps the id changes nothing more. |
| UsersRepository.DeleteUser | src/users/users.repository.ts:254-259 | Splices out the first user with that id, keeping the others in order, and returns the id. An unknown id gives the not-found text and an unchanged list. |
| UsersRepository.DeleteUserRemovesOne | src/users/users.repository.ts:255-257 | A delete leaves one fewer user with that id. |
| UsersRepository.DeletedUserIsGone | src/users/users.repository.ts:254-259 | With unique ids, a deleted user can no longer be found. |
| ProductsDb.GetProductById | src/products/productsDb.service.ts:44-55 | The first product with that key; "Product not found" exactly when there is none. |
| ProductsDb.ImageFor | src/products/productsDb.service.ts:88-97 | A non-blank `imgUrl` wins, trimmed, and nothing is uploaded. Otherwise a file is uploaded: a file without a buffer is BadRequest and a failed upload a server error. With neither, there is no image. |
| ProductsDb.CreateProduct | src/products/productsDb.service.ts:67-127 | Category then era are checked (NotFound), then an image is required. The product is appended pending review, owned by the caller, with the request's fields and the resolved image. |
| ProductsDb.ImageUrlWins | src/products/productsDb.service.ts:88-91 | With a non-blank `imgUrl`, the file and the image host make no difference, and the product keeps the trimmed URL. |
| ProductsDb.NoImageRefused | src/products/productsDb.service.ts:93-97 | Without `imgUrl` and without a file, creation is refused with the image message. |
| ProductsDb.CreatedProductIsFound | src/products/productsDb.service.ts:99-111 | A created product is what a lookup by its key returns, and it is pending. |
| ProductsDb.Review | src/products/productsDb.service.ts:157-195 | An unknown key is NotFound. Otherwise only that product's status changes, to the verdict, from any prior status. |
| ProductsDb.ApproveProduct | src/products/productsDb.service.ts:157-189 | An approved product has status APPROVED. |
| ProductsDb.RejectProduct | src/products/productsDb.service.ts:191-223 | A rejected product has status REJECTED. |
| ProductsDb.LastVerdictStands | src/products/productsDb.service.ts:157-223 | A second review overrides the first as if the first had not happened. |
| ProductsDb.PatchAll | src/products/productsDb.service.ts:133 | Every row with the key gets the supplied columns, and the other rows are unchanged. |
| ProductsDb.UpdateProduct | src/products/productsDb.service.ts:129-135 | An empty update is a server error. Otherwise the supplied columns are written and the product is read back: an unknown key is NotFound. |
| ProductsDb.UpdateProductTwice | src/products/productsDb.service.ts:129-135 | Writing the same columns again changes nothing more. |
| Auth.FindByEmail | src/users/users.repository.ts:237-240 | The first account with that email, or none exactly when there is none. |
| Auth.GenerateJwt | src/auth/auth.service.ts:81-97 | The token signs id, name, email and the admin flag. The user part repeats id, name and email only. |
| Auth.Admit | src/auth/auth.service.ts:24-36 | Given the account the lookup found, success exactly for an active account with a password that the comparison accepts, signed for that account. The only errors are the credentials message and the Google-only message, and the latter comes exactly for an active account without a password. |
| Auth.SignIn | src/auth/auth.service.ts:22-37 | The corrected sign-in, over accounts with the entity's flags. Succeeds exactly when the first account with the email is active, has a password, and the comparison passes. The only errors are the generic credentials message and the Google-only message, and the latter comes exactly for an active account without a password. |
| Auth.SignInAsWritten | src/auth/auth.service.ts:22-26 | On the in-memory store, whose records have no `isActive`, every sign-in is refused with the credentials message. |
| Auth.SignUpChecks | src/auth/auth.service.ts:41-47 | Sign-up may proceed exactly when email and password are present and the store does not hold the email. A missing field is reported before a taken email. |
| Auth.SignUpAsWritten | src/auth/auth.service.ts:39-55 | On the in-memory store: refused exactly when the checks fail, with their message. Otherwise the record `addUser` pushes is stored, and the reply carries no id. |
| Auth.SignUpAsWrittenLosesId | src/auth/auth.service.ts:49-54 | Every successful sign-up as written stores a record whose id is its email but replies without an id, where the corrected one replies with that non-empty id. |
| Auth.SignUp | src/auth/auth.service.ts:39-55 | The corrected sign-up, over accounts with the entity's flags. Refused exactly when the checks fail, with their message. Otherwise exactly one account is appended with the email and the hash (never the input password), and the reply is its id. |
| Auth.SignUpThenSignIn | src/auth/auth.service.ts:22-55 | With the corrected sign-up and sign-in, signing in with the email and password just registered succeeds for the new account, and the session's user id is the id the reply named. |
| Auth.SignUpThenSignInAsWritten | src/auth/auth.service.ts:22-52 | As written, the record just registered is found by its email and holds the hash of the password, yet signing in with that password is refused. |
| Auth.SignUpTwiceRefused | src/auth/auth.service.ts:44-47 | A second sign-up with the same email is refused as already registered. |
| Auth.GoogleLogin | src/auth/auth.service.ts:59-79 | The corrected Google login. A token without a payload or email is refused. An existing account is reused, and an account is created exactly when the email is unknown. |
| Auth.GoogleLoginAsWritten | src/auth/auth.service.ts:59-79 | On the in-memory store: a token without a payload or email is refused. A known email signs in with its record, as not an administrator. An unknown email is a server error. |
| Auth.GoogleLoginAsWrittenNeverCreates | src/auth/auth.service.ts:69-75 | For a verified token whose email nobody holds, the as-written login is a server error, where the corrected one creates the account. |
| Auth.SessionTokenPassesGuard | src/auth/guards/auth.guard.ts:23-41 | A signed-in session's token, once verified, passes the bearer guard, with the Admin role exactly for administrators. |
| AuthGuard.BearerToken | src/auth/guards/auth.guard.ts:25-27 | An accepted token is non-empty and has no space. |
| AuthGuard.RolesFor | src/auth/guards/auth.guard.ts:33 | One role, Admin exactly for administrators. |
| AuthGuard.CanActivate | src/auth/guards/auth.guard.ts:19-42 | A missing header, or one without `Bearer` and a token, gives "No se ha enviado token". An expired token and any other failed verification get their own messages. Success attaches the payload with one role, Admin exactly for administrators. |
| AuthGuard.BearerRoundTrip | src/auth/guards/auth.guard.ts:25-27 | `Bearer <token>` yields exactly that token. |
| AuthGuard.BearerShape | src/auth/guards/auth.guard.ts:25-27 | An accepted header starts with `Bearer`, one space and the token, followed by the end or a space. |
| AuthGuard.DoubleSpaceRefused | src/auth/guards/auth.guard.ts:25-27 | Two spaces after `Bearer` are refused whatever the token. |
| RolesGuard.CanActivate | src/auth/guards/roles.guard.ts:15-35 | No user or no roles is Forbidden. Access is granted exactly when some route role is among the user's roles, otherwise Forbidden with the permissions message. An empty route-role list never grants access. |
| RolesGuard.MoreRolesStillAdmitted | src/auth/guards/roles.guard.ts:28 | Holding more roles never turns an admitted request into a refused one. |
| JwtStrategy.Validate | src/auth/strategies/jwt.strategy.ts:16-27 | Copies id, email, name, isAdmin and isBlocked. Exactly one role, "Admin" exactly for administrators and "user" otherwise. |
| JwtStrategy.ValidateIgnoresOtherFields | src/auth/strategies/jwt.strategy.ts:19-26 | Payloads that agree on the five fields give the same principal, whatever else they carry. |
| MatchPassword.Validate | src/decorators/matchpassword.decorator.ts:12-24 | True exactly when the confirmation strictly equals the field named by the first constraint, with a missing field reading as undefined. |
| MatchPassword.ValidateReflexive | src/decorators/matchpassword.decorator.ts:20-23 | Confirming with the field's own value always validates. |
| MatchPassword.ValidateReadsOneField | src/decorators/matchpassword.decorator.ts:17-19 | Only the first constraint and the field it names are read. |
| Logger.ColorStatus | src/middlewares/logger.middleware.ts:28-35 | Red exactly from 500, yellow exactly for 400-499, cyan exactly for 300-399, green exactly below 300. |
| Logger.StatusColorMonotone | src/middlewares/logger.middleware.ts:28-35 | A larger status is never drawn in a calmer colour. |
| Logger.ColorMethod | src/middlewares/logger.middleware.ts:37-46 | Compared case-sensitively: GET is cyan, POST green, PUT yellow and DELETE red, each exactly for that method. Every other method is magenta. |

## Left out

- The Stripe SDK is left out: `sessions.create`, `listLineItems` and `webhooks.constructEvent`. The model builds the session request, and the signature outcome and the line items are parameters. The session's URL and id reply is not modelled.
- Concurrency is left out. That includes the race between the webhook's idempotency read and its transaction, and all WebSocket plumbing (connections, rooms, emits). Deliveries and calls are sequential.
- JavaScript floating-point money is left out: `Number(price) * 100` and `/ 100`. Money is exact integer hundredths.
- Bcrypt, JWT signing and verification, Google's token check, the image host's upload, and the random bytes are parameters. None of them is computed.
- E-mails and notifications sent after sign-up, product creation, approval and rejection are left out. They are I/O. Those in the product service have their failures caught. The unguarded welcome e-mail of sign-up is assumed to succeed.
- Auth.GoogleLogin: states the corrected login. As written, `addGoogleUser` is not defined in the user store, so every unknown-email login is a server error (`Auth.GoogleLoginAsWritten`). In the corrected login, account creation is a parameter, and the stored account it would add is not modelled.
- Auth.SignIn: states the corrected sign-in. The service is given the in-memory `UsersRepository`, whose records lack `isActive` and `isAdmin`, so as written every sign-in is refused (`Auth.SignInAsWritten`). The corrected members read accounts with the `Users` entity's flags; new accounts get its defaults, active and not an admin. `src/users/entities/users.entity.ts` is not part of this model beyond those two defaults.
- Auth.SignUpThenSignIn: states the corrected sign-up and sign-in; as written the account just registered cannot sign in (`Auth.SignUpThenSignInAsWritten`).
- ProductsDb.CreateProduct: the request validation strips `imgUrl`, since the create DTO does not declare it and the pipe whitelists. Over HTTP only the file path applies, while the model keeps the service's own `imgUrl` rule.
- Products are modelled with `ownerId` and `status`, which the service writes but the product entity file does not declare. Sales joins `product.user` in the listing and `product.seller` in the statistics and the status write. The product's owner relation is `user` (productsDb.service.ts:60), so the corrected statistics and status write read the owner, and their as-written forms are in Findings.
- Chat conversations default to active and not blocked. The entity file does not declare these flags.
- Database constraint failures on save (unique title, column lengths) are not modelled.
- Undefined-valued keys in `Object.assign` patches and update bodies are not modelled. An absent key is the only way to leave a field alone.
- Discounts.GenerateUniqueCode: the loop ends only when the random source yields a fresh code. The model takes the candidates as input and requires one of them to be fresh, so termination is assumed, not proved.
- Sales.GetSellerStats: the statistics are proved for the four item statuses only. The item-status enum file is not part of this model.
- The role enum file is not part of this model. `Role` has exactly the two members the guard assigns.
- The daily notification digest (cron and timers) is left out, as is the notification service that applies the exclusion list.
- The logger's timing and date formatting are left out.
- Not modelled because they lie outside the modelled core: getMessagesAsAdmin, getUserConversations, findPrivateConversation, the discount `findAll`, order listing for administrators, product listing and deletion, and getMyProducts.
- Text.Upper: ASCII letters only. JavaScript's `toUpperCase` is Unicode-wide, so a code typed as `ﬀ00aa11` finds `FF00AA11` in the source but not in the model. Non-ASCII upper-casing is left out because it needs Unicode's case tables.
- Discounts.FindLive: the upper-casing it applies is `Text.Upper`, so codes typed with non-ASCII letters are not found as the source would find them.
- Discounts.FindUnused: the same ASCII-only upper-casing as `Discounts.FindLive`.
- Checkout.CheckItem: a checkout item's quantity is an integer. A missing or fractional quantity cannot be expressed. JavaScript lets a missing one through both checks (`undefined <= 0` and `undefined > stock` are false), and compares a fractional one such as 1.5 with the stock as it is. The request DTO's validation is not part of this model.
- Carts.AddToCart: the appended cart item has no `priceAtMoment`. That column is NOT NULL without a default (`cartItem.entity.ts:26-27`), and the create at `cart.service.ts:59-63` does not set it, so the insert would fail in the database. Database constraints are not modelled, and the model lets the append succeed.
- Carts.AddToCartAppends: states the append as the service code writes it and, like `Carts.AddToCart`, ignores the missing `priceAtMoment`.
- Commerce.OrderItem: the webhook creates items with `price` and without the entity's `title`, `unitPrice` and `subtotal` columns. The model takes `price` to be the `subtotal` the sales statistics sum, and does not model the missing columns.
- Sales.GetSellerStats: states the statistics with the seller read as the product's owner. As written the query joins `product.seller` (`Sales.GetSellerStatsAsWritten`).
- Sales.StatsMatchListing: holds for the corrected statistics. As written it holds only for a `seller` relation that names every product's owner (`Sales.StatsAsWrittenNeedOwnerRelation`).
- Orders.DispatchChecksStatusFirst: states the dispatch with its relations under the order's own names (`Orders.DispatchOrder`). As written every dispatch is a server error (see Findings).
- Orders.DispatchEmptyOrder: states the dispatch with its relations under the order's own names (`Orders.DispatchOrder`). As written every dispatch is a server error (see Findings).
- Sales.UpdateStatusOwnerOnly: states the status write with the product's owner loaded (`Sales.UpdateOrderItemStatus`). As written no write succeeds (see Findings).
- Controller methods that call service methods the repository does not define are not modelled (updateItemQuantity, getSession, validateCoupon, getConversationsAsAdmin, unblockConversation).

## Findings

| source | as written | input that shows it | evidently intended | confidence | as-written member | corrected member |
|---|---|---|---|---|---|---|
| src/auth/auth.service.ts:49-54 | `addUser` resolves to the new user's email string, so `user.id` reads a property of a string and the reply is `{ id: undefined }` | any sign-up with a new email and a password | reply with the id the store gave the new account (its email) | not executed | Auth.SignUpAsWritten, Auth.SignUpAsWrittenLosesId | Auth.SignUp, Auth.SignUpThenSignIn |
| src/auth/auth.service.ts:22-26 | the service is given the in-memory `UsersRepository`, whose records (users.repository.ts:3-12) have no `isActive`, so `!user.isActive` is true for every record found | the seeded `homer.simpson@springfield.com` with any password, or an account just signed up with its own password | refuse only accounts of the `Users` entity that are inactive, then check the password | not executed | Auth.SignInAsWritten, Auth.SignUpThenSignInAsWritten | Auth.SignIn, Auth.SignUpThenSignIn |
| src/auth/auth.service.ts:69-75 | for an unknown email the service calls `addGoogleUser`, which the user store does not define, so the call throws | a verified Google token for an email no record holds | create the Google account and sign it in | not executed | Auth.GoogleLoginAsWritten, Auth.GoogleLoginAsWrittenNeverCreates | Auth.GoogleLogin |
| src/orders/order.service.ts:26-46 | `findOne` loads `orderItems`, `orderItems.product` and `orderItems.product.user`, but the order's relation is `items`. The query throws on the unknown relation; had it loaded, `order.items` would be undefined | any dispatch, e.g. of a PAID order whose items are all the caller's | load `items`, `items.product` and `items.product.user`, then check status and seller | not executed | Orders.DispatchOrderAsWritten, Orders.DispatchAsWrittenAlwaysFails | Orders.DispatchOrder, Orders.IntendedRelationsLoad, Orders.StepsOnlyForward |
| src/ventas/ventas.service.ts:59-70 | `findOne` loads `product` and `product.seller`, then reads `item.product.user.id`. The product's owner relation is `user` (productsDb.service.ts:60), so either the load throws on `seller` or `product.user` is unloaded and reading its `id` throws | any status write of an existing item, by its seller or anyone else | load `product.user` and compare its id with the caller | not executed; assumes the owner relation is not eager | Sales.UpdateOrderItemStatusAsWritten, Sales.UpdateAsWrittenNeverWrites | Sales.UpdateOrderItemStatus, Sales.UpdateStatusOwnerOnly |
| src/ventas/ventas.service.ts:37-52 | the statistics join `product.seller`, while the listing (:26) joins the owner relation `product.user`. Either the join throws on `seller` or it links items through a different relation than the listing | any statistics request | join `product.user`, as the listing does | not executed | Sales.GetSellerStatsAsWritten, Sales.StatsAsWrittenNeedOwnerRelation | Sales.GetSellerStats, Sales.StatsMatchListing |

=== FILE: auth.dfy ===
/** The decision logic of sign-in, sign-up and Google sign-in. Password
    hashing and comparison, token signing and Google's token check are
    parameters. */
module Auth {
  import opened Wrappers
  import opened Tables
  import opened AuthGuard
  import UsersRepository

  /** A user account with the fields the service reads. An empty `password`
      is an account without one (created through Google). */
  datatype Account = Account(
    id: string,
    name: string,
    email: string,
    password: string,
    isActive: bool,
    isAdmin: bool)

  /** The `CreateUserDto` fields. An empty string is a missing value. */
  datatype SignUpData = SignUpData(
    name: string,
    email: string,
    password: string,
    phone: string,
    address: string,
    city: string,
    country: string)

  /** The user part of a sign-in answer: no password and no admin flag. */
  datatype Profile = Profile(id: string, name: string, email: string)

  datatype Session = Session(token: string, user: Profile)

  const BadCredentials := "Email o password incorrectos"
  const GoogleOnly := "Este usuario debe iniciar sesión con Google"
  const MissingFields := "Email y password son requeridos"
  const EmailTaken := "Email ya se encuentra registrado"
  const BadGoogleToken := "Token de Google inválido"

  /** `getUserByEmail`: the first account with that email. */
  function FindByEmail(accounts: seq<Account>, email: string): (r: Option<Account>)
    ensures r.None? <==> forall j :: 0 <= j < |accounts| ==> accounts[j].email != email
    ensures (r.Some? ==>
      exists k :: 0 <= k < |accounts| && accounts[k] == r.value && r.value.email == email
        && forall j :: 0 <= j < k ==> accounts[j].email != email)
  {
    match FindFirst(accounts, (a: Account) => a.email == email)
    case None => None
    case Some(k) => Some(accounts[k])
  }

  /** The payload `generateJwt` signs. */
  function ClaimsOf(a: Account): Claims
  {
    Claims(a.id, a.name, a.email, a.isAdmin)
  }

  /** `generateJwt`: the token signs id, name, email and the admin flag; the
      user part repeats id, name and email only. */
  function GenerateJwt(a: Account, sign: Claims -> string): (r: Session)
    ensures r.token == sign(Claims(a.id, a.name, a.email, a.isAdmin))
    ensures r.user.id == a.id && r.user.name == a.name && r.user.email == a.email
  {
    Session(sign(ClaimsOf(a)), Profile(a.id, a.name, a.email))
  }

  /** The checks `signIn` makes on the account its lookup found, if any. An
      unknown email and an inactive account get the same message as a
      wrong password; an account without a password is told to use Google
      before any comparison. */
  function Admit(found: Option<Account>, password: string,
    compare: (string, string) -> bool, sign: Claims -> string): (r: Result<Session>)
    ensures (r.Ok? <==>
      found.Some? && found.value.isActive && found.value.password != [] && compare(password, found.value.password))
    ensures r.Ok? ==> r.value == GenerateJwt(found.value, sign)
    ensures r.Err? ==> r.error == Unauthorized(BadCredentials) || r.error == Unauthorized(GoogleOnly)
    ensures r == Err(Unauthorized(GoogleOnly)) <==> found.Some? && found.value.isActive && found.value.password == []
  {
    match found
    case None => Err(Unauthorized(BadCredentials))
    case Some(a) =>
      if !a.isActive then Err(Unauthorized(BadCredentials))
      else if a.password == [] then Err(Unauthorized(GoogleOnly))
      else if !compare(password, a.password) then Err(Unauthorized(BadCredentials))
      else Ok(GenerateJwt(a, sign))
  }

  /** `signIn` over accounts that carry the `isActive` and `isAdmin` flags of
      the `Users` entity, as the service's types intend. */
  function SignIn(
    accounts: seq<Account>, email: string, password: string,
    compare: (string, string) -> bool, sign: Claims -> string): (r: Result<Session>)
    ensures (r.Ok? <==>
      exists k :: 0 <= k < |accounts| && accounts[k].email == email
        && (forall j :: 0 <= j < k ==> accounts[j].email != email)
        && accounts[k].isActive && accounts[k].password != []
        && compare(password, accounts[k].password))
    ensures r.Ok? ==> r == Ok(GenerateJwt(FindByEmail(accounts, email).value, sign))
    ensures r.Err? ==> r.error == Unauthorized(BadCredentials) || r.error == Unauthorized(GoogleOnly)
    ensures (r == Err(Unauthorized(GoogleOnly)) <==>
      var a := FindByEmail(accounts, email);
      a.Some? && a.value.isActive && a.value.password == [])
  {
    Admit(FindByEmail(accounts, email), password, compare, sign)
  }

  /** How the service reads a record of the in-memory user store it is
      given. The record type declares neither `isActive` nor `isAdmin`, so
      both read as undefined, which the service treats as false. */
  function RecordAccount(u: UsersRepository.User): Account
  {
    Account(u.id, u.name, u.email, u.password, false, false)
  }

  /** `signIn` as written: the lookup runs on the in-memory store, whose
      records have no `isActive`, so every account found is refused as
      inactive before its password is looked at. */
  function SignInAsWritten(
    users: seq<UsersRepository.User>, email: string, password: string,
    compare: (string, string) -> bool, sign: Claims -> string): (r: Result<Session>)
    ensures r.Err? && r.error == Unauthorized(BadCredentials)
  {
    var found := match UsersRepository.GetUserByEmail(users, email)
      case None => None
      case Some(u) => Some(RecordAccount(u));
    Admit(found, password, compare, sign)
  }

  /** The account `signUp` stores once the entity's defaults apply: the
      submitted data with the hashed password, keyed by its email, active and
      not an administrator. */
  function NewAccount(data: SignUpData, hash: string -> string): Account
  {
    Account(data.email, data.name, data.email, hash(data.password), true, false)
  }

  /** An empty `CreateUserDto` value is a key the spread does not carry. */
  function Given(s: string): Option<string>
  {
    if s == [] then None else Some(s)
  }

  /** The data `signUp` hands to `addUser`: the submitted fields with the
      hashed password. Only the fields of `CreateUserDto` are carried, so the
      record gets no `isActive` and no `isAdmin`. */
  function NewRecord(data: SignUpData, hash: string -> string): UsersRepository.User
  {
    UsersRepository.User("", data.email, data.name, hash(data.password), data.address, data.phone,
      Given(data.country), Given(data.city))
  }

  /** The checks `signUp` makes before storing anything, given whether the
      store already holds the email. */
  function SignUpChecks(data: SignUpData, taken: bool): (r: Option<HttpError>)
    ensures r.None? <==> data.email != [] && data.password != [] && !taken
    ensures data.email == [] || data.password == [] ==> r == Some(BadRequest(MissingFields))
    ensures data.email != [] && data.password != [] && taken ==> r == Some(BadRequest(EmailTaken))
  {
    if data.email == [] || data.password == [] then Some(BadRequest(MissingFields))
    else if taken then Some(BadRequest(EmailTaken))
    else None
  }

  /** `signUp` as written, on the in-memory store: `addUser` resolves to the
      email string, so the `id` read from it is undefined and the reply
      carries no id. */
  function SignUpAsWritten(users: seq<UsersRepository.User>, data: SignUpData, hash: string -> string)
    : (r: Result<(seq<UsersRepository.User>, Option<string>)>)
    ensures r.Err? <==> SignUpChecks(data, UsersRepository.GetUserByEmail(users, data.email).Some?).Some?
    ensures r.Err? ==> r.error == SignUpChecks(data, UsersRepository.GetUserByEmail(users, data.email).Some?).value
    ensures r.Ok? ==> r.value.0 == UsersRepository.AddUser(users, NewRecord(data, hash)).0
    ensures r.Ok? ==> r.value.1.None?
  {
    match SignUpChecks(data, UsersRepository.GetUserByEmail(users, data.email).Some?)
    case Some(e) => Err(e)
    case None =>
      Ok((UsersRepository.AddUser(users, NewRecord(data, hash)).0, None))
  }

  /** The discrepancy: every successful sign-up as written stores a record
      whose id is its email, yet answers without an id, where the corrected
      sign-up answers with that same non-empty id. */
  lemma SignUpAsWrittenLosesId(
    users: seq<UsersRepository.User>, accounts: seq<Account>, data: SignUpData, hash: string -> string)
    requires SignUpChecks(data, UsersRepository.GetUserByEmail(users, data.email).Some?).None?
    requires SignUpChecks(data, FindByEmail(accounts, data.email).Some?).None?
    ensures SignUpAsWritten(users, data, hash).Ok? && SignUp(accounts, data, hash).Ok?
    ensures var stored := SignUpAsWritten(users, data, hash).value.0;
      stored[|users|].id == data.email && stored[|users|].email == data.email
    ensures SignUpAsWritten(users, data, hash).value.1 == None
    ensures SignUp(accounts, data, hash).value.1 == Some(data.email) && data.email != []
  {
  }

  /** `signUp` with the reply it evidently intends, on accounts with the
      entity's flags: the id the store gave the new account. The stored
      password is the hash, never the input. */
  function SignUp(accounts: seq<Account>, data: SignUpData, hash: string -> string)
    : (r: Result<(seq<Account>, Option<string>)>)
    ensures r.Err? <==> SignUpChecks(data, FindByEmail(accounts, data.email).Some?).Some?
    ensures r.Err? ==> r.error == SignUpChecks(data, FindByEmail(accounts, data.email).Some?).value
    ensures (r.Ok? ==>
      && |r.value.0| == |accounts| + 1
      && r.value.0[..|accounts|] == accounts
      && r.value.0[|accounts|].email == data.email
      && r.value.0[|accounts|].password == hash(data.password)
      && r.value.1 == Some(r.value.0[|accounts|].id))
  {
    match SignUpChecks(data, FindByEmail(accounts, data.email).Some?)
    case Some(e) => Err(e)
    case None =>
      var stored := accounts + [NewAccount(data, hash)];
      Ok((stored, Some(data.email)))
  }

  /** The corrected reply names an account the store finds: signing in with
      the email and the same password then succeeds for that account. */
  lemma SignUpThenSignIn(
    accounts: seq<Account>, data: SignUpData, hash: string -> string,
    compare: (string, string) -> bool, sign: Claims -> string)
    requires SignUp(accounts, data, hash).Ok?
    requires hash(data.password) != [] && compare(data.password, hash(data.password))
    ensures var (stored, id) := SignUp(accounts, data, hash).value;
      && id == Some(data.email)
      && SignIn(stored, data.email, data.password, compare, sign)
         == Ok(GenerateJwt(stored[|accounts|], sign))
      && SignIn(stored, data.email, data.password, compare, sign).value.user.id == id.value
  {
    var stored := SignUp(accounts, data, hash).value.0;
    assert stored == accounts + [NewAccount(data, hash)];
    assert FindFirst(stored, (a: Account) => a.email == data.email) == Some(|accounts|);
  }

  /** As written, the account just registered cannot sign in: the stored
      record is found by its email, and the password matches, yet the
      answer is the credentials error. */
  lemma SignUpThenSignInAsWritten(
    users: seq<UsersRepository.User>, data: SignUpData, hash: string -> string,
    compare: (string, string) -> bool, sign: Claims -> string)
    requires SignUpAsWritten(users, data, hash).Ok?
    requires hash(data.password) != [] && compare(data.password, hash(data.password))
    ensures var stored := SignUpAsWritten(users, data, hash).value.0;
      && UsersRepository.GetUserByEmail(stored, data.email) == Some(stored[|users|])
      && stored[|users|].password == hash(data.password)
      && SignInAsWritten(stored, data.email, data.password, compare, sign) == Err(Unauthorized(BadCredentials))
  {
    var added := NewRecord(data, hash).(id := data.email);
    FindFirstAppended(users, added, (u: UsersRepository.User) => u.email == data.email);
  }

  /** A second sign-up with the same email is refused as already registered
      and stores nothing. */
  lemma SignUpTwiceRefused(accounts: seq<Account>, data: SignUpData, again: SignUpData, hash: string -> string)
    requires SignUp(accounts, data, hash).Ok?
    requires again.email == data.email && again.password != []
    ensures SignUp(SignUp(accounts, data, hash).value.0, again, hash) == Err(BadRequest(EmailTaken))
  {
    var stored := SignUp(accounts, data, hash).value.0;
    assert stored[|accounts|].email == data.email;
  }

  /** What Google vouches for in a verified ID token. */
  datatype GooglePayload = GooglePayload(email: string, name: string, sub: string)

  /** The details handed to the user store to create a Google account. */
  datatype GoogleProfile = GoogleProfile(email: string, name: string, providerId: string)

  /** `googleLogin` as evidently intended, over accounts with the entity's
      flags. `payload` is the verified ticket's payload (None when it
      has none) and `createGoogleUser` the store's Google-account creation,
      whose effect on the store is not modelled. The answer carries the
      session and the profile passed for creation, if any. */
  function GoogleLogin(
    accounts: seq<Account>, payload: Option<GooglePayload>,
    createGoogleUser: GoogleProfile -> Account, sign: Claims -> string)
    : (r: Result<(Session, Option<GoogleProfile>)>)
    ensures r.Err? <==> payload.None? || payload.value.email == []
    ensures r.Err? ==> r.error == Unauthorized(BadGoogleToken)
    ensures (r.Ok? ==>
      (r.value.1.None? <==> exists j :: 0 <= j < |accounts| && accounts[j].email == payload.value.email))
    ensures (r.Ok? && r.value.1.None? ==>
      r.value.0 == GenerateJwt(FindByEmail(accounts, payload.value.email).value, sign))
    ensures (r.Ok? && r.value.1.Some? ==>
      r.value.1.value.email == payload.value.email
      && r.value.0 == GenerateJwt(createGoogleUser(r.value.1.value), sign))
  {
    if payload.None? || payload.value.email == [] then Err(Unauthorized(BadGoogleToken))
    else
      var p := payload.value;
      match FindByEmail(accounts, p.email)
      case Some(a) => Ok((GenerateJwt(a, sign), None))
      case None =>
        var profile := GoogleProfile(p.email, p.name, p.sub);
        Ok((GenerateJwt(createGoogleUser(profile), sign), Some(profile)))
  }

  /** `googleLogin` as written, on the in-memory store. A known email signs
      in with its record, whose missing `isAdmin` signs as not an
      administrator. For an unknown email the service calls `addGoogleUser`,
      which the store does not define, so the call throws and the server
      answers with an internal error. */
  function GoogleLoginAsWritten(
    users: seq<UsersRepository.User>, payload: Option<GooglePayload>, sign: Claims -> string)
    : (r: Result<Session>)
    ensures payload.None? || payload.value.email == [] ==> r == Err(Unauthorized(BadGoogleToken))
    ensures (payload.Some? && payload.value.email != [] ==>
      (r.Ok? <==> UsersRepository.GetUserByEmail(users, payload.value.email).Some?))
    ensures (r.Ok? ==>
      var u := UsersRepository.GetUserByEmail(users, payload.value.email).value;
      r.value.token == sign(Claims(u.id, u.name, u.email, false)) && r.value.user.id == u.id)
    ensures r.Err? ==> r.error in {Unauthorized(BadGoogleToken), InternalError("Internal server error")}
  {
    if payload.None? || payload.value.email == [] then Err(Unauthorized(BadGoogleToken))
    else match UsersRepository.GetUserByEmail(users, payload.value.email)
      case Some(u) => Ok(GenerateJwt(RecordAccount(u), sign))
      case None => Err(InternalError("Internal server error"))
  }

  /** The discrepancy: a verified Google token for an email nobody holds is a
      server error as written, where the corrected login creates the account
      and signs it in. */
  lemma GoogleLoginAsWrittenNeverCreates(
    users: seq<UsersRepository.User>, accounts: seq<Account>, payload: GooglePayload,
    createGoogleUser: GoogleProfile -> Account, sign: Claims -> string)
    requires payload.email != []
    requires forall j :: 0 <= j < |users| ==> users[j].email != payload.email
    requires forall j :: 0 <= j < |accounts| ==> accounts[j].email != payload.email
    ensures GoogleLoginAsWritten(users, Some(payload), sign) == Err(InternalError("Internal server error"))
    ensures GoogleLogin(accounts, Some(payload), createGoogleUser, sign).Ok?
    ensures GoogleLogin(accounts, Some(payload), createGoogleUser, sign).value.1
      == Some(GoogleProfile(payload.email, payload.name, payload.sub))
  {
  }

  /** A signed-in session's token, once verified, passes the bearer guard
      with the Admin role exactly for administrators. */
  lemma SessionTokenPassesGuard(a: Account, sign: Claims -> string, verify: string -> Verification)
    requires sign(ClaimsOf(a)) != [] && ' ' !in sign(ClaimsOf(a))
    requires verify(sign(ClaimsOf(a))) == Verified(ClaimsOf(a))
    ensures var s := GenerateJwt(a, sign);
      var r := CanActivate(Some("Bearer " + s.token), verify);
      r.Ok? && r.value.claims.id == a.id && (r.value.roles == [Admin] <==> a.isAdmin)
  {
    BearerRoundTrip(sign(ClaimsOf(a)));
  }
}

=== FILE: auth_guard.dfy ===
/** The bearer-token guard: it reads the Authorization header, verifies the
    token and attaches the payload, with a role list, to the request. */
module AuthGuard {
  import opened Wrappers
  import opened Text

  /** The two members of the users' `Role` enum. */
  datatype Role = Admin | User

  /** The fields `generateJwt` signs into every token. */
  datatype Claims = Claims(id: string, name: string, email: string, isAdmin: bool)

  /** What `jwtService.verify` does with a token: return its payload, or
      throw a `TokenExpiredError` or any other error. */
  datatype Verification = Verified(claims: Claims) | Expired | Invalid

  /** `request.user` after the guard: the payload plus its roles. */
  datatype RequestUser = RequestUser(claims: Claims, roles: seq<Role>)

  const NoToken := "No se ha enviado token"
  const ExpiredToken := "El token ha expirado"
  const InvalidToken := "El token no es valido"

  /** The token of an `Authorization` value: the header is split on single
      spaces, the first piece must be exactly `Bearer` and the second piece,
      when there is one, must be non-empty. */
  function BearerToken(header: string): (r: Option<string>)
    ensures r.Some? ==> r.value != [] && ' ' !in r.value
  {
    var pieces := Split(header, ' ');
    if pieces[0] == "Bearer" && |pieces| >= 2 && pieces[1] != [] then Some(pieces[1]) else None
  }

  /** The roles the guard grants for a payload. */
  function RolesFor(c: Claims): (r: seq<Role>)
    ensures |r| == 1
    ensures r[0] == Admin <==> c.isAdmin
  {
    if c.isAdmin then [Admin] else [User]
  }

  /** `canActivate`: a missing or empty header, or one that carries no bearer
      token, is refused before verification; an expired token and any other
      failed verification are refused with different messages. */
  function CanActivate(header: Option<string>, verify: string -> Verification): (r: Result<RequestUser>)
    ensures (r.Ok? <==>
      && header.Some?
      && BearerToken(header.value).Some?
      && verify(BearerToken(header.value).value).Verified?)
    ensures (header.None? || BearerToken(header.value).None? ==>
      r == Err(Unauthorized(NoToken)))
    ensures (r.Ok? ==>
      r.value.claims == verify(BearerToken(header.value).value).claims
      && |r.value.roles| == 1
      && (r.value.roles[0] == Admin <==> r.value.claims.isAdmin))
    ensures (header.Some? && BearerToken(header.value).Some? ==>
      match verify(BearerToken(header.value).value)
      case Expired => r == Err(Unauthorized(ExpiredToken))
      case Invalid => r == Err(Unauthorized(InvalidToken))
      case Verified(_) => r.Ok?)
  {
    if header.None? || header.value == [] then Err(Unauthorized(NoToken))
    else match BearerToken(header.value)
      case None => Err(Unauthorized(NoToken))
      case Some(token) =>
        match verify(token)
        case Verified(c) => Ok(RequestUser(c, RolesFor(c)))
        case Expired => Err(Unauthorized(ExpiredToken))
        case Invalid => Err(Unauthorized(InvalidToken))
  }

  /** A header written as `Bearer <token>` yields exactly that token. */
  lemma BearerRoundTrip(token: string)
    requires token != [] && ' ' !in token
    ensures BearerToken("Bearer " + token) == Some(token)
  {
    SplitPrefix("Bearer", token, ' ');
    SplitNoSep(token, ' ');
    assert "Bearer " + token == "Bearer" + [' '] + token;
  }

  /** Conversely, a header the guard accepts starts with `Bearer`, one space
      and the token, and whatever follows the token begins with a space. */
  lemma {:induction false} BearerShape(header: string)
    requires BearerToken(header).Some?
    ensures var t := BearerToken(header).value;
      && |header| >= 7 + |t|
      && header[..7 + |t|] == "Bearer " + t
      && (|header| == 7 + |t| || header[7 + |t|] == ' ')
  {
    var pieces := Split(header, ' ');
    var t := pieces[1];
    JoinSplit(header, ' ');
    assert header == pieces[0] + [' '] + Join(pieces[1..], ' ');
    var tail := pieces[1..];
    assert "Bearer " + t == "Bearer" + [' '] + t;
    if |tail| == 1 {
      assert header == "Bearer " + t;
    } else {
      var rest := Join(tail[1..], ' ');
      assert Join(tail, ' ') == t + [' '] + rest;
      assert header == ("Bearer " + t) + ([' '] + rest);
    }
  }

  /** Two spaces after `Bearer` leave an empty second piece, so the header
      is refused however valid the token. */
  lemma DoubleSpaceRefused(token: string, verify: string -> Verification)
    ensures CanActivate(Some("Bearer  " + token), verify) == Err(Unauthorized(NoToken))
  {
    SplitPrefix("Bearer", " " + token, ' ');
    SplitPrefix("", token, ' ');
    assert "Bearer  " + token == "Bearer" + [' '] + (" " + token);
    assert " " + token == "" + [' '] + token;
  }
}

=== FILE: carts.dfy ===
/** `CartService`: adding a product to the user's cart, reading the cart and
    removing an item. Each user has at most one cart (a unique index on
    `carts.userId`), created elsewhere; the services here never create one. */
module Carts {
  import opened Wrappers
  import opened Tables
  import opened Commerce

  /** The cart a user-scoped `findOne` returns. */
  function FindCart(carts: seq<Cart>, userId: UserId): (r: Option<nat>)
    ensures r.Some? ==> r.value < |carts| && carts[r.value].userId == userId
    ensures r.None? <==> forall j :: 0 <= j < |carts| ==> carts[j].userId != userId
  {
    FindFirst(carts, (c: Cart) => c.userId == userId)
  }

  /** The item already holding `productId` in cart `cartId`, if any. */
  function FindCartItem(items: seq<CartItem>, cartId: Id, productId: Id): (r: Option<nat>)
    ensures r.Some? ==> r.value < |items| && items[r.value].cartId == cartId && items[r.value].productId == productId
    ensures r.None? <==> forall j :: 0 <= j < |items| ==> !(items[j].cartId == cartId && items[j].productId == productId)
  {
    FindFirst(items, (it: CartItem) => it.cartId == cartId && it.productId == productId)
  }

  /** Total quantity of `productId` held in cart `cartId`, over all rows:
      the reference the merge rule is measured against. */
  function QuantityIn(items: seq<CartItem>, cartId: Id, productId: Id): int
  {
    Sum(items, (it: CartItem) => if it.cartId == cartId && it.productId == productId then it.quantity else 0)
  }

  /** `addToCart`. The DTO validation guarantees `quantity >= 1`. The result
      is the saved cart item. */
  function AddToCart(st: Store, userId: UserId, productId: Id, quantity: int): (r: Result<(Store, CartItem)>)
    requires quantity >= 1
    ensures FindProduct(st.products, productId).None? ==> r == Err(NotFound("Product not found"))
    ensures (FindProduct(st.products, productId).Some? &&
             st.products[FindProduct(st.products, productId).value].stock < quantity) ==>
      r == Err(BadRequest("Not enough stock"))
    ensures (FindProduct(st.products, productId).Some? &&
             st.products[FindProduct(st.products, productId).value].stock >= quantity &&
             FindCart(st.carts, userId).None?) ==>
      r == Err(NotFound("Cart not found"))
    ensures r.Ok? <==>
      && FindProduct(st.products, productId).Some?
      && st.products[FindProduct(st.products, productId).value].stock >= quantity
      && FindCart(st.carts, userId).Some?
    ensures r.Ok? ==>
      var st' := r.value.0;
      && st'.products == st.products && st'.orders == st.orders
      && st'.orderItems == st.orderItems && st'.carts == st.carts
    ensures r.Ok? ==>
      var cart := st.carts[FindCart(st.carts, userId).value];
      && r.value.1.cartId == cart.id && r.value.1.productId == productId
      && r.value.1 in r.value.0.cartItems
  {
    match FindProduct(st.products, productId)
    case None => Err(NotFound("Product not found"))
    case Some(pj) =>
      if st.products[pj].stock < quantity then Err(BadRequest("Not enough stock"))
      else match FindCart(st.carts, userId)
        case None => Err(NotFound("Cart not found"))
        case Some(cj) =>
          var cart := st.carts[cj];
          match FindCartItem(st.cartItems, cart.id, productId)
          case Some(k) =>
            var item := st.cartItems[k].(quantity := st.cartItems[k].quantity + quantity);
            assert st.cartItems[k := item][k] == item;
            Ok((st.(cartItems := st.cartItems[k := item]), item))
          case None =>
            var item := CartItem(st.nextId, cart.id, productId, quantity);
            Ok((st.(cartItems := st.cartItems + [item], nextId := st.nextId + 1), item))
  }

  /** The merge rule: the user's cart ends up holding exactly `quantity`
      more of the product, and every other (cart, product) pair keeps its
      quantity. */
  lemma AddToCartAddsQuantity(st: Store, userId: UserId, productId: Id, quantity: int, cartId: Id, pid: Id)
    requires quantity >= 1
    requires AddToCart(st, userId, productId, quantity).Ok?
    ensures var cart := st.carts[FindCart(st.carts, userId).value];
      QuantityIn(AddToCart(st, userId, productId, quantity).value.0.cartItems, cartId, pid) ==
      QuantityIn(st.cartItems, cartId, pid) + (if cartId == cart.id && pid == productId then quantity else 0)
  {
    var cart := st.carts[FindCart(st.carts, userId).value];
    var f := (it: CartItem) => if it.cartId == cartId && it.productId == pid then it.quantity else 0;
    match FindCartItem(st.cartItems, cart.id, productId)
    case Some(k) =>
      var item := st.cartItems[k].(quantity := st.cartItems[k].quantity + quantity);
      SumUpdate(st.cartItems, k, item, f);
    case None =>
      SumAppend(st.cartItems, CartItem(st.nextId, cart.id, productId, quantity), f);
  }

  /** An existing (cart, product) row absorbs the quantity: no row is added. */
  lemma AddToCartMerges(st: Store, userId: UserId, productId: Id, quantity: int)
    requires quantity >= 1
    requires AddToCart(st, userId, productId, quantity).Ok?
    requires FindCartItem(st.cartItems, st.carts[FindCart(st.carts, userId).value].id, productId).Some?
    ensures var st' := AddToCart(st, userId, productId, quantity).value.0;
      var k := FindCartItem(st.cartItems, st.carts[FindCart(st.carts, userId).value].id, productId).value;
      && |st'.cartItems| == |st.cartItems| && st'.nextId == st.nextId
      && st'.cartItems[k].quantity == st.cartItems[k].quantity + quantity
      && (forall i :: 0 <= i < |st.cartItems| && i != k ==> st'.cartItems[i] == st.cartItems[i])
  {
  }

  /** With no row for the pair, exactly one new row with `quantity` is
      appended under a fresh key. */
  lemma AddToCartAppends(st: Store, userId: UserId, productId: Id, quantity: int)
    requires quantity >= 1
    requires AddToCart(st, userId, productId, quantity).Ok?
    requires FindCartItem(st.cartItems, st.carts[FindCart(st.carts, userId).value].id, productId).None?
    ensures var st' := AddToCart(st, userId, productId, quantity).value.0;
      && st'.cartItems == st.cartItems + [CartItem(st.nextId, st.carts[FindCart(st.carts, userId).value].id, productId, quantity)]
      && st'.nextId == st.nextId + 1
  {
  }

  /** The unique index on (cart, product) survives `addToCart`. */
  lemma AddToCartKeepsUnique(st: Store, userId: UserId, productId: Id, quantity: int)
    requires quantity >= 1
    requires UniqueCartProduct(st.cartItems)
    requires AddToCart(st, userId, productId, quantity).Ok?
    ensures UniqueCartProduct(AddToCart(st, userId, productId, quantity).value.0.cartItems)
  {
  }

  /** The stock check looks at the increment only: a cart already holding
      the whole stock still accepts one more unit when stock is positive. */
  lemma AddToCartChecksIncrementOnly(st: Store, userId: UserId, productId: Id)
    requires FindProduct(st.products, productId).Some? && FindCart(st.carts, userId).Some?
    requires st.products[FindProduct(st.products, productId).value].stock >= 1
    ensures AddToCart(st, userId, productId, 1).Ok?
  {
  }

  /** `getCart`: the user's cart with its items, or nothing; no cart is
      created on the way. */
  function GetCart(st: Store, userId: UserId): (r: Option<(Cart, seq<CartItem>)>)
    ensures r.None? <==> forall j :: 0 <= j < |st.carts| ==> st.carts[j].userId != userId
    ensures r.Some? ==> r.value.0 in st.carts && r.value.0.userId == userId
    ensures r.Some? ==>
      && (forall i :: 0 <= i < |r.value.1| ==> r.value.1[i] in st.cartItems && r.value.1[i].cartId == r.value.0.id)
      && (forall i :: 0 <= i < |st.cartItems| && st.cartItems[i].cartId == r.value.0.id ==> st.cartItems[i] in r.value.1)
  {
    match FindCart(st.carts, userId)
    case None => None
    case Some(j) =>
      var cart := st.carts[j];
      Some((cart, Filter(st.cartItems, (it: CartItem) => it.cartId == cart.id)))
  }

  /** `removeItem`: `DELETE FROM cart_items WHERE id = itemId`; the result is
      the number of rows affected. A missing id deletes nothing and is not
      an error. */
  function RemoveItem(st: Store, itemId: Id): (r: (Store, nat))
    ensures forall i :: 0 <= i < |r.0.cartItems| ==> r.0.cartItems[i].id != itemId && r.0.cartItems[i] in st.cartItems
    ensures forall i :: 0 <= i < |st.cartItems| && st.cartItems[i].id != itemId ==> st.cartItems[i] in r.0.cartItems
    ensures r.0.products == st.products && r.0.orders == st.orders && r.0.orderItems == st.orderItems
    ensures r.0.carts == st.carts && r.0.nextId == st.nextId
    ensures r.1 == 0 <==> forall i :: 0 <= i < |st.cartItems| ==> st.cartItems[i].id != itemId
  {
    var keep := (it: CartItem) => it.id != itemId;
    var left := Filter(st.cartItems, keep);
    (st.(cartItems := left), Count(st.cartItems, (it: CartItem) => it.id == itemId))
  }

  /** Removing an id no item has leaves the store exactly as it was. */
  lemma RemoveAbsentItem(st: Store, itemId: Id)
    requires forall i :: 0 <= i < |st.cartItems| ==> st.cartItems[i].id != itemId
    ensures RemoveItem(st, itemId) == (st, 0)
  {
    FilterKeepsAll(st.cartItems, (it: CartItem) => it.id != itemId);
  }

  /** Removing is idempotent. */
  lemma RemoveItemIdempotent(st: Store, itemId: Id)
    ensures RemoveItem(RemoveItem(st, itemId).0, itemId) == (RemoveItem(st, itemId).0, 0)
  {
    RemoveAbsentItem(RemoveItem(st, itemId).0, itemId);
  }
}

=== FILE: chat.dfy ===
/** `ChatService`: private and support conversations, their participants
    and messages. Conversations are never removed: deleting one clears its
    active flag and blocking one sets its blocked flag. */
module Chat {
  import opened Wrappers
  import opened Tables

  type UserId = string
  type Id = nat

  datatype ChatUser = ChatUser(id: UserId, isSupportAdmin: bool)

  datatype ConversationType = Private | Support

  /** A new conversation is active and not blocked. */
  datatype Conversation = Conversation(id: Id, kind: ConversationType, isActive: bool, isBlocked: bool, createdAt: int)

  datatype Participant = Participant(id: Id, userId: UserId, conversationId: Id)

  datatype Message = Message(id: Id, conversationId: Id, senderId: UserId, content: string, isRead: bool, createdAt: int)

  datatype ChatStore = ChatStore(
    users: seq<ChatUser>,
    conversations: seq<Conversation>,
    participants: seq<Participant>,
    messages: seq<Message>,
    nextId: nat)

  /** `users.id` is the primary key. */
  predicate UniqueUserIds(users: seq<ChatUser>)
  {
    forall i, j :: 0 <= i < j < |users| ==> users[i].id != users[j].id
  }

  predicate NoDuplicates(ids: seq<UserId>)
  {
    forall i, j :: 0 <= i < j < |ids| ==> ids[i] != ids[j]
  }

  predicate UserExists(users: seq<ChatUser>, id: UserId)
  {
    exists j :: 0 <= j < |users| && users[j].id == id
  }

  /** `isUserInConversation`. */
  predicate IsParticipant(participants: seq<Participant>, userId: UserId, conversationId: Id)
  {
    exists j :: 0 <= j < |participants| && participants[j].userId == userId && participants[j].conversationId == conversationId
  }

  function FindConversation(conversations: seq<Conversation>, id: Id): (r: Option<nat>)
    ensures r.Some? ==> r.value < |conversations| && conversations[r.value].id == id
    ensures r.None? <==> forall j :: 0 <= j < |conversations| ==> conversations[j].id != id
  {
    FindFirst(conversations, (c: Conversation) => c.id == id)
  }

  // ---------------------------------------------------------------------------
  // Conversation creation
  // ---------------------------------------------------------------------------

  /** Size of `findBy({ id: In(participantIds) })`: the users whose key is
      among the ids. */
  function UsersFound(users: seq<ChatUser>, ids: seq<UserId>): nat
  {
    Count(users, (u: ChatUser) => u.id in ids)
  }

  /** The keys of a user table. */
  function KeySet(users: seq<ChatUser>): set<UserId>
  {
    if |users| == 0 then {} else {users[0].id} + KeySet(users[1..])
  }

  lemma {:induction false} KeySetMembers(users: seq<ChatUser>, x: UserId)
    ensures x in KeySet(users) <==> UserExists(users, x)
  {
    if |users| > 0 {
      KeySetMembers(users[1..], x);
      if UserExists(users[1..], x) {
        var j :| 0 <= j < |users[1..]| && users[1..][j].id == x;
        assert users[j + 1].id == x;
      }
      if UserExists(users, x) && x != users[0].id {
        var j :| 0 <= j < |users| && users[j].id == x;
        assert users[1..][j - 1].id == x;
      }
    }
  }

  function ElementSet(ids: seq<UserId>): (s: set<UserId>)
    ensures forall x :: x in s <==> x in ids
  {
    set x | x in ids
  }

  /** With unique keys, the lookup finds one user per distinct existing id. */
  lemma {:induction false} UsersFoundIsOverlap(users: seq<ChatUser>, ids: seq<UserId>)
    requires UniqueUserIds(users)
    ensures UsersFound(users, ids) == |KeySet(users) * ElementSet(ids)|
  {
    if |users| > 0 {
      UsersFoundIsOverlap(users[1..], ids);
      var x := users[0].id;
      var a := KeySet(users[1..]);
      var b := ElementSet(ids);
      KeySetMembers(users[1..], x);
      if x in ids {
        assert KeySet(users) * b == (a * b) + {x};
      } else {
        assert KeySet(users) * b == a * b;
      }
    }
  }

  /** A list has as many distinct elements as entries exactly when it has no
      repeated entry. */
  lemma {:induction false} DistinctCount(ids: seq<UserId>)
    ensures |ElementSet(ids)| <= |ids|
    ensures |ElementSet(ids)| == |ids| <==> NoDuplicates(ids)
  {
    if |ids| > 0 {
      DistinctCount(ids[1..]);
      var rest := ElementSet(ids[1..]);
      assert ElementSet(ids) == {ids[0]} + rest;
      if ids[0] in ids[1..] {
        assert ElementSet(ids) == rest;
        var j :| 0 <= j < |ids[1..]| && ids[1..][j] == ids[0];
        assert ids[0] == ids[j + 1];
      } else {
        assert NoDuplicates(ids) <==> NoDuplicates(ids[1..]) by {
          if NoDuplicates(ids[1..]) {
            forall i, j | 0 <= i < j < |ids| ensures ids[i] != ids[j] {
              if i > 0 {
                assert ids[i] == ids[1..][i - 1] && ids[j] == ids[1..][j - 1];
              } else {
                assert ids[j] in ids[1..];
              }
            }
          }
        }
      }
    }
  }

  lemma SubsetOfSameSize<T>(a: set<T>, b: set<T>)
    requires a <= b && |a| == |b|
    ensures a == b
  {
    if a != b {
      var z :| z in b && z !in a;
      assert a <= b - {z};
      assert |b - {z}| == |b| - 1;
      SubsetSize(a, b - {z});
    }
  }

  lemma {:induction false} SubsetSize<T>(a: set<T>, b: set<T>)
    requires a <= b
    ensures |a| <= |b|
    decreases |a|
  {
    if a != {} {
      var z :| z in a;
      SubsetSize(a - {z}, b - {z});
    }
  }

  /** The existence check of `createConversation` refuses an unknown id and
      a repeated id alike: with unique user keys it passes exactly when
      every id is a user and no id repeats. */
  lemma UsersCheckIff(users: seq<ChatUser>, ids: seq<UserId>)
    requires UniqueUserIds(users)
    ensures UsersFound(users, ids) == |ids| <==>
      (forall i :: 0 <= i < |ids| ==> UserExists(users, ids[i])) && NoDuplicates(ids)
  {
    UsersFoundIsOverlap(users, ids);
    DistinctCount(ids);
    var k := KeySet(users);
    var e := ElementSet(ids);
    SubsetSize(k * e, e);
    if UsersFound(users, ids) == |ids| {
      SubsetOfSameSize(k * e, e);
      forall i | 0 <= i < |ids| ensures UserExists(users, ids[i]) {
        assert ids[i] in e;
        KeySetMembers(users, ids[i]);
      }
    }
    if (forall i :: 0 <= i < |ids| ==> UserExists(users, ids[i])) && NoDuplicates(ids) {
      forall x | x in e ensures x in k {
        KeySetMembers(users, x);
        var i :| 0 <= i < |ids| && ids[i] == x;
      }
      assert k * e == e;
    }
  }

  /** The private conversation the dedup query returns: type PRIVATE and
      exactly two participant rows whose user is among the ids. Activity is
      not looked at. */
  predicate LinksPair(participants: seq<Participant>, c: Conversation, ids: seq<UserId>)
  {
    c.kind == Private &&
    Count(participants, (p: Participant) => p.conversationId == c.id && p.userId in ids) == 2
  }

  function FindPrivate(st: ChatStore, ids: seq<UserId>): (r: Option<nat>)
    ensures r.Some? ==> r.value < |st.conversations| && LinksPair(st.participants, st.conversations[r.value], ids)
    ensures r.None? <==> forall j :: 0 <= j < |st.conversations| ==> !LinksPair(st.participants, st.conversations[j], ids)
  {
    FindFirst(st.conversations, (c: Conversation) => LinksPair(st.participants, c, ids))
  }

  /** One participant row per id, in order, with consecutive fresh keys. */
  function Enroll(ids: seq<UserId>, conversationId: Id, firstKey: nat): (r: seq<Participant>)
    ensures |r| == |ids|
    ensures forall k :: 0 <= k < |ids| ==> r[k] == Participant(firstKey + k, ids[k], conversationId)
  {
    seq(|ids|, k requires 0 <= k < |ids| => Participant(firstKey + k, ids[k], conversationId))
  }

  /** `createConversation`. */
  function CreateConversation(st: ChatStore, kind: ConversationType, ids: seq<UserId>, now: int)
    : (r: Result<(ChatStore, Conversation)>)
    ensures r.Err? <==> UsersFound(st.users, ids) != |ids|
    ensures r.Err? ==> r.error == BadRequest("Algunos usuarios no existen")
    ensures (r.Ok? && kind == Private && |ids| == 2 && FindPrivate(st, ids).Some?) ==>
      r.value == (st, st.conversations[FindPrivate(st, ids).value])
    ensures (r.Ok? && !(kind == Private && |ids| == 2 && FindPrivate(st, ids).Some?)) ==>
      var c := r.value.1;
      && c == Conversation(st.nextId, kind, true, false, now)
      && r.value.0.conversations == st.conversations + [c]
      && r.value.0.participants == st.participants + Enroll(ids, c.id, st.nextId + 1)
      && r.value.0.users == st.users && r.value.0.messages == st.messages
  {
    if UsersFound(st.users, ids) != |ids| then Err(BadRequest("Algunos usuarios no existen"))
    else if kind == Private && |ids| == 2 && FindPrivate(st, ids).Some? then
      Ok((st, st.conversations[FindPrivate(st, ids).value]))
    else
      var c := Conversation(st.nextId, kind, true, false, now);
      Ok((st.(conversations := st.conversations + [c],
              participants := st.participants + Enroll(ids, c.id, st.nextId + 1),
              nextId := st.nextId + 1 + |ids|), c))
  }

  /** After a successful creation every listed user takes part in the
      returned conversation. */
  lemma CreatedConversationHasEveryone(st: ChatStore, kind: ConversationType, ids: seq<UserId>, now: int, i: nat)
    requires CreateConversation(st, kind, ids, now).Ok?
    requires i < |ids|
    requires !(kind == Private && |ids| == 2 && FindPrivate(st, ids).Some?)
    ensures var (st', c) := CreateConversation(st, kind, ids, now).value;
      IsParticipant(st'.participants, ids[i], c.id)
  {
    var (st', c) := CreateConversation(st, kind, ids, now).value;
    assert st'.participants[|st.participants| + i] == Participant(st.nextId + 1 + i, ids[i], c.id);
  }

  // ---------------------------------------------------------------------------
  // Messages
  // ---------------------------------------------------------------------------

  /** `createMessage`. The saved message is unread and stamped `now`. */
  function CreateMessage(st: ChatStore, senderId: UserId, conversationId: Id, content: string, now: int)
    : (r: Result<(ChatStore, Message)>)
    ensures FindConversation(st.conversations, conversationId).None? ==>
      r == Err(NotFound("Conversacion no encontrada"))
    ensures r.Ok? <==>
      && FindConversation(st.conversations, conversationId).Some?
      && st.conversations[FindConversation(st.conversations, conversationId).value].isActive
      && !st.conversations[FindConversation(st.conversations, conversationId).value].isBlocked
      && IsParticipant(st.participants, senderId, conversationId)
    ensures r.Ok? ==>
      && r.value.1 == Message(st.nextId, conversationId, senderId, content, false, now)
      && r.value.0 == st.(messages := st.messages + [r.value.1], nextId := st.nextId + 1)
  {
    match FindConversation(st.conversations, conversationId)
    case None => Err(NotFound("Conversacion no encontrada"))
    case Some(j) =>
      var c := st.conversations[j];
      if !c.isActive then Err(Forbidden("Esta conversacion fue eliminada"))
      else if c.isBlocked then Err(Forbidden("Esta conversacion esta bloqueada"))
      else if !IsParticipant(st.participants, senderId, conversationId) then
        Err(Forbidden("No perteneces a esta conversacion"))
      else
        var m := Message(st.nextId, conversationId, senderId, content, false, now);
        Ok((st.(messages := st.messages + [m], nextId := st.nextId + 1), m))
  }

  /** The guards are tried in order: deletion, then blocking, then
      membership. */
  lemma CreateMessageGuardOrder(st: ChatStore, senderId: UserId, conversationId: Id, content: string, now: int)
    requires FindConversation(st.conversations, conversationId).Some?
    ensures var c := st.conversations[FindConversation(st.conversations, conversationId).value];
      && (!c.isActive ==> CreateMessage(st, senderId, conversationId, content, now) == Err(Forbidden("Esta conversacion fue eliminada")))
      && (c.isActive && c.isBlocked ==>
            CreateMessage(st, senderId, conversationId, content, now) == Err(Forbidden("Esta conversacion esta bloqueada")))
      && (c.isActive && !c.isBlocked && !IsParticipant(st.participants, senderId, conversationId) ==>
            CreateMessage(st, senderId, conversationId, content, now) == Err(Forbidden("No perteneces a esta conversacion")))
  {
  }

  function MessageCreatedAt(m: Message): int
  {
    m.createdAt
  }

  /** Whether `getMessages` by `userId` marks this message read. */
  predicate MarkedFor(m: Message, conversationId: Id, userId: UserId)
  {
    m.conversationId == conversationId && m.senderId != userId && !m.isRead
  }

  function MarkRead(messages: seq<Message>, conversationId: Id, userId: UserId): (r: seq<Message>)
    ensures |r| == |messages|
    ensures forall i :: 0 <= i < |messages| ==>
      r[i] == messages[i].(isRead := messages[i].isRead || MarkedFor(messages[i], conversationId, userId))
  {
    seq(|messages|, i requires 0 <= i < |messages| =>
      if MarkedFor(messages[i], conversationId, userId) then messages[i].(isRead := true) else messages[i])
  }

  /** The messages of one conversation, oldest first. */
  function History(messages: seq<Message>, conversationId: Id): (r: seq<Message>)
    ensures SortedAsc(r, MessageCreatedAt)
    ensures multiset(r) == multiset(Filter(messages, (m: Message) => m.conversationId == conversationId))
    ensures forall i :: 0 <= i < |r| ==> r[i] in messages && r[i].conversationId == conversationId
    ensures forall i :: 0 <= i < |messages| && messages[i].conversationId == conversationId ==> messages[i] in r
  {
    SortAsc(Filter(messages, (m: Message) => m.conversationId == conversationId), MessageCreatedAt)
  }

  /** `getMessages`: the conversation's messages as they were before the
      call, oldest first; then the messages others sent there are marked
      read. */
  function GetMessages(st: ChatStore, conversationId: Id, userId: UserId): (r: Result<(ChatStore, seq<Message>)>)
    ensures !IsParticipant(st.participants, userId, conversationId) ==>
      r == Err(Forbidden("No perteneces a esta conversacion"))
    ensures r.Ok? <==>
      && IsParticipant(st.participants, userId, conversationId)
      && FindConversation(st.conversations, conversationId).Some?
      && st.conversations[FindConversation(st.conversations, conversationId).value].isActive
    ensures r.Err? ==> r.error in {Forbidden("No perteneces a esta conversacion"), NotFound("Conversacion no encontrada")}
    ensures r.Ok? ==>
      var (st', shown) := r.value;
      && SortedAsc(shown, MessageCreatedAt)
      && multiset(shown) == multiset(Filter(st.messages, (m: Message) => m.conversationId == conversationId))
      && (forall i :: 0 <= i < |shown| ==> shown[i] in st.messages && shown[i].conversationId == conversationId)
      && (forall i :: 0 <= i < |st.messages| && st.messages[i].conversationId == conversationId ==> st.messages[i] in shown)
      && st' == st.(messages := st'.messages)
      && |st'.messages| == |st.messages|
      && (forall i :: 0 <= i < |st.messages| ==>
            st'.messages[i].isRead == (st.messages[i].isRead || MarkedFor(st.messages[i], conversationId, userId)) &&
            st'.messages[i].(isRead := st.messages[i].isRead) == st.messages[i])
  {
    if !IsParticipant(st.participants, userId, conversationId) then Err(Forbidden("No perteneces a esta conversacion"))
    else match FindConversation(st.conversations, conversationId)
      case None => Err(NotFound("Conversacion no encontrada"))
      case Some(j) =>
        if !st.conversations[j].isActive then Err(NotFound("Conversacion no encontrada"))
        else
          Ok((st.(messages := MarkRead(st.messages, conversationId, userId)), History(st.messages, conversationId)))
  }

  /** Reading again marks nothing more: the second read leaves the store
      as the first one left it, and the caller's own messages are never
      touched. */
  lemma GetMessagesIdempotent(st: ChatStore, conversationId: Id, userId: UserId)
    requires GetMessages(st, conversationId, userId).Ok?
    ensures var st1 := GetMessages(st, conversationId, userId).value.0;
      GetMessages(st1, conversationId, userId).Ok? && GetMessages(st1, conversationId, userId).value.0 == st1
  {
    var st1 := GetMessages(st, conversationId, userId).value.0;
    var st2 := GetMessages(st1, conversationId, userId).value.0;
    assert st2.messages == st1.messages;
  }

  lemma GetMessagesKeepsOwn(st: ChatStore, conversationId: Id, userId: UserId, i: nat)
    requires GetMessages(st, conversationId, userId).Ok?
    requires i < |st.messages| && (st.messages[i].senderId == userId || st.messages[i].conversationId != conversationId)
    ensures GetMessages(st, conversationId, userId).value.0.messages[i] == st.messages[i]
  {
  }

  // ---------------------------------------------------------------------------
  // Support conversations
  // ---------------------------------------------------------------------------

  function SupportContent(subject: string, detail: string): string
  {
    "Asunto: " + subject + "\n\n" + detail
  }

  predicate OpenSupportWith(participants: seq<Participant>, c: Conversation, userId: UserId, adminId: UserId)
  {
    c.kind == Support && c.isActive && IsParticipant(participants, userId, c.id) && IsParticipant(participants, adminId, c.id)
  }

  /** The where-clause of the existing-conversation query. */
  function SupportWith(participants: seq<Participant>, userId: UserId, adminId: UserId): Conversation -> bool
  {
    (c: Conversation) => OpenSupportWith(participants, c, userId, adminId)
  }

  /** Every conversation key is below the next key. */
  predicate ConversationKeysBelowNext(st: ChatStore)
  {
    forall k :: 0 <= k < |st.conversations| ==> st.conversations[k].id < st.nextId
  }

  /** The conversation a support request goes to: the first active
      support conversation shared by the user and the admin, or a new one
      with the two of them as participants. */
  function SupportThread(st: ChatStore, userId: UserId, adminId: UserId, now: int): (r: (ChatStore, Conversation))
    ensures OpenSupportWith(r.0.participants, r.1, userId, adminId)
    ensures r.1 in r.0.conversations
    ensures r.0.users == st.users && r.0.messages == st.messages
    ensures (FindFirst(st.conversations, SupportWith(st.participants, userId, adminId)).Some? ==>
      r == (st, st.conversations[FindFirst(st.conversations, SupportWith(st.participants, userId, adminId)).value]))
    ensures (FindFirst(st.conversations, SupportWith(st.participants, userId, adminId)).None? ==>
      && r.1 == Conversation(st.nextId, Support, true, false, now)
      && r.0.conversations == st.conversations + [r.1]
      && r.0.participants == st.participants
           + [Participant(st.nextId + 1, userId, r.1.id), Participant(st.nextId + 2, adminId, r.1.id)]
      && r.0.nextId == st.nextId + 3)
    ensures ConversationKeysBelowNext(st) ==> ConversationKeysBelowNext(r.0)
  {
    match FindFirst(st.conversations, SupportWith(st.participants, userId, adminId))
    case Some(j) => (st, st.conversations[j])
    case None =>
      var c := Conversation(st.nextId, Support, true, false, now);
      var ps := [Participant(st.nextId + 1, userId, c.id), Participant(st.nextId + 2, adminId, c.id)];
      var parts := st.participants + ps;
      assert parts[|st.participants|] == ps[0] && parts[|st.participants| + 1] == ps[1];
      var conversations := st.conversations + [c];
      assert conversations[|st.conversations|] == c;
      (st.(conversations := conversations, participants := parts, nextId := st.nextId + 3), c)
  }

  /** `createSupportConversation`: reuse the user's active support
      conversation with the first support admin, or open one; then post the
      subject and detail as the user's message. Blocking is not checked. */
  function CreateSupportConversation(st: ChatStore, userId: UserId, subject: string, detail: string, now: int)
    : (r: Result<(ChatStore, Conversation)>)
    ensures r.Err? <==> forall j :: 0 <= j < |st.users| ==> !st.users[j].isSupportAdmin
    ensures r.Err? ==> r.error == NotFound("No hay administrador de soporte disponible")
    ensures r.Ok? ==>
      var (st', c) := r.value;
      && c.kind == Support && c.isActive
      && c in st'.conversations
      && (exists j :: 0 <= j < |st.users| && st.users[j].isSupportAdmin &&
            OpenSupportWith(st'.participants, c, userId, st.users[j].id))
      && |st'.messages| == |st.messages| + 1
      && st'.messages[..|st.messages|] == st.messages
      && st'.messages[|st.messages|].content == SupportContent(subject, detail)
      && st'.messages[|st.messages|].senderId == userId
      && st'.messages[|st.messages|].conversationId == c.id
      && st'.users == st.users
    ensures r.Ok? ==>
      var admin := st.users[FindFirst(st.users, (u: ChatUser) => u.isSupportAdmin).value].id;
      var (st1, c) := SupportThread(st, userId, admin, now);
      && r.value.1 == c
      && r.value.0.conversations == st1.conversations
      && r.value.0.participants == st1.participants
    ensures r.Ok? && ConversationKeysBelowNext(st) ==> ConversationKeysBelowNext(r.value.0)
  {
    match FindFirst(st.users, (u: ChatUser) => u.isSupportAdmin)
    case None => Err(NotFound("No hay administrador de soporte disponible"))
    case Some(a) =>
      var (st1, c) := SupportThread(st, userId, st.users[a].id, now);
      var m := Message(st1.nextId, c.id, userId, SupportContent(subject, detail), false, now);
      Ok((st1.(messages := st1.messages + [m], nextId := st1.nextId + 1), c))
  }

  /** A second support request by the same user goes to the conversation
      the first one used, and opens no conversation and enrols nobody. */
  lemma SupportRequestReusesThread(
    st: ChatStore, userId: UserId, subject: string, detail: string, now: int,
    subject2: string, detail2: string, now2: int)
    requires ConversationKeysBelowNext(st)
    requires CreateSupportConversation(st, userId, subject, detail, now).Ok?
    ensures var (st1, c) := CreateSupportConversation(st, userId, subject, detail, now).value;
      var r2 := CreateSupportConversation(st1, userId, subject2, detail2, now2);
      && r2.Ok? && r2.value.1 == c
      && r2.value.0.conversations == st1.conversations
      && r2.value.0.participants == st1.participants
  {
    var a := FindFirst(st.users, (u: ChatUser) => u.isSupportAdmin).value;
    var admin := st.users[a].id;
    var (st1, c) := CreateSupportConversation(st, userId, subject, detail, now).value;
    var (t, c') := SupportThread(st, userId, admin, now);
    assert st1.users == st.users;
    SupportThreadFoundAgain(st, userId, admin, now);
    FindFirstSamePattern(t.conversations, SupportWith(t.participants, userId, admin),
                         st1.conversations, SupportWith(st1.participants, userId, admin));
  }

  /** After `SupportThread`, the thread it returned is the first one the
      same query finds. */
  lemma SupportThreadFoundAgain(st: ChatStore, userId: UserId, adminId: UserId, now: int)
    requires ConversationKeysBelowNext(st)
    ensures var (t, c) := SupportThread(st, userId, adminId, now);
      FindFirst(t.conversations, SupportWith(t.participants, userId, adminId)).Some?
      && t.conversations[FindFirst(t.conversations, SupportWith(t.participants, userId, adminId)).value] == c
  {
    var p := SupportWith(st.participants, userId, adminId);
    var (t, c) := SupportThread(st, userId, adminId, now);
    if FindFirst(st.conversations, p).None? {
      var q := SupportWith(t.participants, userId, adminId);
      forall k | 0 <= k < |st.conversations|
        ensures !q(st.conversations[k])
      {
        var ck := st.conversations[k];
        assert !p(ck);
        assert ck.id != c.id;
        if IsParticipant(t.participants, userId, ck.id) {
          var i :| 0 <= i < |t.participants| && t.participants[i].userId == userId && t.participants[i].conversationId == ck.id;
          assert i < |st.participants|;
          assert st.participants[i] == t.participants[i];
        }
        if IsParticipant(t.participants, adminId, ck.id) {
          var i :| 0 <= i < |t.participants| && t.participants[i].userId == adminId && t.participants[i].conversationId == ck.id;
          assert i < |st.participants|;
          assert st.participants[i] == t.participants[i];
        }
      }
      FindFirstAppended(st.conversations, c, q);
    }
  }

  // ---------------------------------------------------------------------------
  // Soft delete and block
  // ---------------------------------------------------------------------------

  /** The store with conversation `j` replaced and nothing else changed. */
  function PutConversation(st: ChatStore, j: nat, c: Conversation): (r: ChatStore)
    requires j < |st.conversations|
    ensures |r.conversations| == |st.conversations| && r.conversations[j] == c
    ensures forall i :: 0 <= i < |st.conversations| && i != j ==> r.conversations[i] == st.conversations[i]
    ensures r == st.(conversations := r.conversations)
  {
    st.(conversations := st.conversations[j := c])
  }

  /** `blockConversation`. */
  function BlockConversation(st: ChatStore, id: Id): (r: Result<(ChatStore, string)>)
    ensures r.Err? <==> FindConversation(st.conversations, id).None?
    ensures r.Err? ==> r.error == NotFound("Conversacion no encontrada")
    ensures r.Ok? ==>
      var j := FindConversation(st.conversations, id).value;
      r.value == (PutConversation(st, j, st.conversations[j].(isBlocked := true)), "Conversacion bloqueada correctamente")
  {
    match FindConversation(st.conversations, id)
    case None => Err(NotFound("Conversacion no encontrada"))
    case Some(j) =>
      Ok((PutConversation(st, j, st.conversations[j].(isBlocked := true)), "Conversacion bloqueada correctamente"))
  }

  /** `deleteConversation`: participants only. */
  function DeleteConversation(st: ChatStore, id: Id, userId: UserId): (r: Result<(ChatStore, string)>)
    ensures FindConversation(st.conversations, id).None? ==> r == Err(NotFound("Conversacion no encontrada"))
    ensures (FindConversation(st.conversations, id).Some? && !IsParticipant(st.participants, userId, id)) ==>
      r == Err(Forbidden("No tienes permiso para eliminar esta conversacion"))
    ensures r.Ok? <==> FindConversation(st.conversations, id).Some? && IsParticipant(st.participants, userId, id)
    ensures r.Ok? ==>
      var j := FindConversation(st.conversations, id).value;
      r.value == (PutConversation(st, j, st.conversations[j].(isActive := false)), "Conversacion eliminada correctamente")
  {
    match FindConversation(st.conversations, id)
    case None => Err(NotFound("Conversacion no encontrada"))
    case Some(j) =>
      if !IsParticipant(st.participants, userId, id) then Err(Forbidden("No tienes permiso para eliminar esta conversacion"))
      else Ok((PutConversation(st, j, st.conversations[j].(isActive := false)), "Conversacion eliminada correctamente"))
  }

  /** `deleteConversationAsAdmin`: no membership check. */
  function DeleteConversationAsAdmin(st: ChatStore, id: Id): (r: Result<(ChatStore, string)>)
    ensures r.Err? <==> FindConversation(st.conversations, id).None?
    ensures r.Err? ==> r.error == NotFound("Conversacion no encontrada")
    ensures r.Ok? ==>
      var j := FindConversation(st.conversations, id).value;
      r.value == (PutConversation(st, j, st.conversations[j].(isActive := false)), "Conversacion eliminada correctamente por admin")
  {
    match FindConversation(st.conversations, id)
    case None => Err(NotFound("Conversacion no encontrada"))
    case Some(j) =>
      Ok((PutConversation(st, j, st.conversations[j].(isActive := false)), "Conversacion eliminada correctamente por admin"))
  }

  /** A deleted conversation refuses new messages and can no longer be read;
      every row is still there. */
  lemma DeletedConversationIsClosed(st: ChatStore, id: Id, userId: UserId, senderId: UserId, content: string, now: int)
    requires DeleteConversationAsAdmin(st, id).Ok?
    ensures var st' := DeleteConversationAsAdmin(st, id).value.0;
      && |st'.conversations| == |st.conversations| && st'.messages == st.messages && st'.participants == st.participants
      && CreateMessage(st', senderId, id, content, now) == Err(Forbidden("Esta conversacion fue eliminada"))
      && GetMessages(st', id, userId).Err?
  {
    var st' := DeleteConversationAsAdmin(st, id).value.0;
    var j := FindConversation(st.conversations, id).value;
    assert FindConversation(st'.conversations, id) == Some(j) by {
      FindFirstSamePattern(st.conversations, (c: Conversation) => c.id == id, st'.conversations, (c: Conversation) => c.id == id);
    }
  }

  /** A blocked conversation that is still active refuses new messages. */
  lemma BlockedConversationRefusesMessages(st: ChatStore, id: Id, senderId: UserId, content: string, now: int)
    requires BlockConversation(st, id).Ok?
    requires st.conversations[FindConversation(st.conversations, id).value].isActive
    ensures CreateMessage(BlockConversation(st, id).value.0, senderId, id, content, now) ==
      Err(Forbidden("Esta conversacion esta bloqueada"))
  {
    var st' := BlockConversation(st, id).value.0;
    var j := FindConversation(st.conversations, id).value;
    assert FindConversation(st'.conversations, id) == Some(j) by {
      FindFirstSamePattern(st.conversations, (c: Conversation) => c.id == id, st'.conversations, (c: Conversation) => c.id == id);
    }
  }
}

=== FILE: chat_gateway.dfy ===
/** `ChatGateway`: the `joinConversation` socket event. The payload parser
    and the membership gate are modelled; the socket itself (rooms,
    disconnects, logging) is reduced to the outcome of the handler. */
module ChatGateway {
  import opened Wrappers
  import opened Text
  import opened Chat

  /** One property of an object payload: missing, a string, or some other
      value. */
  datatype Field = Missing | Str(s: string) | NotString

  /** A socket payload: a string, a non-null object, or anything else
      (null, a number, a boolean). */
  datatype Payload = StringPayload(s: string) | Object(conversationId: Field, id: Field) | OtherValue

  /** A string that `typeof x === 'string' && x.trim().length > 0` accepts. */
  predicate Usable(f: Field)
  {
    f.Str? && Trim(f.s) != []
  }

  /** `extractConversationId`. */
  function ExtractConversationId(p: Payload): (r: Option<string>)
    ensures p.StringPayload? ==> (r.Some? <==> Trim(p.s) != []) && (r.Some? ==> r.value == p.s)
    ensures p.Object? && Usable(p.conversationId) ==> r == Some(p.conversationId.s)
    ensures p.Object? && !Usable(p.conversationId) && Usable(p.id) ==> r == Some(p.id.s)
    ensures p.Object? && !Usable(p.conversationId) && !Usable(p.id) ==> r.None?
    ensures p.OtherValue? ==> r.None?
  {
    match p
    case StringPayload(s) => if Trim(s) != [] then Some(s) else None
    case Object(cid, id) =>
      if Usable(cid) then Some(cid.s)
      else if Usable(id) then Some(id.s)
      else None
    case OtherValue => None
  }

  /** Whatever the payload, an extracted id is never blank, and it is
      returned as sent, surrounding whitespace included. */
  lemma ExtractedIdIsNotBlank(p: Payload)
    requires ExtractConversationId(p).Some?
    ensures !IsBlank(ExtractConversationId(p).value)
    ensures Trim(ExtractConversationId(p).value) != []
  {
    TrimEmptyIffBlank(ExtractConversationId(p).value);
  }

  datatype JoinOutcome = Disconnected | WsError(message: string) | Joined(room: string)

  /** `handleJoinConversation`. `user` is `client.data.user?.id`, None when
      the client never authenticated. `toKey` parses the text the client
      sent as a conversation key; text that is no key at all makes the
      membership query itself fail, which the socket layer reports as an
      internal error. */
  function JoinConversation(st: ChatStore, user: Option<UserId>, payload: Payload, toKey: string -> Option<Id>)
    : (r: JoinOutcome)
    ensures (user.None? || user.value == "") <==> r == Disconnected
    ensures (user.Some? && user.value != "" && ExtractConversationId(payload).None?) ==>
      r == WsError("conversationId es obligatorio")
    ensures r.Joined? ==>
      && Some(r.room) == ExtractConversationId(payload)
      && toKey(r.room).Some?
      && IsParticipant(st.participants, user.value, toKey(r.room).value)
    ensures r.WsError? ==>
      r.message in {"conversationId es obligatorio", "No perteneces a esta conversacion", "Internal server error"}
  {
    if user.None? || user.value == "" then Disconnected
    else match ExtractConversationId(payload)
      case None => WsError("conversationId es obligatorio")
      case Some(room) =>
        match toKey(room)
        case None => WsError("Internal server error")
        case Some(key) =>
          if IsParticipant(st.participants, user.value, key) then Joined(room)
          else WsError("No perteneces a esta conversacion")
  }

  /** Every participant who names the conversation gets in. */
  lemma ParticipantsJoin(st: ChatStore, user: UserId, payload: Payload, toKey: string -> Option<Id>)
    requires user != ""
    requires ExtractConversationId(payload).Some?
    requires toKey(ExtractConversationId(payload).value).Some?
    requires IsParticipant(st.participants, user, toKey(ExtractConversationId(payload).value).value)
    ensures JoinConversation(st, Some(user), payload, toKey) == Joined(ExtractConversationId(payload).value)
  {
  }
}

=== FILE: checkout.dfy ===
/** `StripeService`: building a checkout session from the requested items,
    and the payment webhook that turns a completed session into an order.
    The Stripe SDK is outside the model: the session request is returned
    instead of being sent, the signature check is a boolean input, and the
    session's line items (what `listLineItems` returns) are an input. */
module Checkout {
  import opened Wrappers
  import opened Tables
  import opened Text
  import opened Commerce

  // ---------------------------------------------------------------------------
  // Checkout session
  // ---------------------------------------------------------------------------

  /** One requested item. The request carries no price: prices always come
      from the product table. */
  datatype CheckoutItem = CheckoutItem(productId: Id, quantity: int)

  /** One `line_items` entry: product name, `metadata.productId`, the unit
      amount in hundredths of a peso and the quantity. */
  datatype LineItem = LineItem(name: string, productId: Id, unitAmount: int, quantity: int)

  /** What is sent to `checkout.sessions.create`; the metadata holds the
      user id and nothing else. */
  datatype SessionRequest = SessionRequest(currency: string, lineItems: seq<LineItem>, metadataUserId: UserId)

  const Currency := "cop"

  /** An item the checkout lets through: a positive quantity for a product
      that exists and has at least that much stock. */
  predicate Acceptable(products: seq<Product>, item: CheckoutItem)
  {
    && item.quantity > 0
    && (exists j :: 0 <= j < |products| && products[j].id == item.productId)
    && item.quantity <= products[FindProduct(products, item.productId).value].stock
  }

  /** The checks the loop body makes on one item, in source order. */
  function CheckItem(products: seq<Product>, item: CheckoutItem): (r: Result<LineItem>)
    ensures r.Ok? <==> Acceptable(products, item)
    ensures item.quantity <= 0 ==> r == Err(BadRequest("Invalid quantity"))
    ensures r.Ok? ==> r.value.quantity == item.quantity && r.value.productId == item.productId
    ensures r.Ok? ==>
      var j := FindProduct(products, item.productId).value;
      r.value.unitAmount == products[j].price && r.value.name == products[j].title
  {
    if item.quantity <= 0 then Err(BadRequest("Invalid quantity"))
    else match FindProduct(products, item.productId)
      case None => Err(BadRequest("Product not found"))
      case Some(j) =>
        var product := products[j];
        if item.quantity > product.stock then Err(BadRequest("Not enough stock"))
        else Ok(LineItem(product.title, product.id, product.price, item.quantity))
  }

  /** The position of the first item the checkout rejects, if any. */
  function FirstRejected(products: seq<Product>, items: seq<CheckoutItem>): Option<nat>
  {
    FindFirst(items, (it: CheckoutItem) => !Acceptable(products, it))
  }

  /** The loop over the items: fails on the first bad item, otherwise one
      line item per requested item, in request order. */
  function BuildLineItems(products: seq<Product>, items: seq<CheckoutItem>): (r: Result<seq<LineItem>>)
    ensures r.Ok? <==> forall k :: 0 <= k < |items| ==> Acceptable(products, items[k])
    ensures r.Ok? ==> |r.value| == |items|
    ensures r.Ok? ==> forall k :: 0 <= k < |items| ==> CheckItem(products, items[k]) == Ok(r.value[k])
    ensures r.Err? ==>
      var k := FirstRejected(products, items);
      k.Some? && CheckItem(products, items[k.value]) == Err(r.error)
  {
    if |items| == 0 then Ok([])
    else match CheckItem(products, items[0])
      case Err(e) => Err(e)
      case Ok(line) =>
        match BuildLineItems(products, items[1..])
        case Err(e) => Err(e)
        case Ok(rest) => Ok([line] + rest)
  }

  /** `createCheckoutSession`. */
  function CreateCheckoutSession(st: Store, userId: UserId, items: seq<CheckoutItem>): (r: Result<SessionRequest>)
    ensures |items| == 0 ==> r == Err(BadRequest("No items provided"))
    ensures r.Ok? <==> |items| > 0 && forall k :: 0 <= k < |items| ==> Acceptable(st.products, items[k])
    ensures r.Ok? ==> r.value.metadataUserId == userId && r.value.currency == Currency
    ensures r.Ok? ==> |r.value.lineItems| == |items|
    ensures r.Ok? ==> forall k :: 0 <= k < |items| ==>
      var line := r.value.lineItems[k];
      var j := FindProduct(st.products, items[k].productId).value;
      && line.quantity == items[k].quantity
      && line.productId == items[k].productId
      && line.unitAmount == st.products[j].price
      && 0 < line.quantity <= st.products[j].stock
    ensures r.Err? && |items| > 0 ==>
      var k := FirstRejected(st.products, items);
      k.Some? && CheckItem(st.products, items[k.value]) == Err(r.error)
  {
    if |items| == 0 then Err(BadRequest("No items provided"))
    else
      var lines :- BuildLineItems(st.products, items);
      Ok(SessionRequest(Currency, lines, userId))
  }

  /** A non-positive quantity is rejected before its product is looked up,
      so the error is the quantity error even for an unknown product, and
      nothing after the first bad item is examined. */
  lemma QuantityCheckedFirst(st: Store, userId: UserId, items: seq<CheckoutItem>, k: nat)
    requires k < |items| && items[k].quantity <= 0
    requires forall m :: 0 <= m < k ==> Acceptable(st.products, items[m])
    ensures CreateCheckoutSession(st, userId, items) == Err(BadRequest("Invalid quantity"))
  {
    var f := FirstRejected(st.products, items);
    assert f == Some(k);
  }

  /** The stock bound is inclusive: ordering exactly the stock is accepted
      and one more is rejected. */
  lemma StockBoundary(st: Store, userId: UserId, id: Id)
    requires FindProduct(st.products, id).Some?
    requires st.products[FindProduct(st.products, id).value].stock > 0
    ensures var s := st.products[FindProduct(st.products, id).value].stock;
      && CreateCheckoutSession(st, userId, [CheckoutItem(id, s)]).Ok?
      && CreateCheckoutSession(st, userId, [CheckoutItem(id, s + 1)]) == Err(BadRequest("Not enough stock"))
  {
    var s := st.products[FindProduct(st.products, id).value].stock;
    assert FirstRejected(st.products, [CheckoutItem(id, s + 1)]) == Some(0);
  }

  // ---------------------------------------------------------------------------
  // Payment webhook
  // ---------------------------------------------------------------------------

  datatype StripeSession = StripeSession(id: string, metadataUserId: Option<string>, amountTotal: Option<int>)

  datatype StripeEvent = StripeEvent(kind: string, session: StripeSession)

  /** A line item of the session with its expanded product:
      `metadata.productId` (None when missing or empty), `quantity` and
      `amount_total`, each nullable. */
  datatype StripeLine = StripeLine(productId: Option<Id>, quantity: Option<int>, amountTotal: Option<int>)

  /** The handler returns `{ received: true }`, or `undefined` from its two
      early `return;` statements. */
  datatype Reply = Received | NoBody

  const SessionCompleted := "checkout.session.completed"

  /** `session.metadata?.userId` when it is truthy. */
  function BuyerOf(session: StripeSession): Option<UserId>
  {
    match session.metadataUserId
    case Some(u) => if u == "" then None else Some(u)
    case None => None
  }

  /** An order already records this session (the idempotency lookup). */
  predicate HasSessionOrder(orders: seq<Order>, sessionId: string)
  {
    exists j :: 0 <= j < |orders| && orders[j].stripeSessionId == Some(sessionId)
  }

  function LineQuantity(line: StripeLine): int
  {
    line.quantity.GetOr(0)
  }

  /** A line whose product can be found: the transaction aborts otherwise. */
  predicate Resolvable(products: seq<Product>, line: StripeLine)
  {
    line.productId.Some? && FindProduct(products, line.productId.value).Some?
  }

  /** The total quantity the lines take of product `id`. */
  function QuantityOrdered(lines: seq<StripeLine>, id: Id): int
  {
    if |lines| == 0 then 0
    else (if lines[0].productId == Some(id) then LineQuantity(lines[0]) else 0) + QuantityOrdered(lines[1..], id)
  }

  /** The order item written for a line: its product, its quantity and its
      `amount_total` (0 when absent). Only lines that name a product get
      one, so the 0 standing in for a missing product is never stored. */
  function ItemFor(id: Id, orderId: Id, line: StripeLine): OrderItem
  {
    OrderItem(id, orderId, line.productId.GetOr(0), LineQuantity(line), line.amountTotal.GetOr(0), ItemPaid)
  }

  /** `product.stock -= quantity` on row `j`, without any lower bound. */
  function Decrement(products: seq<Product>, j: nat, quantity: int): (r: seq<Product>)
    requires j < |products|
    ensures |r| == |products|
    ensures forall i :: 0 <= i < |r| ==> r[i].id == products[i].id
  {
    products[j := products[j].(stock := products[j].stock - quantity)]
  }

  /** Tables with the same keys row by row answer every key lookup alike. */
  lemma SameKeysSameLookup(a: seq<Product>, b: seq<Product>, id: Id)
    requires |a| == |b|
    requires forall i :: 0 <= i < |a| ==> a[i].id == b[i].id
    ensures FindProduct(a, id) == FindProduct(b, id)
  {
    FindFirstSamePattern(a, (p: Product) => p.id == id, b, (p: Product) => p.id == id);
  }

  /** The body of the loop over the line items, for one line: find its
      product, save an order item, then decrement the stock. */
  function ApplyLine(st: Store, orderId: Id, line: StripeLine): (r: Result<Store>)
    ensures r.Ok? <==> Resolvable(st.products, line)
    ensures r.Err? ==> r.error.InternalError?
  {
    match line.productId
    case None => Err(InternalError("Missing productId in Stripe metadata"))
    case Some(pid) =>
      match FindProduct(st.products, pid)
      case None => Err(InternalError("Product not found with id " + NatToString(pid)))
      case Some(j) =>
        Ok(st.(orderItems := st.orderItems + [ItemFor(st.nextId, orderId, line)],
               products := Decrement(st.products, j, LineQuantity(line)),
               nextId := st.nextId + 1))
  }

  /** The loop over the line items inside the transaction; the first line
      that fails aborts it. */
  function ApplyLines(st: Store, orderId: Id, lines: seq<StripeLine>): (r: Result<Store>)
    ensures r.Err? ==> r.error.InternalError?
    decreases |lines|
  {
    if |lines| == 0 then Ok(st)
    else
      match ApplyLine(st, orderId, lines[0])
      case Err(e) => Err(e)
      case Ok(st1) => ApplyLines(st1, orderId, lines[1..])
  }

  /** The transaction commits exactly when every line names a product that
      exists (stock decrements never remove a product). */
  lemma {:induction false} ApplyLinesSucceedsIff(st: Store, orderId: Id, lines: seq<StripeLine>)
    ensures ApplyLines(st, orderId, lines).Ok? <==>
      forall k :: 0 <= k < |lines| ==> Resolvable(st.products, lines[k])
    decreases |lines|
  {
    if |lines| > 0 && Resolvable(st.products, lines[0]) {
      var st1 := ApplyLine(st, orderId, lines[0]).value;
      var ps := st1.products;
      ApplyLinesSucceedsIff(st1, orderId, lines[1..]);
      forall k | 0 <= k < |lines| - 1 && lines[1..][k].productId.Some?
        ensures Resolvable(ps, lines[1..][k]) == Resolvable(st.products, lines[k + 1])
      {
        SameKeysSameLookup(st.products, ps, lines[1..][k].productId.value);
      }
    }
  }

  /** On commit the loop only appends order items, one per line, and
      leaves the orders and the carts alone. */
  lemma {:induction false} ApplyLinesFrame(st: Store, orderId: Id, lines: seq<StripeLine>)
    requires ApplyLines(st, orderId, lines).Ok?
    ensures var st' := ApplyLines(st, orderId, lines).value;
      && st'.orders == st.orders && st'.carts == st.carts && st'.cartItems == st.cartItems
      && st'.nextId == st.nextId + |lines|
      && |st'.orderItems| == |st.orderItems| + |lines|
      && st'.orderItems[..|st.orderItems|] == st.orderItems
    decreases |lines|
  {
    if |lines| > 0 {
      var st1 := ApplyLine(st, orderId, lines[0]).value;
      ApplyLinesFrame(st1, orderId, lines[1..]);
      var st' := ApplyLines(st1, orderId, lines[1..]).value;
      assert st'.orderItems[..|st.orderItems|] == st'.orderItems[..|st1.orderItems|][..|st.orderItems|];
    }
  }

  /** The order items a run of lines writes, from key `key` on. */
  function ItemsFor(key: nat, orderId: Id, lines: seq<StripeLine>): (r: seq<OrderItem>)
    ensures |r| == |lines|
    decreases |lines|
  {
    if |lines| == 0 then [] else [ItemFor(key, orderId, lines[0])] + ItemsFor(key + 1, orderId, lines[1..])
  }

  /** The `k`-th of them is the item of the `k`-th line, under key `key + k`. */
  lemma {:induction false} ItemsForAt(key: nat, orderId: Id, lines: seq<StripeLine>, k: nat)
    requires k < |lines|
    ensures ItemsFor(key, orderId, lines)[k] == ItemFor(key + k, orderId, lines[k])
    decreases |lines|
  {
    if k > 0 {
      ItemsForAt(key + 1, orderId, lines[1..], k - 1);
    }
  }

  /** One committed step of the loop, unfolded: the store `st1` after the
      first line, and the items it and the rest of the lines write. */
  lemma ApplyLinesUnfold(st: Store, orderId: Id, lines: seq<StripeLine>) returns (st1: Store)
    requires |lines| > 0 && ApplyLines(st, orderId, lines).Ok?
    ensures ApplyLine(st, orderId, lines[0]) == Ok(st1)
    ensures ApplyLines(st, orderId, lines) == ApplyLines(st1, orderId, lines[1..])
    ensures st1.orderItems == st.orderItems + [ItemFor(st.nextId, orderId, lines[0])]
    ensures st1.nextId == st.nextId + 1
  {
    st1 := ApplyLine(st, orderId, lines[0]).value;
  }

  lemma ItemsForUnfold(key: nat, orderId: Id, lines: seq<StripeLine>)
    requires |lines| > 0
    ensures ItemsFor(key, orderId, lines) == [ItemFor(key, orderId, lines[0])] + ItemsFor(key + 1, orderId, lines[1..])
  {
  }

  /** On commit the loop appends exactly one order item per line, in line
      order, under consecutive fresh keys. */
  lemma {:induction false} ApplyLinesItems(st: Store, orderId: Id, lines: seq<StripeLine>)
    requires ApplyLines(st, orderId, lines).Ok?
    ensures ApplyLines(st, orderId, lines).value.orderItems == st.orderItems + ItemsFor(st.nextId, orderId, lines)
    decreases |lines|
  {
    if |lines| > 0 {
      var st1 := ApplyLinesUnfold(st, orderId, lines);
      ItemsForUnfold(st.nextId, orderId, lines);
      ApplyLinesItems(st1, orderId, lines[1..]);
      ConcatAssoc(st.orderItems, [ItemFor(st.nextId, orderId, lines[0])], ItemsFor(st1.nextId, orderId, lines[1..]));
    }
  }

  /** Row `j` after the lines are applied: the first row of each product
      loses the total quantity ordered of it, every other field stays. */
  function Debited(products: seq<Product>, lines: seq<StripeLine>, j: nat): Product
    requires j < |products|
  {
    products[j].(stock := products[j].stock -
      (if IsFirstWithId(products, j) then QuantityOrdered(lines, products[j].id) else 0))
  }

  /** One step of the loop, seen from row `j`. */
  lemma DebitedStep(products: seq<Product>, lines: seq<StripeLine>, j: nat)
    requires |lines| > 0 && Resolvable(products, lines[0]) && j < |products|
    ensures var j0 := FindProduct(products, lines[0].productId.value).value;
      Debited(Decrement(products, j0, LineQuantity(lines[0])), lines[1..], j) == Debited(products, lines, j)
  {
    var pid := lines[0].productId.value;
    var j0 := FindProduct(products, pid).value;
    var q := LineQuantity(lines[0]);
    var ps1 := Decrement(products, j0, q);
    var id := products[j].id;
    SameKeysSameLookup(products, ps1, id);
    assert IsFirstWithId(ps1, j) == IsFirstWithId(products, j);
    assert QuantityOrdered(lines, id) == (if pid == id then q else 0) + QuantityOrdered(lines[1..], id);
    if j != j0 && IsFirstWithId(products, j) {
      assert pid != id;
    }
  }

  /** On commit, the first row of each product loses exactly the total
      quantity the lines order of it (with no floor at zero: the webhook
      never compares against the stock); no other field changes. */
  lemma {:induction false} ApplyLinesStock(st: Store, orderId: Id, lines: seq<StripeLine>)
    requires ApplyLines(st, orderId, lines).Ok?
    ensures var ps := ApplyLines(st, orderId, lines).value.products;
      && |ps| == |st.products|
      && forall j :: 0 <= j < |st.products| ==> ps[j] == Debited(st.products, lines, j)
    decreases |lines|
  {
    if |lines| > 0 {
      var st1 := ApplyLine(st, orderId, lines[0]).value;
      ApplyLinesStock(st1, orderId, lines[1..]);
      forall j | 0 <= j < |st.products|
        ensures ApplyLines(st, orderId, lines).value.products[j] == Debited(st.products, lines, j)
      {
        DebitedStep(st.products, lines, j);
      }
    } else {
      forall j | 0 <= j < |st.products|
        ensures st.products[j] == Debited(st.products, lines, j)
      {
      }
    }
  }

  /** `DELETE FROM cart_items` for every cart of the user: the cart rows
      themselves stay. */
  function ClearCarts(st: Store, userId: UserId): (items: seq<CartItem>)
    ensures forall i :: 0 <= i < |items| ==> items[i] in st.cartItems
    ensures forall i :: 0 <= i < |items| ==> !CartOwnedBy(st.carts, items[i].cartId, userId)
    ensures forall i :: 0 <= i < |st.cartItems| && !CartOwnedBy(st.carts, st.cartItems[i].cartId, userId) ==>
      st.cartItems[i] in items
  {
    Filter(st.cartItems, (ci: CartItem) => !CartOwnedBy(st.carts, ci.cartId, userId))
  }

  /** The order the webhook creates for a fresh session: status PAID,
      total = `amount_total` (0 when absent), keyed by the session id. */
  function NewOrder(st: Store, buyer: UserId, session: StripeSession, now: int): Order
  {
    Order(st.nextId, buyer, Paid, session.amountTotal.GetOr(0), Some(session.id), now)
  }

  /** The store right after `manager.save(order)`. */
  function OpenOrder(st: Store, buyer: UserId, session: StripeSession, now: int): Store
  {
    st.(orders := st.orders + [NewOrder(st, buyer, session, now)], nextId := st.nextId + 1)
  }

  /** A delivery the handler acts on: a completed session for a known
      buyer that no order records yet. */
  predicate IsFresh(st: Store, event: StripeEvent)
  {
    event.kind == SessionCompleted && BuyerOf(event.session).Some? && !HasSessionOrder(st.orders, event.session.id)
  }

  /** `handleWebhook`. `signatureValid` is the outcome of
      `webhooks.constructEvent`, `lines` the session's line items and `now`
      the insert time. An `Err` leaves the store as it was: the transaction
      rolls back. */
  function HandleWebhook(st: Store, signatureValid: bool, event: StripeEvent, lines: seq<StripeLine>, now: int)
    : (r: Result<(Store, Reply)>)
    ensures !signatureValid ==> r == Err(BadRequest("Invalid signature"))
    ensures signatureValid && event.kind != SessionCompleted ==> r == Ok((st, Received))
    ensures signatureValid && event.kind == SessionCompleted && BuyerOf(event.session).None? ==>
      r == Ok((st, NoBody))
    ensures signatureValid && event.kind == SessionCompleted && HasSessionOrder(st.orders, event.session.id) ==>
      r == Ok((st, NoBody))
    ensures signatureValid && IsFresh(st, event) && r.Ok? ==>
      && r.value.0.orders == st.orders + [NewOrder(st, BuyerOf(event.session).value, event.session, now)]
      && r.value.1 == Received
  {
    if !signatureValid then Err(BadRequest("Invalid signature"))
    else if event.kind != SessionCompleted then Ok((st, Received))
    else match BuyerOf(event.session)
      case None => Ok((st, NoBody))
      case Some(buyer) =>
        if HasSessionOrder(st.orders, event.session.id) then Ok((st, NoBody))
        else
          var st1 := OpenOrder(st, buyer, event.session, now);
          match ApplyLines(st1, st.nextId, lines)
          case Err(e) => Err(e)
          case Ok(st2) =>
            ApplyLinesFrame(st1, st.nextId, lines);
            Ok((st2.(cartItems := ClearCarts(st2, buyer)), Received))
  }

  /** The fresh path of the handler, spelled out. */
  lemma FreshSessionUnfolds(st: Store, event: StripeEvent, lines: seq<StripeLine>, now: int)
    requires IsFresh(st, event)
    ensures var buyer := BuyerOf(event.session).value;
      var st1 := OpenOrder(st, buyer, event.session, now);
      HandleWebhook(st, true, event, lines, now) ==
        match ApplyLines(st1, st.nextId, lines)
        case Err(e) => Err(e)
        case Ok(st2) => Ok((st2.(cartItems := ClearCarts(st2, BuyerOf(event.session).value)), Received))
  {
  }

  /** A fresh delivery commits exactly when every line names an existing
      product; otherwise it aborts and nothing is written. */
  lemma FreshSessionCommitsIff(st: Store, event: StripeEvent, lines: seq<StripeLine>, now: int)
    requires IsFresh(st, event)
    ensures HandleWebhook(st, true, event, lines, now).Ok? <==>
      forall k :: 0 <= k < |lines| ==> Resolvable(st.products, lines[k])
  {
    FreshSessionUnfolds(st, event, lines, now);
    ApplyLinesSucceedsIff(OpenOrder(st, BuyerOf(event.session).value, event.session, now), st.nextId, lines);
  }

  /** A committed fresh delivery creates one order and, after it, one order
      item per line item in line order (see `ItemsForAt`), and keeps every
      earlier row and the carts. */
  lemma FreshSessionCreates(st: Store, event: StripeEvent, lines: seq<StripeLine>, now: int)
    requires IsFresh(st, event)
    requires HandleWebhook(st, true, event, lines, now).Ok?
    ensures var st' := HandleWebhook(st, true, event, lines, now).value.0;
      && st'.orders == st.orders + [NewOrder(st, BuyerOf(event.session).value, event.session, now)]
      && st'.nextId == st.nextId + 1 + |lines|
      && st'.carts == st.carts
      && st'.orderItems == st.orderItems + ItemsFor(st.nextId + 1, st.nextId, lines)
  {
    FreshSessionUnfolds(st, event, lines, now);
    ApplyLinesFrame(OpenOrder(st, BuyerOf(event.session).value, event.session, now), st.nextId, lines);
    ApplyLinesItems(OpenOrder(st, BuyerOf(event.session).value, event.session, now), st.nextId, lines);
  }

  /** A committed fresh delivery takes each product's ordered quantity off
      its stock, and changes nothing else about the products. */
  lemma FreshSessionDebitsStock(st: Store, event: StripeEvent, lines: seq<StripeLine>, now: int)
    requires IsFresh(st, event)
    requires HandleWebhook(st, true, event, lines, now).Ok?
    ensures var ps := HandleWebhook(st, true, event, lines, now).value.0.products;
      && |ps| == |st.products|
      && forall j :: 0 <= j < |st.products| ==> ps[j] == Debited(st.products, lines, j)
  {
    FreshSessionUnfolds(st, event, lines, now);
    ApplyLinesStock(OpenOrder(st, BuyerOf(event.session).value, event.session, now), st.nextId, lines);
  }

  /** A committed fresh delivery deletes exactly the buyer's cart items. */
  lemma FreshSessionClearsCart(st: Store, event: StripeEvent, lines: seq<StripeLine>, now: int)
    requires IsFresh(st, event)
    requires HandleWebhook(st, true, event, lines, now).Ok?
    ensures var buyer := BuyerOf(event.session).value;
      var items := HandleWebhook(st, true, event, lines, now).value.0.cartItems;
      && (forall i :: 0 <= i < |items| ==> items[i] in st.cartItems && !CartOwnedBy(st.carts, items[i].cartId, buyer))
      && (forall i :: 0 <= i < |st.cartItems| && !CartOwnedBy(st.carts, st.cartItems[i].cartId, buyer) ==>
            st.cartItems[i] in items)
  {
    FreshSessionUnfolds(st, event, lines, now);
    ApplyLinesFrame(OpenOrder(st, BuyerOf(event.session).value, event.session, now), st.nextId, lines);
  }

  /** After any delivery that succeeded, the store holds an order for the
      session, unless the event was one the handler ignores. */
  lemma {:induction false} WebhookRecordsSession(st: Store, event: StripeEvent, lines: seq<StripeLine>, now: int)
    requires event.kind == SessionCompleted && BuyerOf(event.session).Some?
    requires HandleWebhook(st, true, event, lines, now).Ok?
    ensures HasSessionOrder(HandleWebhook(st, true, event, lines, now).value.0.orders, event.session.id)
  {
    var st' := HandleWebhook(st, true, event, lines, now).value.0;
    if !HasSessionOrder(st.orders, event.session.id) {
      assert st'.orders[|st.orders|].stripeSessionId == Some(event.session.id);
    }
  }

  /** Redelivery is a no-op: processing the same event again, whatever the
      line items and the clock say then, leaves the store exactly as the
      first delivery left it. */
  lemma WebhookIdempotent(st: Store, event: StripeEvent, lines: seq<StripeLine>, lines2: seq<StripeLine>,
                          now: int, now2: int)
    requires HandleWebhook(st, true, event, lines, now).Ok?
    ensures var st1 := HandleWebhook(st, true, event, lines, now).value.0;
      HandleWebhook(st1, true, event, lines2, now2).Ok? &&
      HandleWebhook(st1, true, event, lines2, now2).value.0 == st1
  {
    if event.kind == SessionCompleted && BuyerOf(event.session).Some? {
      WebhookRecordsSession(st, event, lines, now);
    }
  }

  /** The webhook keeps the session index unique when the store had it. */
  lemma WebhookKeepsSessionsUnique(st: Store, event: StripeEvent, lines: seq<StripeLine>, now: int)
    requires UniqueSession(st.orders)
    requires HandleWebhook(st, true, event, lines, now).Ok?
    ensures UniqueSession(HandleWebhook(st, true, event, lines, now).value.0.orders)
  {
  }
}

=== FILE: commerce.dfy ===
/** The commerce tables shared by the cart, checkout, order and sales
    services: products, orders, order items, carts and cart items. */
module Commerce {
  import opened Wrappers
  import opened Tables

  /** A user's primary key, as carried in JWT payloads and Stripe metadata. */
  type UserId = string

  /** A generated primary key (a uuid in the database). */
  type Id = nat

  /** A `decimal(…, 2)` amount held exactly as its number of hundredths,
      so `Number(price) * 100` is the hundredths count itself. */
  type Cents = int

  datatype ProductStatus = ProductPending | ProductApproved | ProductRejected

  datatype Product = Product(
    id: Id,
    title: string,
    description: string,
    price: Cents,
    stock: int,
    imgUrl: string,
    categoryId: Id,
    eraId: Id,
    ownerId: UserId,
    status: ProductStatus)

  /** All five order states: the entity's enum lists PENDING, PAID and
      CANCELLED, and the order service also writes SHIPPED and DELIVERED. */
  datatype OrderStatus = Pending | Paid | Shipped | Delivered | Cancelled

  datatype Order = Order(
    id: Id,
    buyerId: UserId,
    status: OrderStatus,
    total: Cents,
    stripeSessionId: Option<string>,
    createdAt: int)

  datatype ItemStatus = ItemPaid | ItemShipped | ItemDelivered | ItemCancelled

  /** `price` is the line's total, the Stripe `amount_total` the webhook
      passes when it creates the item. The entity stores a line total in
      its `subtotal` column, which is what the sales statistics sum; the
      model takes the two to be the same amount. */
  datatype OrderItem = OrderItem(
    id: Id,
    orderId: Id,
    productId: Id,
    quantity: int,
    price: Cents,
    status: ItemStatus)

  datatype Cart = Cart(id: Id, userId: UserId)

  datatype CartItem = CartItem(id: Id, cartId: Id, productId: Id, quantity: int)

  /** The database as seen by the commerce services. `nextId` stands in for
      the key generator: every key handed out so far is below it. */
  datatype Store = Store(
    products: seq<Product>,
    orders: seq<Order>,
    orderItems: seq<OrderItem>,
    carts: seq<Cart>,
    cartItems: seq<CartItem>,
    nextId: nat)

  function FindProduct(products: seq<Product>, id: Id): (r: Option<nat>)
    ensures r.Some? ==> r.value < |products| && products[r.value].id == id
    ensures r.None? <==> forall j :: 0 <= j < |products| ==> products[j].id != id
  {
    FindFirst(products, (p: Product) => p.id == id)
  }

  function FindOrder(orders: seq<Order>, id: Id): (r: Option<nat>)
    ensures r.Some? ==> r.value < |orders| && orders[r.value].id == id
    ensures r.None? <==> forall j :: 0 <= j < |orders| ==> orders[j].id != id
  {
    FindFirst(orders, (o: Order) => o.id == id)
  }

  /** The row a lookup by primary key returns is the first row with that key. */
  predicate IsFirstWithId(products: seq<Product>, j: nat)
    requires j < |products|
  {
    FindProduct(products, products[j].id) == Some(j)
  }

  /** The owner of the product an order item points at (the `product.user`
      join), or None when the product row is missing. */
  function SellerOf(products: seq<Product>, item: OrderItem): Option<UserId>
  {
    match FindProduct(products, item.productId)
    case Some(j) => Some(products[j].ownerId)
    case None => None
  }

  /** Whether the cart with key `cartId` belongs to `userId`. */
  predicate CartOwnedBy(carts: seq<Cart>, cartId: Id, userId: UserId)
  {
    exists j :: 0 <= j < |carts| && carts[j].id == cartId && carts[j].userId == userId
  }

  /** The unique indexes and the key generator's promise. */
  predicate UniqueCartPerUser(carts: seq<Cart>)
  {
    forall i, j :: 0 <= i < j < |carts| ==> carts[i].userId != carts[j].userId
  }

  predicate UniqueCartProduct(items: seq<CartItem>)
  {
    forall i, j :: 0 <= i < j < |items| ==>
      !(items[i].cartId == items[j].cartId && items[i].productId == items[j].productId)
  }

  predicate UniqueSession(orders: seq<Order>)
  {
    forall i, j :: 0 <= i < j < |orders| && orders[i].stripeSessionId.Some? ==>
      orders[i].stripeSessionId != orders[j].stripeSessionId
  }

  predicate KeysBelow(st: Store)
  {
    && (forall i :: 0 <= i < |st.products| ==> st.products[i].id < st.nextId)
    && (forall i :: 0 <= i < |st.orders| ==> st.orders[i].id < st.nextId)
    && (forall i :: 0 <= i < |st.orderItems| ==> st.orderItems[i].id < st.nextId)
    && (forall i :: 0 <= i < |st.carts| ==> st.carts[i].id < st.nextId)
    && (forall i :: 0 <= i < |st.cartItems| ==> st.cartItems[i].id < st.nextId)
  }
}

=== FILE: discounts.dfy ===
/** `DiscountService`: single-use percentage codes. Codes are stored upper
    case and looked up with the upper-cased input, so lookups ignore the
    case of the input; a code is spent by `markAsUsed` and withdrawn by
    `deactivate`. Timestamps are integers and the clock is a parameter. */
module Discounts {
  import opened Wrappers
  import opened Tables
  import opened Text

  newtype Byte = x: int | 0 <= x < 256

  /** One `randomBytes(4)` draw. */
  datatype Draw = Draw(b0: Byte, b1: Byte, b2: Byte, b3: Byte)

  datatype DiscountCode = DiscountCode(
    id: nat,
    code: string,
    percentage: int,
    isActive: bool,
    isUsed: bool,
    expiresAt: Option<int>,
    usedAt: Option<int>,
    usedByUserId: Option<string>,
    createdAt: int)

  /** The `discount_codes` table and its key generator. */
  datatype Ledger = Ledger(codes: seq<DiscountCode>, nextId: nat)

  /** The unique index on `code`. */
  predicate UniqueCodes(codes: seq<DiscountCode>)
  {
    forall i, j :: 0 <= i < j < |codes| ==> codes[i].code != codes[j].code
  }

  /** A code with an expiry strictly before `now`; no expiry never expires. */
  predicate Expired(d: DiscountCode, now: int)
  {
    d.expiresAt.Some? && d.expiresAt.value < now
  }

  /** What a successful validation promises about the row it returns. */
  predicate Redeemable(d: DiscountCode, input: string, now: int)
  {
    d.code == Upper(input) && d.isActive && !d.isUsed && !Expired(d, now)
  }

  /** `toString('hex').toUpperCase()` of one draw: eight characters from
      0-9 and A-F. */
  function HexDigit(n: int): (c: char)
    requires 0 <= n < 16
    ensures '0' <= c <= '9' || 'A' <= c <= 'F'
  {
    "0123456789ABCDEF"[n]
  }

  function HexBytes(bs: seq<Byte>): (s: string)
    ensures |s| == 2 * |bs|
  {
    if |bs| == 0 then ""
    else [HexDigit(bs[0] as int / 16), HexDigit(bs[0] as int % 16)] + HexBytes(bs[1..])
  }

  /** Upper-case hexadecimal digits only. */
  lemma {:induction false} HexBytesIsUpper(bs: seq<Byte>)
    ensures Upper(HexBytes(bs)) == HexBytes(bs)
  {
    if |bs| > 0 {
      HexBytesIsUpper(bs[1..]);
      var s := HexBytes(bs);
      forall i | 0 <= i < |s|
        ensures Upper(s)[i] == s[i]
      {
        if i >= 2 {
          assert s[i] == HexBytes(bs[1..])[i - 2];
          assert Upper(HexBytes(bs[1..]))[i - 2] == HexBytes(bs[1..])[i - 2];
        }
      }
    }
  }

  function HexCode(d: Draw): (s: string)
    ensures |s| == 8
  {
    HexBytes([d.b0, d.b1, d.b2, d.b3])
  }

  /** A hex code is its own upper-cased form, so the lookups of
      `validateCode` and `markAsUsed` find a freshly created code. */
  lemma HexCodeIsUpper(d: Draw)
    ensures Upper(HexCode(d)) == HexCode(d)
  {
    HexBytesIsUpper([d.b0, d.b1, d.b2, d.b3]);
  }

  predicate IsFresh(codes: seq<DiscountCode>, code: string)
  {
    forall j :: 0 <= j < |codes| ==> codes[j].code != code
  }

  /** The `findOne({ where: { code } })` lookup. */
  function FindCode(codes: seq<DiscountCode>, code: string): (r: Option<nat>)
    ensures r.None? <==> IsFresh(codes, code)
  {
    FindFirst(codes, (d: DiscountCode) => d.code == code)
  }

  /** The codes the random source yields, in draw order. */
  function Render(draws: seq<Draw>): (r: seq<string>)
    ensures |r| == |draws|
    ensures forall k :: 0 <= k < |draws| ==> r[k] == HexCode(draws[k])
  {
    if |draws| == 0 then [] else [HexCode(draws[0])] + Render(draws[1..])
  }

  /** `generateUniqueCode`: draw until a code no row has. `candidates` is
      the random source's output, in order; the loop only ends when a fresh
      code comes, so the caller needs one to be there. The result is the
      first fresh candidate, and `used` is its position. */
  method GenerateUniqueCode(codes: seq<DiscountCode>, candidates: seq<string>) returns (code: string, used: nat)
    requires exists k :: 0 <= k < |candidates| && IsFresh(codes, candidates[k])
    ensures used < |candidates| && code == candidates[used]
    ensures IsFresh(codes, code)
    ensures forall k :: 0 <= k < used ==> !IsFresh(codes, candidates[k])
  {
    ghost var target :| 0 <= target < |candidates| && IsFresh(codes, candidates[target]);
    used := 0;
    code := candidates[0];
    var found := FindCode(codes, code);
    while found.Some?
      invariant used < |candidates| && code == candidates[used]
      invariant found.None? <==> IsFresh(codes, code)
      invariant forall k :: 0 <= k < used ==> !IsFresh(codes, candidates[k])
      invariant used <= target
      decreases target - used
    {
      assert used < target;
      used := used + 1;
      code := candidates[used];
      found := FindCode(codes, code);
    }
  }

  /** The row `create` saves: the DTO's percentage and expiry, the column
      defaults (active, unused) and nothing recorded about use. */
  function NewCode(ledger: Ledger, code: string, percentage: int, expiresAt: Option<int>, now: int): DiscountCode
  {
    DiscountCode(ledger.nextId, code, percentage, true, false, expiresAt, None, None, now)
  }

  /** `create`. The DTO admits whole percentages from 1 to 90. */
  method Create(ledger: Ledger, percentage: int, expiresAt: Option<int>, draws: seq<Draw>, now: int)
    returns (ledger': Ledger, created: DiscountCode)
    requires 1 <= percentage <= 90
    requires exists k :: 0 <= k < |draws| && IsFresh(ledger.codes, HexCode(draws[k]))
    ensures IsFresh(ledger.codes, created.code) && |created.code| == 8
    ensures exists k :: 0 <= k < |draws| && created.code == HexCode(draws[k])
    ensures created.percentage == percentage && created.expiresAt == expiresAt
    ensures created.isActive && !created.isUsed && created.usedAt.None? && created.usedByUserId.None?
    ensures ledger'.codes == ledger.codes + [created]
    ensures UniqueCodes(ledger.codes) ==> UniqueCodes(ledger'.codes)
  {
    var code, _ := GenerateUniqueCode(ledger.codes, Render(draws));
    created := NewCode(ledger, code, percentage, expiresAt, now);
    ledger' := Ledger(ledger.codes + [created], ledger.nextId + 1);
  }

  /** The row the `validateCode` lookup returns. */
  function FindLive(codes: seq<DiscountCode>, input: string): (r: Option<nat>)
    ensures r.Some? ==>
      r.value < |codes| && codes[r.value].code == Upper(input) && codes[r.value].isActive && !codes[r.value].isUsed
    ensures r.None? <==> forall j :: 0 <= j < |codes| ==>
      !(codes[j].code == Upper(input) && codes[j].isActive && !codes[j].isUsed)
  {
    FindFirst(codes, (d: DiscountCode) => d.code == Upper(input) && d.isActive && !d.isUsed)
  }

  /** `validateCode`: read-only (it returns no ledger). */
  function ValidateCode(ledger: Ledger, input: string, now: int): (r: Result<DiscountCode>)
    ensures FindLive(ledger.codes, input).None? ==> r == Err(BadRequest("Invalid or already used code"))
    ensures r.Err? ==> r.error in {BadRequest("Invalid or already used code"), BadRequest("Discount expired")}
    ensures r.Ok? ==> r.value in ledger.codes && Redeemable(r.value, input, now)
  {
    match FindLive(ledger.codes, input)
    case None => Err(BadRequest("Invalid or already used code"))
    case Some(j) =>
      var d := ledger.codes[j];
      if Expired(d, now) then Err(BadRequest("Discount expired")) else Ok(d)
  }

  /** With unique codes, validation succeeds exactly when some row is
      redeemable for the input. */
  lemma ValidateCodeIff(ledger: Ledger, input: string, now: int)
    requires UniqueCodes(ledger.codes)
    ensures ValidateCode(ledger, input, now).Ok? <==>
      exists j :: 0 <= j < |ledger.codes| && Redeemable(ledger.codes[j], input, now)
  {
    if j :| 0 <= j < |ledger.codes| && Redeemable(ledger.codes[j], input, now) {
      var f := FindLive(ledger.codes, input);
      assert f.Some?;
      assert ledger.codes[f.value].code == ledger.codes[j].code;
    }
  }

  /** The lookups ignore the case of the input. */
  lemma ValidateCodeIgnoresCase(ledger: Ledger, input: string, now: int)
    ensures ValidateCode(ledger, input, now) == ValidateCode(ledger, Upper(input), now)
  {
    UpperIdempotent(input);
  }

  /** The row the `markAsUsed` lookup returns: activity and expiry are not
      looked at. */
  function FindUnused(codes: seq<DiscountCode>, input: string): (r: Option<nat>)
    ensures r.Some? ==> r.value < |codes| && codes[r.value].code == Upper(input) && !codes[r.value].isUsed
    ensures r.None? <==> forall j :: 0 <= j < |codes| ==> !(codes[j].code == Upper(input) && !codes[j].isUsed)
  {
    FindFirst(codes, (d: DiscountCode) => d.code == Upper(input) && !d.isUsed)
  }

  /** `markAsUsed`: spends the code for `userId` at `now`. */
  function MarkAsUsed(ledger: Ledger, input: string, userId: string, now: int): (r: Result<(Ledger, DiscountCode)>)
    ensures r.Err? <==> forall j :: 0 <= j < |ledger.codes| ==>
      !(ledger.codes[j].code == Upper(input) && !ledger.codes[j].isUsed)
    ensures r.Err? ==> r.error == BadRequest("Discount already used")
    ensures r.Ok? ==>
      var j := FindUnused(ledger.codes, input).value;
      var codes' := r.value.0.codes;
      && |codes'| == |ledger.codes| && r.value.0.nextId == ledger.nextId
      && codes'[j] == r.value.1
      && r.value.1 == ledger.codes[j].(isUsed := true, usedAt := Some(now), usedByUserId := Some(userId))
      && (forall i :: 0 <= i < |codes'| && i != j ==> codes'[i] == ledger.codes[i])
  {
    match FindUnused(ledger.codes, input)
    case None => Err(BadRequest("Discount already used"))
    case Some(j) =>
      var d := ledger.codes[j].(isUsed := true, usedAt := Some(now), usedByUserId := Some(userId));
      Ok((ledger.(codes := ledger.codes[j := d]), d))
  }

  /** A code is single-use: once spent, spending it again fails, and so
      does validating it. */
  lemma MarkAsUsedSingleUse(ledger: Ledger, input: string, userId: string, userId2: string, now: int, now2: int)
    requires UniqueCodes(ledger.codes)
    requires MarkAsUsed(ledger, input, userId, now).Ok?
    ensures var l := MarkAsUsed(ledger, input, userId, now).value.0;
      && MarkAsUsed(l, input, userId2, now2) == Err(BadRequest("Discount already used"))
      && ValidateCode(l, input, now2) == Err(BadRequest("Invalid or already used code"))
  {
    var l := MarkAsUsed(ledger, input, userId, now).value.0;
    var j := FindUnused(ledger.codes, input).value;
    forall i | 0 <= i < |l.codes|
      ensures !(l.codes[i].code == Upper(input) && !l.codes[i].isUsed)
    {
      if i != j {
        assert ledger.codes[i].code != ledger.codes[j].code;
      }
    }
  }

  /** `deactivate`: withdraws the code with that key. */
  function Deactivate(ledger: Ledger, id: nat): (r: Result<(Ledger, DiscountCode)>)
    ensures r.Err? <==> forall j :: 0 <= j < |ledger.codes| ==> ledger.codes[j].id != id
    ensures r.Err? ==> r.error == NotFound("Discount not found")
    ensures r.Ok? ==>
      var codes' := r.value.0.codes;
      && |codes'| == |ledger.codes| && r.value.0.nextId == ledger.nextId
      && (forall i :: 0 <= i < |codes'| ==> codes'[i].code == ledger.codes[i].code)
      && r.value.1 in codes' && r.value.1.id == id && !r.value.1.isActive
      && (forall i :: 0 <= i < |codes'| && codes'[i] != ledger.codes[i] ==>
            codes'[i] == ledger.codes[i].(isActive := false) && ledger.codes[i].id == id)
  {
    match FindFirst(ledger.codes, (d: DiscountCode) => d.id == id)
    case None => Err(NotFound("Discount not found"))
    case Some(j) =>
      var d := ledger.codes[j].(isActive := false);
      assert ledger.codes[j := d][j] == d;
      Ok((ledger.(codes := ledger.codes[j := d]), d))
  }

  /** A deactivated code no longer validates. */
  lemma DeactivateBlocksValidation(ledger: Ledger, id: nat, input: string, now: int)
    requires UniqueCodes(ledger.codes)
    requires Deactivate(ledger, id).Ok?
    requires Deactivate(ledger, id).value.1.code == Upper(input)
    ensures ValidateCode(Deactivate(ledger, id).value.0, input, now) == Err(BadRequest("Invalid or already used code"))
  {
    var l := Deactivate(ledger, id).value.0;
    var d := Deactivate(ledger, id).value.1;
    forall i | 0 <= i < |l.codes|
      ensures !(l.codes[i].code == Upper(input) && l.codes[i].isActive)
    {
    }
  }

  /** A freshly created code validates until it expires. */
  lemma CreatedCodeValidates(ledger: Ledger, d: Draw, percentage: int, expiresAt: Option<int>, now: int, later: int)
    requires IsFresh(ledger.codes, HexCode(d))
    requires expiresAt.None? || later <= expiresAt.value
    ensures var row := NewCode(ledger, HexCode(d), percentage, expiresAt, now);
      ValidateCode(Ledger(ledger.codes + [row], ledger.nextId + 1), HexCode(d), later) == Ok(row)
  {
    HexCodeIsUpper(d);
    var codes := ledger.codes + [NewCode(ledger, HexCode(d), percentage, expiresAt, now)];
    assert forall j :: 0 <= j < |ledger.codes| ==> codes[j].code != Upper(HexCode(d));
    var row := codes[|ledger.codes|];
    assert row.code == Upper(HexCode(d)) && row.isActive && !row.isUsed;
    var f := FindLive(codes, HexCode(d));
    assert f.Some?;
    assert f.value == |ledger.codes|;
  }
}

=== FILE: jwt_strategy.dfy ===
/** The passport JWT strategy: it maps a verified token payload to the
    principal attached to the request. */
module JwtStrategy {

  /** A decoded payload: the fields `validate` reads, and everything else the
      token carries as an opaque field map. */
  datatype Payload = Payload(
    id: string,
    email: string,
    name: string,
    isAdmin: bool,
    isBlocked: bool,
    others: map<string, string>)

  datatype Principal = Principal(
    id: string,
    email: string,
    name: string,
    isAdmin: bool,
    isBlocked: bool,
    roles: seq<string>)

  /** `validate`: the five identity fields copied as they are, and one role,
      `Admin` for an administrator and `user` otherwise. */
  function Validate(p: Payload): (r: Principal)
    ensures r.id == p.id && r.email == p.email && r.name == p.name
    ensures r.isAdmin == p.isAdmin && r.isBlocked == p.isBlocked
    ensures |r.roles| == 1
    ensures r.roles[0] == "Admin" <==> p.isAdmin
    ensures r.roles[0] == "user" <==> !p.isAdmin
  {
    Principal(p.id, p.email, p.name, p.isAdmin, p.isBlocked, if p.isAdmin then ["Admin"] else ["user"])
  }

  /** Nothing but the five fields reaches the principal: payloads that agree
      on them give the same principal, whatever else they carry. */
  lemma {:induction false} ValidateIgnoresOtherFields(p: Payload, q: Payload)
    requires p.id == q.id && p.email == q.email && p.name == q.name
    requires p.isAdmin == q.isAdmin && p.isBlocked == q.isBlocked
    ensures Validate(p) == Validate(q)
  {
    var a := Validate(p);
    var b := Validate(q);
    assert a.roles == b.roles;
  }
}

=== FILE: logger.dfy ===
/** The colour choices of the request logger: the status code and the HTTP
    method are each drawn in an ANSI colour. */
module Logger {

  datatype Color = Red | Yellow | Cyan | Green | Magenta

  /** The ANSI escape sequence of each colour. */
  function Code(c: Color): string
  {
    match c
    case Red => "\U{001B}[31m"
    case Yellow => "\U{001B}[33m"
    case Cyan => "\U{001B}[36m"
    case Green => "\U{001B}[32m"
    case Magenta => "\U{001B}[95m"
  }

  /** `colorStatus`: server errors red, client errors yellow, redirects cyan,
      and everything below 300 green. */
  function ColorStatus(status: int): (r: Color)
    ensures r == Red <==> status >= 500
    ensures r == Yellow <==> 400 <= status < 500
    ensures r == Cyan <==> 300 <= status < 400
    ensures r == Green <==> status < 300
  {
    if status >= 500 then Red
    else if status >= 400 then Yellow
    else if status >= 300 then Cyan
    else Green
  }

  /** How alarming a status colour is. */
  function Severity(c: Color): nat
  {
    match c
    case Green => 0
    case Cyan => 1
    case Yellow => 2
    case Red => 3
    case Magenta => 0
  }

  /** A larger status code is never drawn in a calmer colour. */
  lemma StatusColorMonotone(a: int, b: int)
    requires a <= b
    ensures Severity(ColorStatus(a)) <= Severity(ColorStatus(b))
  {
  }

  /** `colorMethod`: the four usual methods, compared case-sensitively, each
      have a colour; every other method is magenta. */
  function ColorMethod(verb: string): (r: Color)
    ensures r == Cyan <==> verb == "GET"
    ensures r == Green <==> verb == "POST"
    ensures r == Yellow <==> verb == "PUT"
    ensures r == Red <==> verb == "DELETE"
    ensures r == Magenta <==> verb !in {"GET", "POST", "PUT", "DELETE"}
  {
    if verb == "GET" then Cyan
    else if verb == "POST" then Green
    else if verb == "PUT" then Yellow
    else if verb == "DELETE" then Red
    else Magenta
  }
}

=== FILE: match_password.dfy ===
/** The `MatchPassword` validator constraint: a confirmation field must be
    strictly equal to the field named by the constraint's first argument. */
module MatchPassword {

  /** The primitive values a validated body can hold. */
  datatype JsValue = Undefined | Null | Str(s: string) | Num(n: int) | Bool(b: bool)

  const DefaultMessage := "El password y la confirmación no coinciden"

  /** The property key `constraints[0]`: with no constraints it is undefined,
      which as a property key reads the property named "undefined". */
  function ConstraintKey(constraints: seq<string>): string
  {
    if |constraints| > 0 then constraints[0] else "undefined"
  }

  /** `obj[key]`: a missing property reads as undefined. */
  function Get(obj: map<string, JsValue>, key: string): JsValue
  {
    if key in obj then obj[key] else Undefined
  }

  /** `validate`: true exactly when the confirmation is strictly equal to the
      value of the named field; a missing field only matches undefined. */
  function Validate(confirm: JsValue, obj: map<string, JsValue>, constraints: seq<string>): (r: bool)
    ensures (r <==>
      if |constraints| > 0 && constraints[0] in obj then confirm == obj[constraints[0]]
      else if |constraints| > 0 then confirm == Undefined
      else confirm == Get(obj, "undefined"))
  {
    confirm == Get(obj, ConstraintKey(constraints))
  }

  /** Confirming with the field's own value always validates. */
  lemma ValidateReflexive(obj: map<string, JsValue>, key: string, rest: seq<string>)
    requires key in obj
    ensures Validate(obj[key], obj, [key] + rest)
  {
  }

  /** Only the first constraint is read, and only the field it names: the
      rest of the object and of the constraint list make no difference. */
  lemma {:induction false} ValidateReadsOneField(
    confirm: JsValue, obj: map<string, JsValue>, key: string, rest: seq<string>,
    other: string, v: JsValue)
    requires other != key
    ensures Validate(confirm, obj, [key] + rest) == Validate(confirm, obj, [key])
    ensures Validate(confirm, obj[other := v], [key]) == Validate(confirm, obj, [key])
  {
    assert ([key] + rest)[0] == key;
    assert Get(obj[other := v], key) == Get(obj, key);
  }
}

=== FILE: notifications.dfy ===
/** The notification read path: the `excludeTypes` query parser of
    `GET /notifications/me` and the notifications repository. */
module Notifications {
  import opened Wrappers
  import opened Tables
  import opened Text

  datatype NotificationType =
    | DailySummary | Purchase | Sale | OrderShipped | OrderDelivered | ProductApproved | ProductRejected

  /** The enum's string values. */
  function Wire(t: NotificationType): string
  {
    match t
    case DailySummary => "daily_summary"
    case Purchase => "purchase"
    case Sale => "sale"
    case OrderShipped => "order_shipped"
    case OrderDelivered => "order_delivered"
    case ProductApproved => "product_approved"
    case ProductRejected => "product_rejected"
  }

  /** `Object.values(NotificationType).includes(value)`, answering which. */
  function ParseType(s: string): (r: Option<NotificationType>)
    ensures r.Some? ==> Wire(r.value) == s
  {
    if s == "daily_summary" then Some(DailySummary)
    else if s == "purchase" then Some(Purchase)
    else if s == "sale" then Some(Sale)
    else if s == "order_shipped" then Some(OrderShipped)
    else if s == "order_delivered" then Some(OrderDelivered)
    else if s == "product_approved" then Some(ProductApproved)
    else if s == "product_rejected" then Some(ProductRejected)
    else None
  }

  /** Every value of the enum is recognised as itself. */
  lemma ParseWire(t: NotificationType)
    ensures ParseType(Wire(t)) == Some(t)
  {
  }

  /** The type a comma-separated piece names, once trimmed. */
  function Recognise(piece: string): Option<NotificationType>
  {
    ParseType(Trim(piece))
  }

  /** The recognised values among the comma-separated, trimmed pieces. */
  function KnownTypes(pieces: seq<string>): (r: seq<NotificationType>)
    ensures forall t :: t in r <==> Mentions(pieces, Recognise, Some(t))
  {
    if |pieces| == 0 then []
    else
      var rest := KnownTypes(pieces[1..]);
      var head := match Recognise(pieces[0]) case Some(t) => [t] case None => [];
      assert forall t :: t in head + rest <==> Mentions(pieces, Recognise, Some(t)) by {
        forall t ensures t in head + rest <==> Mentions(pieces, Recognise, Some(t)) {
          MentionsCons(pieces, Recognise, Some(t));
        }
      }
      head + rest
  }

  predicate NoDuplicates<T(==)>(s: seq<T>)
  {
    forall i, j :: 0 <= i < j < |s| ==> s[i] != s[j]
  }

  /** `forEach(value => set.add(value))`: the set's insertion order. */
  function AddAll(acc: seq<NotificationType>, xs: seq<NotificationType>): (r: seq<NotificationType>)
    ensures forall x :: x in r <==> x in acc || x in xs
    decreases |xs|
  {
    if |xs| == 0 then acc
    else AddAll(if xs[0] in acc then acc else acc + [xs[0]], xs[1..])
  }

  /** Position of the first occurrence. */
  function Pos<T(==)>(xs: seq<T>, x: T): (k: nat)
    requires x in xs
    ensures k < |xs| && xs[k] == x
  {
    if xs[0] == x then 0 else 1 + Pos(xs[1..], x)
  }

  /** A set filled in list order holds each element once, keeps what it
      held, and lists the new elements in the order of their first
      occurrence. */
  lemma {:induction false} AddAllOrder(acc: seq<NotificationType>, xs: seq<NotificationType>)
    requires NoDuplicates(acc)
    ensures var r := AddAll(acc, xs);
      && |r| >= |acc| && r[..|acc|] == acc
      && NoDuplicates(r)
      && (forall j :: |acc| <= j < |r| ==> r[j] !in acc && r[j] in xs)
      && (forall i, j :: |acc| <= i < j < |r| ==> Pos(xs, r[i]) < Pos(xs, r[j]))
    decreases |xs|
  {
    if |xs| > 0 {
      var x := xs[0];
      var t := xs[1..];
      var acc' := if x in acc then acc else acc + [x];
      assert NoDuplicates(acc');
      AddAllOrder(acc', t);
      var r := AddAll(acc', t);
      assert r == AddAll(acc, xs);
      assert r[..|acc|] == acc by {
        assert r[..|acc'|] == acc';
        assert acc'[..|acc|] == acc;
      }
      forall j | |acc| <= j < |r|
        ensures r[j] !in acc && r[j] in xs
      {
        if x !in acc && j == |acc| {
          assert r[j] == acc'[j] == x;
        }
      }
      forall y | y in t && y != x
        ensures Pos(xs, y) == 1 + Pos(t, y)
      {
      }
      forall i, j | |acc| <= i < j < |r|
        ensures Pos(xs, r[i]) < Pos(xs, r[j])
      {
        if x !in acc && i == |acc| {
          assert r[i] == acc'[i] == x;
          assert r[j] != x;
        } else {
          assert r[i] != x && r[j] != x;
        }
      }
    }
  }

  /** The recognised types `excludeTypes` mentions, in order, repeats
      included; a missing or empty parameter mentions none. */
  function Listed(excludeTypes: Option<string>): seq<NotificationType>
  {
    if excludeTypes.Some? && excludeTypes.value != "" then KnownTypes(Split(excludeTypes.value, ',')) else []
  }

  /** The exclusion set filled from the listed types, plus `daily_summary`
      when `includeDailySummary` is exactly the string "false". */
  function Exclusions(known: seq<NotificationType>, includeDailySummary: Option<string>): seq<NotificationType>
  {
    var listed := AddAll([], known);
    if includeDailySummary == Some("false") && DailySummary !in listed then listed + [DailySummary]
    else listed
  }

  /** `getMyNotifications`' parsing of its two query parameters into the
      exclusion list. */
  function ParseExcludeTypes(excludeTypes: Option<string>, includeDailySummary: Option<string>)
    : (r: seq<NotificationType>)
  {
    Exclusions(Listed(excludeTypes), includeDailySummary)
  }

  /** Each listed type once, in the order of its first mention; then
      `daily_summary` when the flag asks for it and it is not there yet. */
  lemma ExclusionsSpec(known: seq<NotificationType>, includeDailySummary: Option<string>)
    ensures var r := Exclusions(known, includeDailySummary);
      && NoDuplicates(r)
      && (forall t :: t in r <==> t in known || (t == DailySummary && includeDailySummary == Some("false")))
      && (forall i, j :: 0 <= i < j < |r| && r[j] in known ==> r[i] in known && Pos(known, r[i]) < Pos(known, r[j]))
  {
    AddAllOrder([], known);
  }

  /** Without the flag the exclusions are exactly the listed types. */
  lemma ExclusionsMembers(known: seq<NotificationType>, t: NotificationType)
    ensures t in Exclusions(known, None) <==> t in known
  {
    ExclusionsSpec(known, None);
  }

  /** The parser's result: each recognised type `excludeTypes` mentions,
      once, in the order of its first mention, and `daily_summary` also
      when `includeDailySummary` is exactly "false". */
  lemma ParseExcludeTypesSpec(excludeTypes: Option<string>, includeDailySummary: Option<string>)
    ensures var r := ParseExcludeTypes(excludeTypes, includeDailySummary);
      var known := Listed(excludeTypes);
      && NoDuplicates(r)
      && (forall t :: t in r <==> t in known || (t == DailySummary && includeDailySummary == Some("false")))
      && (forall i, j :: 0 <= i < j < |r| && r[j] in known ==> r[i] in known && Pos(known, r[i]) < Pos(known, r[j]))
  {
    ExclusionsSpec(Listed(excludeTypes), includeDailySummary);
  }

  lemma ParseTypeIff(x: string, t: NotificationType)
    ensures ParseType(x) == Some(t) <==> x == Wire(t)
  {
    if x == Wire(t) {
      ParseWire(t);
    }
  }

  /** A piece names `t` exactly when its trimmed form is `t`'s value. */
  lemma MentionsIff(pieces: seq<string>, t: NotificationType)
    ensures Mentions(pieces, Recognise, Some(t)) <==> Mentions(pieces, Trim, Wire(t))
  {
    if Mentions(pieces, Recognise, Some(t)) {
      var k :| 0 <= k < |pieces| && Recognise(pieces[k]) == Some(t);
      ParseTypeIff(Trim(pieces[k]), t);
    }
    if Mentions(pieces, Trim, Wire(t)) {
      var k :| 0 <= k < |pieces| && Trim(pieces[k]) == Wire(t);
      ParseWire(t);
      assert Recognise(pieces[k]) == Some(t);
    }
  }

  /** A type is excluded exactly when some comma-separated piece of the
      parameter, once trimmed, is the type's value. */
  lemma ExcludeTypesMembers(s: string, t: NotificationType)
    ensures t in ParseExcludeTypes(Some(s), None) <==> Mentions(Split(s, ','), Trim, Wire(t))
  {
    if s == "" {
      EmptyNamesNothing(t);
    } else {
      var known := KnownTypes(Split(s, ','));
      assert ParseExcludeTypes(Some(s), None) == Exclusions(known, None);
      ExclusionsMembers(known, t);
      MentionsIff(Split(s, ','), t);
    }
  }

  /** An empty parameter is one empty piece, which names no type. */
  lemma EmptyNamesNothing(t: NotificationType)
    ensures !Mentions(Split("", ','), Trim, Wire(t))
  {
    assert Split("", ',') == [""];
    assert Trim("") == "";
    assert |Wire(t)| > 0;
  }

  /** Without `excludeTypes` and without the "false" flag nothing is
      excluded. */
  lemma NothingExcludedByDefault(includeDailySummary: Option<string>)
    requires includeDailySummary != Some("false")
    ensures ParseExcludeTypes(None, includeDailySummary) == []
    ensures ParseExcludeTypes(Some(""), includeDailySummary) == []
  {
  }

  // ---------------------------------------------------------------------------
  // Repository
  // ---------------------------------------------------------------------------

  /** `type` is a plain string column; `read` defaults to false. */
  datatype Notification = Notification(id: nat, userId: string, kind: string, message: string, read: bool, createdAt: int)

  datatype NotificationStore = NotificationStore(rows: seq<Notification>, nextId: nat)

  /** The store's invariant: every key in use is below the next key, so the
      next key is fresh. */
  predicate KeysBelowNext(st: NotificationStore)
  {
    forall i :: 0 <= i < |st.rows| ==> st.rows[i].id < st.nextId
  }

  /** `create`. */
  function Create(st: NotificationStore, userId: string, kind: string, message: string, now: int)
    : (r: (NotificationStore, Notification))
    ensures r.0.rows == st.rows + [r.1]
    ensures r.1.userId == userId && r.1.kind == kind && r.1.message == message && !r.1.read
    ensures forall i :: 0 <= i < |st.rows| ==> st.rows[i].id < st.nextId ==> r.1.id != st.rows[i].id
    ensures KeysBelowNext(st) ==> KeysBelowNext(r.0) && forall i :: 0 <= i < |st.rows| ==> r.1.id != st.rows[i].id
  {
    var n := Notification(st.nextId, userId, kind, message, false, now);
    (NotificationStore(st.rows + [n], st.nextId + 1), n)
  }

  function NotificationCreatedAt(n: Notification): int
  {
    n.createdAt
  }

  /** `findByUser`: all of the user's notifications, newest first, of
      every type. */
  function FindByUser(st: NotificationStore, userId: string): (r: seq<Notification>)
    ensures SortedDesc(r, NotificationCreatedAt)
    ensures multiset(r) == multiset(Filter(st.rows, (n: Notification) => n.userId == userId))
    ensures forall i :: 0 <= i < |r| ==> r[i] in st.rows && r[i].userId == userId
    ensures forall i :: 0 <= i < |st.rows| && st.rows[i].userId == userId ==> st.rows[i] in r
    ensures |r| == Count(st.rows, (n: Notification) => n.userId == userId)
  {
    SelectDesc(st.rows, (n: Notification) => n.userId == userId, NotificationCreatedAt)
  }

  /** `markAsRead`: only the owner's notification with that key is found;
      someone else's is reported missing. */
  function MarkAsRead(st: NotificationStore, id: nat, userId: string): (r: Result<(NotificationStore, Notification)>)
    ensures r.Err? <==> forall i :: 0 <= i < |st.rows| ==> !(st.rows[i].id == id && st.rows[i].userId == userId)
    ensures r.Err? ==> r.error == NotFound("Notificación no encontrada")
    ensures r.Ok? ==>
      && r.value.1.id == id && r.value.1.userId == userId && r.value.1.read
      && r.value.0.nextId == st.nextId && |r.value.0.rows| == |st.rows|
      && (forall i :: 0 <= i < |st.rows| ==>
            r.value.0.rows[i] == st.rows[i] ||
            (r.value.0.rows[i] == st.rows[i].(read := true) && st.rows[i].id == id && st.rows[i].userId == userId))
  {
    match FindFirst(st.rows, (n: Notification) => n.id == id && n.userId == userId)
    case None => Err(NotFound("Notificación no encontrada"))
    case Some(j) =>
      var n := st.rows[j].(read := true);
      Ok((st.(rows := st.rows[j := n]), n))
  }

  /** Marking twice is marking once. */
  lemma MarkAsReadIdempotent(st: NotificationStore, id: nat, userId: string)
    requires MarkAsRead(st, id, userId).Ok?
    ensures var st1 := MarkAsRead(st, id, userId).value.0;
      MarkAsRead(st1, id, userId).Ok? && MarkAsRead(st1, id, userId).value.0 == st1
  {
    var st1 := MarkAsRead(st, id, userId).value.0;
    var j := FindFirst(st.rows, (n: Notification) => n.id == id && n.userId == userId).value;
    FindFirstSamePattern(st.rows, (n: Notification) => n.id == id && n.userId == userId,
                         st1.rows, (n: Notification) => n.id == id && n.userId == userId);
    assert st1.rows[j := st1.rows[j].(read := true)] == st1.rows;
  }
}

=== FILE: orders.dfy ===
/** `OrdersService`: the seller dispatches a paid order, the buyer confirms
    its delivery, and buyers read their own orders. */
module Orders {
  import opened Wrappers
  import opened Tables
  import opened Commerce

  /** The items of an order (the `items` relation). */
  function ItemsOf(items: seq<OrderItem>, orderId: Id): (r: seq<OrderItem>)
    ensures forall i :: 0 <= i < |r| ==> r[i] in items && r[i].orderId == orderId
    ensures forall i :: 0 <= i < |items| && items[i].orderId == orderId ==> items[i] in r
  {
    Filter(items, (it: OrderItem) => it.orderId == orderId)
  }

  /** Every item of the order is a product owned by `sellerId`; an order
      without items qualifies. */
  predicate SoldBy(st: Store, orderId: Id, sellerId: UserId)
  {
    forall i :: 0 <= i < |st.orderItems| && st.orderItems[i].orderId == orderId ==>
      SellerOf(st.products, st.orderItems[i]) == Some(sellerId)
  }

  /** The store with order `j` moved to `status` and nothing else changed. */
  function SetStatus(st: Store, j: nat, status: OrderStatus): (r: (Store, Order))
    requires j < |st.orders|
    ensures |r.0.orders| == |st.orders| && r.0.orders[j] == r.1
    ensures r.1 == st.orders[j].(status := status)
    ensures forall i :: 0 <= i < |st.orders| && i != j ==> r.0.orders[i] == st.orders[i]
    ensures r.0 == st.(orders := r.0.orders)
  {
    var o := st.orders[j].(status := status);
    (st.(orders := st.orders[j := o]), o)
  }

  /** `dispatchOrder`. */
  function DispatchOrder(st: Store, orderId: Id, sellerId: UserId): (r: Result<(Store, Order)>)
    ensures FindOrder(st.orders, orderId).None? ==> r == Err(NotFound("Order not found"))
    ensures (FindOrder(st.orders, orderId).Some? && st.orders[FindOrder(st.orders, orderId).value].status != Paid) ==>
      r == Err(BadRequest("Order must be PAID to dispatch"))
    ensures (FindOrder(st.orders, orderId).Some? && st.orders[FindOrder(st.orders, orderId).value].status == Paid
             && !SoldBy(st, orderId, sellerId)) ==>
      r == Err(Forbidden("You are not the seller of this order"))
    ensures r.Ok? <==> (FindOrder(st.orders, orderId).Some?
      && st.orders[FindOrder(st.orders, orderId).value].status == Paid && SoldBy(st, orderId, sellerId))
    ensures r.Ok? ==>
      var j := FindOrder(st.orders, orderId).value;
      r.value == SetStatus(st, j, Shipped)
  {
    match FindOrder(st.orders, orderId)
    case None => Err(NotFound("Order not found"))
    case Some(j) =>
      if st.orders[j].status != Paid then Err(BadRequest("Order must be PAID to dispatch"))
      else if !SoldBy(st, orderId, sellerId) then Err(Forbidden("You are not the seller of this order"))
      else Ok(SetStatus(st, j, Shipped))
  }

  /** The relation paths an order declares: its buyer, its `items`, each
      item's product and that product's owner. */
  const OrderRelationPaths: set<string> := {"user", "items", "items.product", "items.product.user"}

  /** The relations `dispatchOrder` asks the repository to load. */
  const DispatchRelations: seq<string> := ["orderItems", "orderItems.product", "orderItems.product.user"]

  /** The relations the dispatch needs, under the names the order declares. */
  const IntendedDispatchRelations: seq<string> := ["items", "items.product", "items.product.user"]

  /** Loading an order with named relations: a name the entity does not
      declare makes the query throw before any row is read, and the server
      answers with an internal error. */
  function LoadRelations(requested: seq<string>): (r: Option<HttpError>)
    ensures r.None? <==> forall i :: 0 <= i < |requested| ==> requested[i] in OrderRelationPaths
    ensures r.Some? ==> r.value == InternalError("Internal server error")
  {
    if |requested| == 0 then None
    else if requested[0] !in OrderRelationPaths then Some(InternalError("Internal server error"))
    else LoadRelations(requested[1..])
  }

  /** `dispatchOrder` as written: the relations are loaded under the names
      in `DispatchRelations`, and only a load that succeeds goes on to the
      checks of `DispatchOrder`. */
  function DispatchOrderAsWritten(st: Store, orderId: Id, sellerId: UserId): (r: Result<(Store, Order)>)
    ensures LoadRelations(DispatchRelations).None? ==> r == DispatchOrder(st, orderId, sellerId)
    ensures r.Ok? ==> r == DispatchOrder(st, orderId, sellerId)
    ensures r.Err? ==> r.error == InternalError("Internal server error") || r == DispatchOrder(st, orderId, sellerId)
  {
    match LoadRelations(DispatchRelations)
    case Some(e) => Err(e)
    case None => DispatchOrder(st, orderId, sellerId)
  }

  /** As written, no dispatch ever ships an order, reports a missing order
      or refuses a caller who sells none of it: `orderItems` is not a
      relation of an order, so every call ends in a server error. */
  lemma DispatchAsWrittenAlwaysFails(st: Store, orderId: Id, sellerId: UserId)
    ensures DispatchOrderAsWritten(st, orderId, sellerId) == Err(InternalError("Internal server error"))
    ensures DispatchOrder(st, orderId, sellerId).Ok? ==> DispatchOrderAsWritten(st, orderId, sellerId) != DispatchOrder(st, orderId, sellerId)
  {
    assert DispatchRelations[0] !in OrderRelationPaths;
  }

  /** Under the declared names the load succeeds, so the dispatch is
      exactly `DispatchOrder`. */
  lemma IntendedRelationsLoad()
    ensures LoadRelations(IntendedDispatchRelations).None?
  {
    assert IntendedDispatchRelations[0] in OrderRelationPaths;
  }

  /** `receiveOrder`. */
  function ReceiveOrder(st: Store, orderId: Id, buyerId: UserId): (r: Result<(Store, Order)>)
    ensures FindOrder(st.orders, orderId).None? ==> r == Err(NotFound("Order not found"))
    ensures (FindOrder(st.orders, orderId).Some? && st.orders[FindOrder(st.orders, orderId).value].status != Shipped) ==>
      r == Err(BadRequest("Order must be SHIPPED to confirm delivery"))
    ensures (FindOrder(st.orders, orderId).Some? && st.orders[FindOrder(st.orders, orderId).value].status == Shipped
             && st.orders[FindOrder(st.orders, orderId).value].buyerId != buyerId) ==>
      r == Err(Forbidden("You are not the buyer of this order"))
    ensures r.Ok? <==> (FindOrder(st.orders, orderId).Some?
      && st.orders[FindOrder(st.orders, orderId).value].status == Shipped
      && st.orders[FindOrder(st.orders, orderId).value].buyerId == buyerId)
    ensures r.Ok? ==>
      var j := FindOrder(st.orders, orderId).value;
      r.value == SetStatus(st, j, Delivered)
  {
    match FindOrder(st.orders, orderId)
    case None => Err(NotFound("Order not found"))
    case Some(j) =>
      if st.orders[j].status != Shipped then Err(BadRequest("Order must be SHIPPED to confirm delivery"))
      else if st.orders[j].buyerId != buyerId then Err(Forbidden("You are not the buyer of this order"))
      else Ok(SetStatus(st, j, Delivered))
  }

  /** Position of a status on the delivery path PAID, SHIPPED, DELIVERED. */
  function Rank(s: OrderStatus): int
  {
    match s
    case Pending => 0
    case Cancelled => 0
    case Paid => 1
    case Shipped => 2
    case Delivered => 3
  }

  /** Dispatch and receive each move one order exactly one step forward on
      the delivery path and touch no other order. */
  lemma StepsOnlyForward(st: Store, orderId: Id, userId: UserId)
    ensures DispatchOrder(st, orderId, userId).Ok? ==>
      var j := FindOrder(st.orders, orderId).value;
      var o' := DispatchOrder(st, orderId, userId).value.0.orders;
      Rank(o'[j].status) == Rank(st.orders[j].status) + 1 == 2 &&
      forall i :: 0 <= i < |st.orders| && i != j ==> o'[i] == st.orders[i]
    ensures ReceiveOrder(st, orderId, userId).Ok? ==>
      var j := FindOrder(st.orders, orderId).value;
      var o' := ReceiveOrder(st, orderId, userId).value.0.orders;
      Rank(o'[j].status) == Rank(st.orders[j].status) + 1 == 3 &&
      forall i :: 0 <= i < |st.orders| && i != j ==> o'[i] == st.orders[i]
  {
  }

  /** A delivered order can be moved by neither operation, by anyone. */
  lemma DeliveredIsFinal(st: Store, orderId: Id, userId: UserId)
    requires FindOrder(st.orders, orderId).Some?
    requires st.orders[FindOrder(st.orders, orderId).value].status == Delivered
    ensures DispatchOrder(st, orderId, userId).Err? && ReceiveOrder(st, orderId, userId).Err?
  {
  }

  /** The status check comes before the ownership check: a non-paid order
      reports the status error even to someone who sells none of it. */
  lemma DispatchChecksStatusFirst(st: Store, orderId: Id, sellerId: UserId)
    requires FindOrder(st.orders, orderId).Some?
    requires st.orders[FindOrder(st.orders, orderId).value].status != Paid
    ensures DispatchOrder(st, orderId, sellerId) == Err(BadRequest("Order must be PAID to dispatch"))
  {
  }

  /** A paid order with no items passes the ownership check for anyone. */
  lemma DispatchEmptyOrder(st: Store, orderId: Id, sellerId: UserId)
    requires FindOrder(st.orders, orderId).Some?
    requires st.orders[FindOrder(st.orders, orderId).value].status == Paid
    requires forall i :: 0 <= i < |st.orderItems| ==> st.orderItems[i].orderId != orderId
    ensures DispatchOrder(st, orderId, sellerId).Ok?
  {
  }

  /** `getOrderById`: the caller's own order with its items. Another user's
      order is reported as missing, not as forbidden. */
  function GetOrderById(st: Store, orderId: Id, userId: UserId): (r: Result<(Order, seq<OrderItem>)>)
    ensures r.Ok? <==> exists j :: 0 <= j < |st.orders| && st.orders[j].id == orderId && st.orders[j].buyerId == userId
    ensures r.Err? ==> r.error == NotFound("Order not found")
    ensures r.Ok? ==> r.value.0 in st.orders && r.value.0.id == orderId && r.value.0.buyerId == userId
    ensures r.Ok? ==> r.value.1 == ItemsOf(st.orderItems, orderId)
  {
    match FindFirst(st.orders, (o: Order) => o.id == orderId && o.buyerId == userId)
    case None => Err(NotFound("Order not found"))
    case Some(j) => Ok((st.orders[j], ItemsOf(st.orderItems, st.orders[j].id)))
  }

  function CreatedAt(o: Order): int
  {
    o.createdAt
  }

  /** `getUserOrders`: exactly the caller's orders, newest first. */
  function GetUserOrders(st: Store, userId: UserId): (r: seq<Order>)
    ensures SortedDesc(r, CreatedAt)
    ensures multiset(r) == multiset(Filter(st.orders, (o: Order) => o.buyerId == userId))
    ensures forall i :: 0 <= i < |r| ==> r[i] in st.orders && r[i].buyerId == userId
    ensures forall i :: 0 <= i < |st.orders| && st.orders[i].buyerId == userId ==> st.orders[i] in r
  {
    var mine := Filter(st.orders, (o: Order) => o.buyerId == userId);
    SortDesc(mine, CreatedAt)
  }
}

=== FILE: products_db.dfy ===
/** The product service: lookup, creation with its image-source rule,
    partial updates and the administrator's review of a listing. */
module ProductsDb {
  import opened Wrappers
  import opened Tables
  import opened Text
  import opened Commerce

  /** The product table with the category and era keys that exist. */
  datatype Catalog = Catalog(
    products: seq<Product>,
    categories: set<Id>,
    eras: set<Id>,
    nextId: nat)

  /** The fields of a create request; `imgUrl` may be absent. */
  datatype ProductInput = ProductInput(
    title: string,
    description: string,
    price: Cents,
    stock: int,
    categoryId: Id,
    eraId: Id,
    imgUrl: Option<string>)

  /** An uploaded file; a file without a buffer cannot be sent on. */
  datatype Upload = Upload(hasBuffer: bool, name: string)

  const ProductNotFound := "Product not found"
  const CategoryNotFound := "Category not found"
  const EraNotFound := "Era not found"
  const InvalidFile := "Invalid image file."
  const NoImage := "You must provide either an image file or imgUrl."

  /** `getProductById`: the first product with that key. */
  function GetProductById(products: seq<Product>, id: Id): (r: Result<Product>)
    ensures r.Err? <==> forall j :: 0 <= j < |products| ==> products[j].id != id
    ensures r.Err? ==> r.error == NotFound(ProductNotFound)
    ensures (r.Ok? ==>
      exists k :: 0 <= k < |products| && products[k] == r.value && r.value.id == id
        && forall j :: 0 <= j < k ==> products[j].id != id)
  {
    match FindProduct(products, id)
    case None => Err(NotFound(ProductNotFound))
    case Some(k) => Ok(products[k])
  }

  /** The trimmed `imgUrl`, or the empty string when it is absent. */
  function ProvidedUrl(imgUrl: Option<string>): string
  {
    match imgUrl
    case None => ""
    case Some(u) => Trim(u)
  }

  /** The image a new product gets: a non-blank `imgUrl` (trimmed) wins and
      nothing is uploaded; otherwise the file is uploaded, where `upload` is
      the image host (None when it fails); with neither, the empty string. */
  function ImageFor(imgUrl: Option<string>, file: Option<Upload>, upload: Upload -> Option<string>): (r: Result<string>)
    ensures ProvidedUrl(imgUrl) != [] ==> r == Ok(ProvidedUrl(imgUrl))
    ensures ProvidedUrl(imgUrl) == [] && file.None? ==> r == Ok("")
    ensures (ProvidedUrl(imgUrl) == [] && file.Some? ==>
      r == if !file.value.hasBuffer then Err(BadRequest(InvalidFile))
           else if upload(file.value).None? then Err(InternalError("Internal server error"))
           else Ok(upload(file.value).value))
  {
    var provided := ProvidedUrl(imgUrl);
    if provided != [] then Ok(provided)
    else match file
      case None => Ok("")
      case Some(f) =>
        if !f.hasBuffer then Err(BadRequest(InvalidFile))
        else match upload(f)
          case None => Err(InternalError("Internal server error"))
          case Some(url) => Ok(url)
  }

  /** `createProduct`: the category is checked, then the era, then the image
      is resolved; the product is saved as pending review and owned by the
      caller. */
  function CreateProduct(
    cat: Catalog, dto: ProductInput, file: Option<Upload>,
    upload: Upload -> Option<string>, owner: UserId): (r: Result<(Catalog, Product)>)
    ensures dto.categoryId !in cat.categories ==> r == Err(NotFound(CategoryNotFound))
    ensures (dto.categoryId in cat.categories && dto.eraId !in cat.eras ==>
      r == Err(NotFound(EraNotFound)))
    ensures (r.Ok? <==>
      dto.categoryId in cat.categories && dto.eraId in cat.eras
      && ImageFor(dto.imgUrl, file, upload).Ok? && ImageFor(dto.imgUrl, file, upload).value != [])
    ensures r == Err(InternalError("Internal server error")) ==> file.Some?
    ensures (r.Ok? ==>
      var (after, p) := r.value;
      && after.products == cat.products + [p]
      && after.categories == cat.categories && after.eras == cat.eras
      && p.id == cat.nextId < after.nextId
      && p.title == dto.title && p.description == dto.description
      && p.price == dto.price && p.stock == dto.stock
      && p.categoryId == dto.categoryId && p.eraId == dto.eraId
      && p.imgUrl == ImageFor(dto.imgUrl, file, upload).value
      && p.ownerId == owner && p.status == ProductPending)
  {
    if dto.categoryId !in cat.categories then Err(NotFound(CategoryNotFound))
    else if dto.eraId !in cat.eras then Err(NotFound(EraNotFound))
    else
      var image :- ImageFor(dto.imgUrl, file, upload);
      if image == [] then Err(BadRequest(NoImage))
      else
        var p := Product(cat.nextId, dto.title, dto.description, dto.price, dto.stock,
                         image, dto.categoryId, dto.eraId, owner, ProductPending);
        Ok((cat.(products := cat.products + [p], nextId := cat.nextId + 1), p))
  }

  /** A non-blank `imgUrl` makes the file and the image host irrelevant:
      nothing is uploaded and the product keeps the trimmed URL. */
  lemma ImageUrlWins(
    cat: Catalog, dto: ProductInput, file: Option<Upload>, upload: Upload -> Option<string>,
    otherFile: Option<Upload>, otherUpload: Upload -> Option<string>, owner: UserId)
    requires dto.imgUrl.Some? && !IsBlank(dto.imgUrl.value)
    ensures CreateProduct(cat, dto, file, upload, owner) == CreateProduct(cat, dto, otherFile, otherUpload, owner)
    ensures (CreateProduct(cat, dto, file, upload, owner).Ok? ==>
      CreateProduct(cat, dto, file, upload, owner).value.1.imgUrl == Trim(dto.imgUrl.value))
  {
    TrimEmptyIffBlank(dto.imgUrl.value);
  }

  /** With a blank or absent `imgUrl` and no file, creation is refused once the
      category and era exist. */
  lemma NoImageRefused(cat: Catalog, dto: ProductInput, upload: Upload -> Option<string>, owner: UserId)
    requires dto.categoryId in cat.categories && dto.eraId in cat.eras
    requires dto.imgUrl.None? || IsBlank(dto.imgUrl.value)
    ensures CreateProduct(cat, dto, None, upload, owner) == Err(BadRequest(NoImage))
  {
    if dto.imgUrl.Some? {
      TrimEmptyIffBlank(dto.imgUrl.value);
    }
  }

  /** A created product is what a lookup by its key returns, when keys below
      `nextId` are the only ones in use. */
  lemma CreatedProductIsFound(
    cat: Catalog, dto: ProductInput, file: Option<Upload>,
    upload: Upload -> Option<string>, owner: UserId)
    requires forall j :: 0 <= j < |cat.products| ==> cat.products[j].id < cat.nextId
    requires CreateProduct(cat, dto, file, upload, owner).Ok?
    ensures var (after, p) := CreateProduct(cat, dto, file, upload, owner).value;
      GetProductById(after.products, p.id) == Ok(p) && p.status == ProductPending
  {
    var (after, p) := CreateProduct(cat, dto, file, upload, owner).value;
    FindFirstAppended(cat.products, p, (q: Product) => q.id == p.id);
  }

  /** The administrator's verdict: `approveProduct` or `rejectProduct`. The
      notification and the email that follow have their failures caught and
      do not change the answer. */
  function Review(cat: Catalog, id: Id, verdict: ProductStatus): (r: Result<(Catalog, Product)>)
    ensures r.Err? <==> forall j :: 0 <= j < |cat.products| ==> cat.products[j].id != id
    ensures r.Err? ==> r.error == NotFound(ProductNotFound)
    ensures (r.Ok? ==>
      var (after, p) := r.value;
      var k := FindProduct(cat.products, id).value;
      && p.status == verdict
      && p == cat.products[k].(status := verdict)
      && after == cat.(products := cat.products[k := p]))
  {
    match FindProduct(cat.products, id)
    case None => Err(NotFound(ProductNotFound))
    case Some(k) =>
      var p := cat.products[k].(status := verdict);
      Ok((cat.(products := cat.products[k := p]), p))
  }

  function ApproveProduct(cat: Catalog, id: Id): (r: Result<(Catalog, Product)>)
    ensures r.Ok? ==> r.value.1.status == ProductApproved
  {
    Review(cat, id, ProductApproved)
  }

  function RejectProduct(cat: Catalog, id: Id): (r: Result<(Catalog, Product)>)
    ensures r.Ok? ==> r.value.1.status == ProductRejected
  {
    Review(cat, id, ProductRejected)
  }

  /** A review may overturn an earlier one: the last verdict stands whatever
      came before, and the rest of the product is untouched. */
  lemma LastVerdictStands(cat: Catalog, id: Id, first: ProductStatus, second: ProductStatus)
    requires Review(cat, id, first).Ok?
    ensures Review(Review(cat, id, first).value.0, id, second) == Review(cat, id, second)
  {
    var k := FindProduct(cat.products, id).value;
    var once := Review(cat, id, first).value.0;
    assert forall j :: 0 <= j < |cat.products| ==> once.products[j].id == cat.products[j].id;
    FindFirstSamePattern(once.products, (p: Product) => p.id == id, cat.products, (p: Product) => p.id == id);
    assert once.products[k := cat.products[k].(status := second)] == cat.products[k := cat.products[k].(status := second)];
  }

  /** The columns an update body may carry; absent ones are None. */
  datatype ProductPatch = ProductPatch(
    title: Option<string>,
    description: Option<string>,
    price: Option<Cents>,
    stock: Option<int>,
    imgUrl: Option<string>,
    status: Option<ProductStatus>)

  predicate IsEmptyPatch(patch: ProductPatch)
  {
    patch == ProductPatch(None, None, None, None, None, None)
  }

  function Patched(p: Product, patch: ProductPatch): Product
  {
    p.(title := patch.title.GetOr(p.title),
       description := patch.description.GetOr(p.description),
       price := patch.price.GetOr(p.price),
       stock := patch.stock.GetOr(p.stock),
       imgUrl := patch.imgUrl.GetOr(p.imgUrl),
       status := patch.status.GetOr(p.status))
  }

  /** `update(id, patch)`: every row with that key gets the supplied columns. */
  function PatchAll(products: seq<Product>, id: Id, patch: ProductPatch): (r: seq<Product>)
    ensures |r| == |products|
    ensures (forall j :: 0 <= j < |products| ==>
      r[j] == if products[j].id == id then Patched(products[j], patch) else products[j])
  {
    seq(|products|, j requires 0 <= j < |products| =>
      if products[j].id == id then Patched(products[j], patch) else products[j])
  }

  /** `updateProduct`: an update with no columns is refused by the query
      builder; otherwise the supplied columns are written and the product is
      read back, so an unknown key is NotFound after an update of no rows. */
  function UpdateProduct(cat: Catalog, id: Id, patch: ProductPatch): (r: Result<(Catalog, Product)>)
    ensures IsEmptyPatch(patch) ==> r == Err(InternalError("Internal server error"))
    ensures (!IsEmptyPatch(patch) ==>
      (r.Err? <==> forall j :: 0 <= j < |cat.products| ==> cat.products[j].id != id))
    ensures r.Err? && !IsEmptyPatch(patch) ==> r.error == NotFound(ProductNotFound)
    ensures (r.Ok? ==>
      var (after, p) := r.value;
      && after == cat.(products := PatchAll(cat.products, id, patch))
      && FindProduct(cat.products, id).Some?
      && p == Patched(cat.products[FindProduct(cat.products, id).value], patch))
  {
    if IsEmptyPatch(patch) then Err(InternalError("Internal server error"))
    else
      var products := PatchAll(cat.products, id, patch);
      FindFirstSamePattern(products, (p: Product) => p.id == id, cat.products, (p: Product) => p.id == id);
      var p :- GetProductById(products, id);
      Ok((cat.(products := products), p))
  }

  /** Writing the same columns again changes nothing more. */
  lemma UpdateProductTwice(cat: Catalog, id: Id, patch: ProductPatch)
    requires UpdateProduct(cat, id, patch).Ok?
    ensures var once := UpdateProduct(cat, id, patch).value.0;
      UpdateProduct(once, id, patch) == UpdateProduct(cat, id, patch)
  {
    var once := UpdateProduct(cat, id, patch).value.0;
    assert PatchAll(once.products, id, patch) == once.products;
  }
}

=== FILE: roles_guard.dfy ===
/** The role guard: a route declares the roles it admits, and a request
    passes when its user holds at least one of them. */
module RolesGuard {
  import opened Wrappers

  const Unauthenticated := "Usuario no autenticado o sin roles"
  const NoPermission := "El usuario no tiene permisos para acceder a la ruta"

  /** `routeRoles.some(role => userRoles.includes(role))`. */
  predicate HasRole<R(==)>(routeRoles: seq<R>, userRoles: seq<R>)
  {
    exists i :: 0 <= i < |routeRoles| && routeRoles[i] in userRoles
  }

  /** `canActivate`. `routeRoles` is None on a route without roles metadata,
      where calling `some` on undefined is a runtime error; `userRoles` is
      None when the request has no user or the user has no `roles`. */
  function CanActivate<R(==)>(routeRoles: Option<seq<R>>, userRoles: Option<seq<R>>): (r: Result<bool>)
    ensures userRoles.None? ==> r == Err(Forbidden(Unauthenticated))
    ensures (userRoles.Some? && routeRoles.Some? ==>
      (r.Ok? <==>
        exists i, j ::
          0 <= i < |routeRoles.value| && 0 <= j < |userRoles.value| && routeRoles.value[i] == userRoles.value[j]))
    ensures routeRoles == Some([]) ==> r.Err?
    ensures userRoles.Some? && routeRoles.Some? && r.Err? ==> r == Err(Forbidden(NoPermission))
    ensures r.Ok? ==> r.value
  {
    if userRoles.None? then Err(Forbidden(Unauthenticated))
    else if routeRoles.None? then Err(InternalError("Internal server error"))
    else if HasRole(routeRoles.value, userRoles.value) then Ok(true)
    else Err(Forbidden(NoPermission))
  }

  /** Holding more roles never turns an admitted request into a refused one. */
  lemma MoreRolesStillAdmitted<R>(routeRoles: Option<seq<R>>, userRoles: seq<R>, more: seq<R>)
    requires forall j :: 0 <= j < |userRoles| ==> userRoles[j] in more
    requires CanActivate(routeRoles, Some(userRoles)).Ok?
    ensures CanActivate(routeRoles, Some(more)).Ok?
  {
    var i :| 0 <= i < |routeRoles.value| && routeRoles.value[i] in userRoles;
    var j :| 0 <= j < |userRoles| && userRoles[j] == routeRoles.value[i];
    assert routeRoles.value[i] in more;
  }
}

=== FILE: sales.dfy ===
/** `VentasService`: a seller's view of the order items of their products,
    with aggregate statistics and a per-item status write. The seller of
    an item is the owner of its product. */
module Sales {
  import opened Wrappers
  import opened Tables
  import opened Commerce

  /** The `createdAt` of the item's order, the sort key of the listing. An
      item's order always exists (the foreign key cascades on delete); 0
      stands in for a missing one. */
  function ParentCreatedAt(orders: seq<Order>, item: OrderItem): int
  {
    match FindOrder(orders, item.orderId)
    case Some(j) => orders[j].createdAt
    case None => 0
  }

  predicate SellsItem(st: Store, sellerId: UserId, item: OrderItem)
  {
    SellerOf(st.products, item) == Some(sellerId)
  }

  /** The listing's where-clause. */
  predicate Listed(st: Store, sellerId: UserId, status: Option<ItemStatus>, item: OrderItem)
  {
    SellsItem(st, sellerId, item) && (status.None? || item.status == status.value)
  }

  /** `getSellerSales`: the seller's items, narrowed to one status when a
      status is given, ordered by their order's date, newest first. */
  function GetSellerSales(st: Store, sellerId: UserId, status: Option<ItemStatus>): (r: seq<OrderItem>)
    ensures SortedDesc(r, (it: OrderItem) => ParentCreatedAt(st.orders, it))
    ensures forall i :: 0 <= i < |r| ==>
      r[i] in st.orderItems && SellsItem(st, sellerId, r[i]) && (status.None? || r[i].status == status.value)
    ensures forall i :: 0 <= i < |st.orderItems| ==>
      (SellsItem(st, sellerId, st.orderItems[i]) && (status.None? || st.orderItems[i].status == status.value)
       ==> st.orderItems[i] in r)
    ensures multiset(r) == multiset(Filter(st.orderItems, (it: OrderItem) => Listed(st, sellerId, status, it)))
  {
    var mine := Filter(st.orderItems, (it: OrderItem) => Listed(st, sellerId, status, it));
    SortDesc(mine, (it: OrderItem) => ParentCreatedAt(st.orders, it))
  }

  /** The raw row `getSellerStats` returns. `SUM` over no rows is SQL NULL,
      so every sum is None for a seller without sales. */
  datatype SellerStats = SellerStats(
    totalSales: nat,
    totalRevenue: Option<int>,
    paid: Option<int>,
    shipped: Option<int>,
    delivered: Option<int>,
    cancelled: Option<int>)

  function SqlSum(rows: seq<OrderItem>, f: OrderItem -> int): (r: Option<int>)
    ensures r.None? <==> |rows| == 0
    ensures r.Some? ==> r.value == Sum(rows, f)
  {
    if |rows| == 0 then None else Some(Sum(rows, f))
  }

  /** `CASE WHEN item.status = s THEN 1 ELSE 0 END`. */
  function Indicator(s: ItemStatus): OrderItem -> int
  {
    (it: OrderItem) => if it.status == s then 1 else 0
  }

  function Subtotal(it: OrderItem): int
  {
    it.price
  }

  function SellerItems(st: Store, sellerId: UserId): seq<OrderItem>
  {
    Filter(st.orderItems, (it: OrderItem) => SellsItem(st, sellerId, it))
  }

  /** The aggregate row over the items the where-clause kept. */
  function StatsOf(mine: seq<OrderItem>): SellerStats
  {
    SellerStats(
      |mine|,
      SqlSum(mine, Subtotal),
      SqlSum(mine, Indicator(ItemPaid)),
      SqlSum(mine, Indicator(ItemShipped)),
      SqlSum(mine, Indicator(ItemDelivered)),
      SqlSum(mine, Indicator(ItemCancelled)))
  }

  /** `getSellerStats` with the seller read as the product's owner, the
      `product.user` relation the listing joins. */
  function GetSellerStats(st: Store, sellerId: UserId): (r: SellerStats)
    ensures r.totalSales == Count(st.orderItems, (it: OrderItem) => SellsItem(st, sellerId, it))
    ensures r.totalSales == 0 <==> forall i :: 0 <= i < |st.orderItems| ==> !SellsItem(st, sellerId, st.orderItems[i])
    ensures r.totalRevenue.None? <==> r.totalSales == 0
    ensures r.paid.None? <==> r.totalSales == 0
    ensures r.totalRevenue.Some? ==> r.totalRevenue.value == Sum(SellerItems(st, sellerId), Subtotal)
  {
    CountIsFilterLength(st.orderItems, (it: OrderItem) => SellsItem(st, sellerId, it));
    StatsOf(SellerItems(st, sellerId))
  }

  /** The item's product is linked to `sellerId` by the relation `rel`. */
  predicate LinkedBy(st: Store, rel: Product -> Option<UserId>, sellerId: UserId, item: OrderItem)
  {
    match FindProduct(st.products, item.productId)
    case Some(j) => rel(st.products[j]) == Some(sellerId)
    case None => false
  }

  /** `getSellerStats` as written: the query joins `product.seller`. `seller`
      is that relation if the product declares it. When it does not, the
      query builder throws and the server answers with an internal error.
      When it does, the statistics count the items whose product it links
      to the caller, which need not be the owner the listing joins. */
  function GetSellerStatsAsWritten(st: Store, sellerId: UserId, seller: Option<Product -> Option<UserId>>)
    : (r: Result<SellerStats>)
    ensures r.Err? <==> seller.None?
    ensures r.Err? ==> r.error == InternalError("Internal server error")
    ensures (r.Ok? ==>
      r.value.totalSales == Count(st.orderItems, (it: OrderItem) => LinkedBy(st, seller.value, sellerId, it)))
  {
    match seller
    case None => Err(InternalError("Internal server error"))
    case Some(rel) =>
      var p := (it: OrderItem) => LinkedBy(st, rel, sellerId, it);
      CountIsFilterLength(st.orderItems, p);
      Ok(StatsOf(Filter(st.orderItems, p)))
  }

  /** Only a `seller` relation that names every product's owner gives the
      statistics of the owner's items, which the listing shows. */
  lemma StatsAsWrittenNeedOwnerRelation(st: Store, sellerId: UserId, rel: Product -> Option<UserId>)
    requires forall j :: 0 <= j < |st.products| ==> rel(st.products[j]) == Some(st.products[j].ownerId)
    ensures GetSellerStatsAsWritten(st, sellerId, Some(rel)) == Ok(GetSellerStats(st, sellerId))
  {
    var p := (it: OrderItem) => LinkedBy(st, rel, sellerId, it);
    var q := (it: OrderItem) => SellsItem(st, sellerId, it);
    assert forall j :: 0 <= j < |st.orderItems| ==> p(st.orderItems[j]) == q(st.orderItems[j]);
    FilterSamePattern(st.orderItems, p, q);
  }

  lemma {:induction false} IndicatorsAddUp(rows: seq<OrderItem>)
    ensures Sum(rows, Indicator(ItemPaid)) + Sum(rows, Indicator(ItemShipped))
      + Sum(rows, Indicator(ItemDelivered)) + Sum(rows, Indicator(ItemCancelled)) == |rows|
  {
    if |rows| > 0 {
      IndicatorsAddUp(rows[1..]);
    }
  }

  /** The four per-status counts add up to the number of sales. */
  lemma StatusCountsAddUp(st: Store, sellerId: UserId)
    requires GetSellerStats(st, sellerId).totalSales > 0
    ensures var s := GetSellerStats(st, sellerId);
      s.paid.value + s.shipped.value + s.delivered.value + s.cancelled.value == s.totalSales
  {
    IndicatorsAddUp(SellerItems(st, sellerId));
  }

  /** The statistics count exactly the rows the unfiltered listing shows. */
  lemma StatsMatchListing(st: Store, sellerId: UserId)
    ensures GetSellerStats(st, sellerId).totalSales == |GetSellerSales(st, sellerId, None)|
  {
    var p := (it: OrderItem) => SellsItem(st, sellerId, it);
    var q := (it: OrderItem) => Listed(st, sellerId, None, it);
    assert forall j :: 0 <= j < |st.orderItems| ==> p(st.orderItems[j]) == q(st.orderItems[j]);
    FilterSamePattern(st.orderItems, p, q);
    var r := GetSellerSales(st, sellerId, None);
    assert |multiset(r)| == |r|;
  }

  lemma {:induction false} FilterSamePattern<T>(rows: seq<T>, p: T -> bool, q: T -> bool)
    requires forall j :: 0 <= j < |rows| ==> p(rows[j]) == q(rows[j])
    ensures Filter(rows, p) == Filter(rows, q)
  {
    if |rows| > 0 {
      FilterSamePattern(rows[1..], p, q);
    }
  }

  /** `updateOrderItemStatus`: any status may be written, from any status;
      the parent order is not touched. */
  function UpdateOrderItemStatus(st: Store, sellerId: UserId, itemId: Id, status: ItemStatus)
    : (r: Result<(Store, OrderItem)>)
    ensures (forall i :: 0 <= i < |st.orderItems| ==> st.orderItems[i].id != itemId) ==>
      r == Err(NotFound("Venta no encontrada"))
    ensures r.Err? ==> r.error in {NotFound("Venta no encontrada"), Forbidden("No puedes modificar esta venta")}
    ensures r.Ok? ==>
      var st' := r.value.0;
      && st'.orders == st.orders && st'.products == st.products
      && st'.carts == st.carts && st'.cartItems == st.cartItems && st'.nextId == st.nextId
      && |st'.orderItems| == |st.orderItems|
      && r.value.1.id == itemId && r.value.1.status == status && r.value.1 in st'.orderItems
      && SellsItem(st, sellerId, r.value.1)
      && (forall i :: 0 <= i < |st.orderItems| ==>
            st'.orderItems[i] == st.orderItems[i] ||
            (st.orderItems[i].id == itemId && st'.orderItems[i] == st.orderItems[i].(status := status)))
  {
    match FindFirst(st.orderItems, (it: OrderItem) => it.id == itemId)
    case None => Err(NotFound("Venta no encontrada"))
    case Some(j) =>
      var item := st.orderItems[j];
      if SellerOf(st.products, item) != Some(sellerId) then Err(Forbidden("No puedes modificar esta venta"))
      else
        var item' := item.(status := status);
        assert st.orderItems[j := item'][j] == item';
        Ok((st.(orderItems := st.orderItems[j := item']), item'))
  }

  /** `updateOrderItemStatus` as written. It loads the item with its
      `product` and `product.seller` relations and then reads
      `item.product.user.id`. A product's owner relation is `user`, so the
      load throws when `seller` is not a declared relation
      (`sellerDeclared` false). When it is declared, `product.user` is not
      loaded and reading its `id` throws once the item is found. Either way
      the server answers with an internal error. */
  function UpdateOrderItemStatusAsWritten(st: Store, sellerId: UserId, itemId: Id, status: ItemStatus,
                                          sellerDeclared: bool): (r: Result<(Store, OrderItem)>)
    ensures r.Ok? ==> r == UpdateOrderItemStatus(st, sellerId, itemId, status)
    ensures r.Err? && r.error != InternalError("Internal server error") ==>
      r == UpdateOrderItemStatus(st, sellerId, itemId, status)
  {
    if !sellerDeclared then Err(InternalError("Internal server error"))
    else match FindFirst(st.orderItems, (it: OrderItem) => it.id == itemId)
      case None => Err(NotFound("Venta no encontrada"))
      case Some(_) => Err(InternalError("Internal server error"))
  }

  /** As written, no status is ever written and no caller is refused as a
      non-owner: the only answers are a missing item and a server error. */
  lemma UpdateAsWrittenNeverWrites(st: Store, sellerId: UserId, itemId: Id, status: ItemStatus, sellerDeclared: bool)
    ensures UpdateOrderItemStatusAsWritten(st, sellerId, itemId, status, sellerDeclared).Err?
    ensures UpdateOrderItemStatusAsWritten(st, sellerId, itemId, status, sellerDeclared).error
      in {NotFound("Venta no encontrada"), InternalError("Internal server error")}
    ensures (exists i :: 0 <= i < |st.orderItems| && st.orderItems[i].id == itemId) ==>
      UpdateOrderItemStatusAsWritten(st, sellerId, itemId, status, sellerDeclared)
        == Err(InternalError("Internal server error"))
  {
    if exists i :: 0 <= i < |st.orderItems| && st.orderItems[i].id == itemId {
      var i :| 0 <= i < |st.orderItems| && st.orderItems[i].id == itemId;
      assert ((it: OrderItem) => it.id == itemId)(st.orderItems[i]);
    }
  }

  /** The owner of the first item with that key may write every status,
      whatever the current one; anybody else is refused and nothing
      changes. */
  lemma UpdateStatusOwnerOnly(st: Store, sellerId: UserId, itemId: Id, status: ItemStatus, j: nat)
    requires j < |st.orderItems| && st.orderItems[j].id == itemId
    requires forall i :: 0 <= i < j ==> st.orderItems[i].id != itemId
    ensures UpdateOrderItemStatus(st, sellerId, itemId, status).Ok? <==> SellsItem(st, sellerId, st.orderItems[j])
    ensures !SellsItem(st, sellerId, st.orderItems[j]) ==>
      UpdateOrderItemStatus(st, sellerId, itemId, status) == Err(Forbidden("No puedes modificar esta venta"))
  {
    var f := FindFirst(st.orderItems, (it: OrderItem) => it.id == itemId);
    assert f == Some(j);
  }
}

=== FILE: tables.dfy ===
/** Queries over a database table modelled as the sequence of its rows.
    A `findOne` with a where-clause is the first row that satisfies it,
    a `find` is a filter, and an `ORDER BY` is a sort on a key. */
module Tables {
  import opened Wrappers

  /** Index of the first row satisfying `p`. */
  function FindFirst<T>(rows: seq<T>, p: T -> bool): (r: Option<nat>)
    ensures r.Some? ==> r.value < |rows| && p(rows[r.value])
    ensures r.Some? ==> forall j :: 0 <= j < r.value ==> !p(rows[j])
    ensures r.None? <==> forall j :: 0 <= j < |rows| ==> !p(rows[j])
  {
    if |rows| == 0 then None
    else if p(rows[0]) then Some(0)
    else match FindFirst(rows[1..], p)
      case None => None
      case Some(i) => Some(i + 1)
  }

  /** A row appended after rows that all fail `p` is the first to satisfy it. */
  lemma FindFirstAppended<T>(rows: seq<T>, x: T, p: T -> bool)
    requires forall j :: 0 <= j < |rows| ==> !p(rows[j])
    requires p(x)
    ensures FindFirst(rows + [x], p) == Some(|rows|)
  {
    assert (rows + [x])[|rows|] == x;
  }

  /** `FindFirst` only looks at the truth value of the predicate on each row. */
  lemma {:induction false} FindFirstSamePattern<T>(a: seq<T>, p: T -> bool, b: seq<T>, q: T -> bool)
    requires |a| == |b|
    requires forall j :: 0 <= j < |a| ==> p(a[j]) == q(b[j])
    ensures FindFirst(a, p) == FindFirst(b, q)
  {
    if |a| > 0 && !p(a[0]) {
      FindFirstSamePattern(a[1..], p, b[1..], q);
    }
  }

  /** The rows satisfying `p`, in table order. */
  function Filter<T>(rows: seq<T>, p: T -> bool): (r: seq<T>)
    ensures |r| <= |rows|
    ensures forall i :: 0 <= i < |r| ==> r[i] in rows && p(r[i])
    ensures forall i :: 0 <= i < |rows| && p(rows[i]) ==> rows[i] in r
  {
    if |rows| == 0 then []
    else (if p(rows[0]) then [rows[0]] else []) + Filter(rows[1..], p)
  }

  /** Filtering with a predicate every row satisfies keeps the table as it is. */
  lemma {:induction false} FilterKeepsAll<T>(rows: seq<T>, p: T -> bool)
    requires forall i :: 0 <= i < |rows| ==> p(rows[i])
    ensures Filter(rows, p) == rows
  {
    if |rows| > 0 {
      FilterKeepsAll(rows[1..], p);
    }
  }

  /** Number of rows satisfying `p`. */
  function Count<T>(rows: seq<T>, p: T -> bool): (n: nat)
    ensures n <= |rows|
    ensures n == 0 <==> forall i :: 0 <= i < |rows| ==> !p(rows[i])
  {
    if |rows| == 0 then 0
    else (if p(rows[0]) then 1 else 0) + Count(rows[1..], p)
  }

  lemma {:induction false} CountIsFilterLength<T>(rows: seq<T>, p: T -> bool)
    ensures Count(rows, p) == |Filter(rows, p)|
  {
    if |rows| > 0 {
      CountIsFilterLength(rows[1..], p);
    }
  }

  lemma {:induction false} CountSplit<T>(a: seq<T>, b: seq<T>, p: T -> bool)
    ensures Count(a + b, p) == Count(a, p) + Count(b, p)
  {
    if |a| == 0 {
      assert a + b == b;
    } else {
      CountSplit(a[1..], b, p);
      assert (a + b)[0] == a[0];
      assert (a + b)[1..] == a[1..] + b;
    }
  }

  /** Splicing out row `k` takes it out of the count, if it was in. */
  lemma CountRemoveAt<T>(rows: seq<T>, k: nat, p: T -> bool)
    requires k < |rows|
    ensures Count(rows[..k] + rows[k + 1..], p) == Count(rows, p) - (if p(rows[k]) then 1 else 0)
  {
    CountSplit(rows[..k], [rows[k]] + rows[k + 1..], p);
    CountSplit([rows[k]], rows[k + 1..], p);
    CountSplit(rows[..k], rows[k + 1..], p);
    assert rows == rows[..k] + ([rows[k]] + rows[k + 1..]);
  }

  /** Sum of `f` over the rows. */
  function Sum<T>(rows: seq<T>, f: T -> int): int
  {
    if |rows| == 0 then 0 else f(rows[0]) + Sum(rows[1..], f)
  }

  lemma {:induction false} SumNonNegative<T>(rows: seq<T>, f: T -> int)
    requires forall i :: 0 <= i < |rows| ==> f(rows[i]) >= 0
    ensures Sum(rows, f) >= 0
  {
    if |rows| > 0 {
      SumNonNegative(rows[1..], f);
    }
  }

  lemma {:induction false} SumAppend<T>(rows: seq<T>, x: T, f: T -> int)
    ensures Sum(rows + [x], f) == Sum(rows, f) + f(x)
  {
    if |rows| > 0 {
      SumAppend(rows[1..], x, f);
      assert (rows + [x])[1..] == rows[1..] + [x];
    }
  }

  /** Replacing one row changes the sum by the difference of the two rows. */
  lemma {:induction false} SumUpdate<T>(rows: seq<T>, k: nat, x: T, f: T -> int)
    requires k < |rows|
    ensures Sum(rows[k := x], f) == Sum(rows, f) - f(rows[k]) + f(x)
  {
    if k > 0 {
      SumUpdate(rows[1..], k - 1, x, f);
      assert rows[k := x][1..] == rows[1..][k - 1 := x];
    }
  }

  /** Rows ordered by `key`, largest first (`ORDER BY key DESC`). */
  predicate SortedDesc<T>(s: seq<T>, key: T -> int)
  {
    forall i, j :: 0 <= i < j < |s| ==> key(s[i]) >= key(s[j])
  }

  function InsertDesc<T>(x: T, s: seq<T>, key: T -> int): (r: seq<T>)
    ensures |r| == |s| + 1
    ensures r[0] == x || (|s| > 0 && r[0] == s[0])
  {
    if |s| == 0 then [x]
    else if key(x) >= key(s[0]) then [x] + s
    else [s[0]] + InsertDesc(x, s[1..], key)
  }

  lemma {:induction false} InsertDescSorted<T>(x: T, s: seq<T>, key: T -> int)
    requires SortedDesc(s, key)
    ensures SortedDesc(InsertDesc(x, s, key), key)
  {
    if |s| > 0 && key(x) < key(s[0]) {
      InsertDescSorted(x, s[1..], key);
    }
  }

  lemma {:induction false} InsertDescPermutes<T>(x: T, s: seq<T>, key: T -> int)
    ensures multiset(InsertDesc(x, s, key)) == multiset(s) + multiset{x}
  {
    if |s| > 0 && key(x) < key(s[0]) {
      InsertDescPermutes(x, s[1..], key);
      assert s == [s[0]] + s[1..];
    }
  }

  /** Some row maps to `u` under `f`. */
  predicate Mentions<T, U(==)>(rows: seq<T>, f: T -> U, u: U)
  {
    exists k :: 0 <= k < |rows| && f(rows[k]) == u
  }

  lemma MentionsCons<T, U>(rows: seq<T>, f: T -> U, u: U)
    requires |rows| > 0
    ensures Mentions(rows, f, u) <==> f(rows[0]) == u || Mentions(rows[1..], f, u)
  {
    if Mentions(rows[1..], f, u) {
      var k :| 0 <= k < |rows[1..]| && f(rows[1..][k]) == u;
      assert rows[k + 1] == rows[1..][k];
    }
    if Mentions(rows, f, u) {
      var k :| 0 <= k < |rows| && f(rows[k]) == u;
      if k > 0 {
        assert rows[1..][k - 1] == rows[k];
      }
    }
  }

  lemma ConcatAssoc<T>(a: seq<T>, b: seq<T>, c: seq<T>)
    ensures (a + b) + c == a + (b + c)
  {
  }

  /** Two sequences with the same multiset have the same members. */
  lemma SameMembers<T>(a: seq<T>, b: seq<T>)
    requires multiset(a) == multiset(b)
    ensures forall i :: 0 <= i < |a| ==> a[i] in b
    ensures forall i :: 0 <= i < |b| ==> b[i] in a
  {
    forall i | 0 <= i < |a| ensures a[i] in b {
      assert a[i] in multiset(a);
    }
    forall i | 0 <= i < |b| ensures b[i] in a {
      assert b[i] in multiset(b);
    }
  }

  /** One insertion step keeps a sorted permutation of the tail sorted and
      makes it a permutation of the whole. */
  lemma InsertStep<T>(s: seq<T>, rest: seq<T>, key: T -> int)
    requires |s| > 0
    requires SortedDesc(rest, key) && multiset(rest) == multiset(s[1..])
    ensures var r := InsertDesc(s[0], rest, key);
      && SortedDesc(r, key)
      && multiset(r) == multiset(s)
      && (forall i :: 0 <= i < |r| ==> r[i] in s)
      && (forall i :: 0 <= i < |s| ==> s[i] in r)
  {
    InsertDescSorted(s[0], rest, key);
    InsertDescPermutes(s[0], rest, key);
    assert s == [s[0]] + s[1..];
    SameMembers(InsertDesc(s[0], rest, key), s);
  }

  /** Insertion sort: a permutation of `s` ordered by `key`, largest first. */
  function SortDesc<T>(s: seq<T>, key: T -> int): (r: seq<T>)
    ensures SortedDesc(r, key)
    ensures multiset(r) == multiset(s)
    ensures forall i :: 0 <= i < |r| ==> r[i] in s
    ensures forall i :: 0 <= i < |s| ==> s[i] in r
  {
    if |s| == 0 then []
    else
      var rest := SortDesc(s[1..], key);
      InsertStep(s, rest, key);
      InsertDesc(s[0], rest, key)
  }

  /** Rows ordered by `key`, smallest first (`ORDER BY key ASC`). */
  predicate SortedAsc<T>(s: seq<T>, key: T -> int)
  {
    forall i, j :: 0 <= i < j < |s| ==> key(s[i]) <= key(s[j])
  }

  function SortAsc<T>(s: seq<T>, key: T -> int): (r: seq<T>)
    ensures SortedAsc(r, key)
    ensures multiset(r) == multiset(s)
    ensures forall i :: 0 <= i < |r| ==> r[i] in s
    ensures forall i :: 0 <= i < |s| ==> s[i] in r
  {
    var r := SortDesc(s, x => -key(x));
    assert forall i, j :: 0 <= i < j < |r| ==> -key(r[i]) >= -key(r[j]);
    r
  }

  /** `find` with a where-clause and `ORDER BY key DESC`: exactly the rows
      satisfying `p`, each as often as it is stored, highest key first. */
  function SelectDesc<T>(rows: seq<T>, p: T -> bool, key: T -> int): (r: seq<T>)
    ensures SortedDesc(r, key)
    ensures multiset(r) == multiset(Filter(rows, p))
    ensures forall i :: 0 <= i < |r| ==> r[i] in rows && p(r[i])
    ensures forall i :: 0 <= i < |rows| && p(rows[i]) ==> rows[i] in r
    ensures |r| == Count(rows, p)
  {
    var selected := Filter(rows, p);
    CountIsFilterLength(rows, p);
    var r := SortDesc(selected, key);
    assert |r| == |multiset(r)| == |multiset(selected)| == |selected|;
    r
  }
}

=== FILE: text.dfy ===
/** The JavaScript string primitives the services rely on:
    `trim`, `split` on one separator character, and ASCII `toUpperCase`. */
module Text {

  /** The characters `String.prototype.trim` removes: ECMAScript WhiteSpace
      (tab, vertical tab, form feed, space, no-break space, byte-order mark and
      the Unicode space separators) and LineTerminator. */
  predicate IsSpace(c: char)
  {
    || c == '\t' || c == '\U{000B}' || c == '\U{000C}' || c == ' ' || c == '\U{00A0}'
    || c == '\U{FEFF}' || c == '\n' || c == '\r' || c == '\U{2028}' || c == '\U{2029}'
    || c == '\U{1680}' || ('\U{2000}' <= c <= '\U{200A}') || c == '\U{202F}'
    || c == '\U{205F}' || c == '\U{3000}'
  }

  /** Every character is whitespace, so `s.trim().length === 0`. */
  predicate IsBlank(s: string)
  {
    forall i :: 0 <= i < |s| ==> IsSpace(s[i])
  }

  function TrimStart(s: string): (r: string)
    ensures |r| <= |s| && r == s[|s| - |r|..]
    ensures IsBlank(s[..|s| - |r|])
    ensures |r| > 0 ==> !IsSpace(r[0])
  {
    if |s| > 0 && IsSpace(s[0]) then TrimStart(s[1..]) else s
  }

  function TrimEnd(s: string): (r: string)
    ensures |r| <= |s| && r == s[..|r|]
    ensures IsBlank(s[|r|..])
    ensures |r| > 0 ==> !IsSpace(r[|r| - 1])
  {
    if |s| > 0 && IsSpace(s[|s| - 1]) then TrimEnd(s[..|s| - 1]) else s
  }

  /** `s.trim()`: `s` without its leading and trailing whitespace. */
  function Trim(s: string): (r: string)
    ensures |r| <= |s|
    ensures |r| > 0 ==> !IsSpace(r[0]) && !IsSpace(r[|r| - 1])
    ensures exists a, b :: 0 <= a <= b <= |s| && r == s[a..b] && IsBlank(s[..a]) && IsBlank(s[b..])
  {
    TrimBetween(s);
    TrimEnd(TrimStart(s))
  }

  /** The two trims together cut a blank prefix and a blank suffix. */
  lemma TrimBetween(s: string)
    ensures exists a, b ::
      0 <= a <= b <= |s| && TrimEnd(TrimStart(s)) == s[a..b] && IsBlank(s[..a]) && IsBlank(s[b..])
  {
    var a, b := TrimBounds(s);
  }

  lemma TrimBounds(s: string) returns (a: nat, b: nat)
    ensures a <= b <= |s| && TrimEnd(TrimStart(s)) == s[a..b]
    ensures IsBlank(s[..a]) && IsBlank(s[b..])
  {
    var t := TrimStart(s);
    var r := TrimEnd(t);
    a := |s| - |t|;
    b := a + |r|;
    assert s[b..] == t[|r|..];
    assert r == s[a..b];
  }

  /** The trimmed form is empty exactly when the string is blank. */
  lemma TrimEmptyIffBlank(s: string)
    ensures Trim(s) == [] <==> IsBlank(s)
  {
    var t := TrimStart(s);
    assert s == s[..|s| - |t|] + t;
    if Trim(s) == [] {
      assert t[0..] == t;
      assert |t| == 0;
    }
  }

  /** Trimming a string with no whitespace at either end changes nothing,
      so trimming twice is trimming once. */
  lemma TrimIdempotent(s: string)
    ensures Trim(Trim(s)) == Trim(s)
  {
  }

  /** `c.toUpperCase()` restricted to ASCII letters. */
  function UpperChar(c: char): char
  {
    if 'a' <= c <= 'z' then (c as int - 32) as char else c
  }

  function Upper(s: string): (r: string)
    ensures |r| == |s|
    ensures forall i :: 0 <= i < |s| ==> r[i] == UpperChar(s[i])
    ensures forall i :: 0 <= i < |r| ==> !('a' <= r[i] <= 'z')
  {
    seq(|s|, i requires 0 <= i < |s| => UpperChar(s[i]))
  }

  lemma UpperIdempotent(s: string)
    ensures Upper(Upper(s)) == Upper(s)
  {
  }

  /** `s.split(sep)`: the maximal separator-free pieces, always at least one. */
  function Split(s: string, sep: char): (r: seq<string>)
    ensures |r| >= 1
    ensures forall i :: 0 <= i < |r| ==> sep !in r[i]
  {
    if |s| == 0 then [""]
    else if s[0] == sep then [""] + Split(s[1..], sep)
    else
      var rest := Split(s[1..], sep);
      [[s[0]] + rest[0]] + rest[1..]
  }

  /** `pieces.join(sep)`. */
  function Join(pieces: seq<string>, sep: char): string
    requires |pieces| >= 1
  {
    if |pieces| == 1 then pieces[0] else pieces[0] + [sep] + Join(pieces[1..], sep)
  }

  /** Splitting loses nothing: joining the pieces back gives the input. */
  lemma {:induction false} JoinSplit(s: string, sep: char)
    ensures Join(Split(s, sep), sep) == s
  {
    if |s| > 0 {
      JoinSplit(s[1..], sep);
      var rest := Split(s[1..], sep);
      if s[0] == sep {
        assert Split(s, sep)[1..] == rest;
      } else {
        var r := Split(s, sep);
        if |rest| == 1 {
          assert r == [[s[0]] + rest[0]];
        } else {
          assert r[1..] == rest[1..];
          assert Join(rest, sep) == rest[0] + [sep] + Join(rest[1..], sep);
        }
      }
    }
  }

  /** And the other direction: separator-free pieces are recovered by split. */
  lemma {:induction false} SplitJoin(pieces: seq<string>, sep: char)
    requires |pieces| >= 1
    requires forall i :: 0 <= i < |pieces| ==> sep !in pieces[i]
    ensures Split(Join(pieces, sep), sep) == pieces
  {
    if |pieces| == 1 {
      SplitNoSep(pieces[0], sep);
    } else {
      SplitJoin(pieces[1..], sep);
      SplitPrefix(pieces[0], Join(pieces[1..], sep), sep);
      assert pieces == [pieces[0]] + pieces[1..];
    }
  }

  lemma {:induction false} SplitNoSep(s: string, sep: char)
    requires sep !in s
    ensures Split(s, sep) == [s]
  {
    if |s| > 0 {
      SplitNoSep(s[1..], sep);
      assert [s[0]] + s[1..] == s;
    }
  }

  /** Splitting `a + [sep] + b` with a separator-free `a` yields `a` and then
      the pieces of `b`. */
  lemma {:induction false} SplitPrefix(a: string, b: string, sep: char)
    requires sep !in a
    ensures Split(a + [sep] + b, sep) == [a] + Split(b, sep)
  {
    if |a| == 0 {
      assert a + [sep] + b == [sep] + b;
      assert ([sep] + b)[1..] == b;
    } else {
      SplitPrefix(a[1..], b, sep);
      assert (a + [sep] + b)[1..] == a[1..] + [sep] + b;
      assert [a[0]] + a[1..] == a;
    }
  }

  /** `String(n)` for a natural number: its decimal digits. */
  function NatToString(n: nat): (r: string)
    ensures |r| >= 1
    ensures forall i :: 0 <= i < |r| ==> '0' <= r[i] <= '9'
  {
    var d := ['0', '1', '2', '3', '4', '5', '6', '7', '8', '9'];
    if n < 10 then [d[n]] else NatToString(n / 10) + [d[n % 10]]
  }
}

=== FILE: users_repository.dfy ===
/** The in-memory user store: an array of user records searched linearly,
    paged with `Array.prototype.slice`, and edited in place. */
module UsersRepository {
  import opened Wrappers
  import opened Tables

  /** A stored user. `country` and `city` may be undefined. */
  datatype User = User(
    id: string,
    email: string,
    name: string,
    password: string,
    address: string,
    phone: string,
    country: Option<string>,
    city: Option<string>)

  /** A user with its `password` field removed. */
  datatype PublicUser = PublicUser(
    id: string,
    email: string,
    name: string,
    address: string,
    phone: string,
    country: Option<string>,
    city: Option<string>)

  function Strip(u: User): PublicUser
  {
    PublicUser(u.id, u.email, u.name, u.address, u.phone, u.country, u.city)
  }

  /** What the by-id operations hand back: a value, or the not-found text
      (the service returns that string instead of throwing). */
  datatype Reply<+T> = Found(value: T) | Message(text: string)

  function NotFoundText(id: string): string
  {
    "No se encontró usuario con Id: " + id
  }

  /** An index argument of `slice`: a negative one counts from the end, and
      the result is clamped to `[0, len]`. */
  function SliceIndex(i: int, len: nat): (r: nat)
    ensures r <= len
    ensures 0 <= i <= len ==> r == i
    ensures i > len ==> r == len
    ensures i < 0 ==> r == if len + i < 0 then 0 else len + i
  {
    if i < 0 then (if len + i < 0 then 0 else len + i)
    else if i > len then len
    else i
  }

  /** `xs.slice(start, end)`. */
  function Slice<T>(xs: seq<T>, start: int, end: int): (r: seq<T>)
    ensures |r| <= |xs|
    ensures 0 <= start <= end <= |xs| ==> r == xs[start..end]
    ensures 0 <= start <= |xs| < end ==> r == xs[start..]
    ensures 0 <= end <= start ==> r == []
  {
    var s := SliceIndex(start, |xs|);
    var e := SliceIndex(end, |xs|);
    if e <= s then [] else xs[s..e]
  }

  function StripAll(us: seq<User>): (r: seq<PublicUser>)
    ensures |r| == |us|
    ensures forall i :: 0 <= i < |us| ==> r[i] == Strip(us[i])
  {
    seq(|us|, i requires 0 <= i < |us| => Strip(us[i]))
  }

  /** The position in the store of the `i`-th user on a page. */
  function Position(page: int, limit: int, i: int): (r: int)
    ensures page >= 1 && limit >= 0 && i >= 0 ==> r >= 0
  {
    (page - 1) * limit + i
  }

  /** `getAllUsers(page, limit)`: the users at positions
      `(page - 1) * limit` up to `(page - 1) * limit + limit`, without passwords. */
  function GetAllUsers(users: seq<User>, page: int, limit: int): (r: seq<PublicUser>)
    ensures page >= 1 && limit >= 0 ==> |r| <= limit
    ensures (page >= 1 && limit >= 0 ==>
      forall i :: 0 <= i < |r| ==>
        Position(page, limit, i) < |users| && r[i] == Strip(users[Position(page, limit, i)]))
  {
    var start := Position(page, limit, 0);
    StripAll(Slice(users, start, start + limit))
  }

  /** Every stored user is listed on exactly the page its position falls
      into, at the matching offset within that page. */
  lemma {:induction false} EveryUserOnItsPage(users: seq<User>, limit: int, k: nat)
    requires limit >= 1 && k < |users|
    ensures var page := k / limit + 1;
      var r := GetAllUsers(users, page, limit);
      k % limit < |r| && r[k % limit] == Strip(users[k])
  {
    var page := k / limit + 1;
    var start := Position(page, limit, 0);
    assert start == k / limit * limit;
    assert Position(page, limit, k % limit) == k;
  }

  /** And on no other page. */
  lemma {:induction false} UserOnOnePageOnly(users: seq<User>, limit: int, k: nat, page: int)
    requires limit >= 1 && k < |users| && page >= 1
    requires page != k / limit + 1
    ensures forall i :: 0 <= i < |GetAllUsers(users, page, limit)| ==> Position(page, limit, i) != k
  {
    var r := GetAllUsers(users, page, limit);
    forall i | 0 <= i < |r|
      ensures Position(page, limit, i) != k
    {
      PositionPage(page, limit, i);
    }
  }

  /** The page of an offset within it: division by `limit` recovers it. */
  lemma PositionPage(page: int, limit: int, i: int)
    requires page >= 1 && 0 <= i < limit
    ensures Position(page, limit, i) / limit == page - 1
  {
    DivOfOffset(page - 1, limit, i);
  }

  /** Division by `limit` recovers the page of a position. */
  lemma DivOfOffset(q: nat, limit: int, i: nat)
    requires limit >= 1 && i < limit
    ensures (q * limit + i) / limit == q
  {
    var x := q * limit + i;
    var d := x / limit;
    assert x == d * limit + x % limit;
    if d > q {
      MulAtLeast(d - q, limit);
    } else if d < q {
      MulAtLeast(q - d, limit);
    }
  }

  lemma {:induction false} MulAtLeast(n: nat, limit: nat)
    requires n >= 1
    ensures n * limit >= limit
  {
    if n > 1 {
      MulAtLeast(n - 1, limit);
      assert n * limit == (n - 1) * limit + limit;
    }
  }

  /** `users.find(u => u.id === id)`. */
  function FindById(users: seq<User>, id: string): (r: Option<nat>)
    ensures r.Some? ==> r.value < |users| && users[r.value].id == id
    ensures r.Some? ==> forall j :: 0 <= j < r.value ==> users[j].id != id
    ensures r.None? <==> forall j :: 0 <= j < |users| ==> users[j].id != id
  {
    FindFirst(users, (u: User) => u.id == id)
  }

  /** `getUserById`: the first user with that id, without password. */
  function GetUserById(users: seq<User>, id: string): (r: Reply<PublicUser>)
    ensures r.Message? <==> forall j :: 0 <= j < |users| ==> users[j].id != id
    ensures r.Message? ==> r.text == NotFoundText(id)
    ensures (r.Found? ==>
      exists k :: 0 <= k < |users| && users[k].id == id && r.value == Strip(users[k])
        && forall j :: 0 <= j < k ==> users[j].id != id)
  {
    match FindById(users, id)
    case None => Message(NotFoundText(id))
    case Some(k) => Found(Strip(users[k]))
  }

  /** `getUserByEmail`: the first user with that email, or undefined. */
  function GetUserByEmail(users: seq<User>, email: string): (r: Option<User>)
    ensures r.None? <==> forall j :: 0 <= j < |users| ==> users[j].email != email
    ensures (r.Some? ==>
      exists k :: 0 <= k < |users| && users[k] == r.value && r.value.email == email
        && forall j :: 0 <= j < k ==> users[j].email != email)
  {
    match FindFirst(users, (u: User) => u.email == email)
    case None => None
    case Some(k) => Some(users[k])
  }

  /** `addUser`: push a copy of the data whose id is its email, and return
      the email. */
  function AddUser(users: seq<User>, data: User): (r: (seq<User>, string))
    ensures |r.0| == |users| + 1 && r.0[..|users|] == users
    ensures r.0[|users|] == data.(id := data.email)
    ensures r.1 == data.email
  {
    (users + [data.(id := data.email)], data.email)
  }

  /** The returned email finds the added user by id and by email, unless an
      earlier user already holds that id or that email. */
  lemma AddedUserIsFound(users: seq<User>, data: User)
    requires forall j :: 0 <= j < |users| ==> users[j].id != data.email
    requires forall j :: 0 <= j < |users| ==> users[j].email != data.email
    ensures var (after, key) := AddUser(users, data);
      GetUserById(after, key) == Found(Strip(data.(id := key)))
      && GetUserByEmail(after, key) == Some(data.(id := key))
  {
    var added := data.(id := data.email);
    FindFirstAppended(users, added, (u: User) => u.id == data.email);
    FindFirstAppended(users, added, (u: User) => u.email == data.email);
  }

  /** The keys an `updateUser` body carries; absent ones are None. */
  datatype UserPatch = UserPatch(
    id: Option<string>,
    email: Option<string>,
    name: Option<string>,
    password: Option<string>,
    address: Option<string>,
    phone: Option<string>,
    country: Option<string>,
    city: Option<string>)

  /** `Object.assign(u, patch)`: every supplied key overwrites its field. */
  function Apply(u: User, p: UserPatch): User
  {
    User(
      p.id.GetOr(u.id),
      p.email.GetOr(u.email),
      p.name.GetOr(u.name),
      p.password.GetOr(u.password),
      p.address.GetOr(u.address),
      p.phone.GetOr(u.phone),
      if p.country.Some? then p.country else u.country,
      if p.city.Some? then p.city else u.city)
  }

  /** Assigning the same keys twice is assigning them once, and assigning no
      keys changes nothing. */
  lemma ApplyIdempotent(u: User, p: UserPatch)
    ensures Apply(Apply(u, p), p) == Apply(u, p)
    ensures p == UserPatch(None, None, None, None, None, None, None, None) ==> Apply(u, p) == u
  {
  }

  /** `updateUser`: patch the first user with that id and return the id, or
      return the not-found text and change nothing. */
  function UpdateUser(users: seq<User>, id: string, p: UserPatch): (r: (seq<User>, Reply<string>))
    ensures |r.0| == |users|
    ensures r.1.Message? <==> forall j :: 0 <= j < |users| ==> users[j].id != id
    ensures r.1.Message? ==> r.0 == users && r.1.text == NotFoundText(id)
    ensures r.1.Found? ==> r.1.value == id
    ensures (r.1.Found? ==>
      exists k :: 0 <= k < |users| && users[k].id == id
        && (forall j :: 0 <= j < k ==> users[j].id != id)
        && r.0 == users[k := Apply(users[k], p)])
  {
    match FindById(users, id)
    case None => (users, Message(NotFoundText(id)))
    case Some(k) => (users[k := Apply(users[k], p)], Found(id))
  }

  /** Repeating an update that keeps the id changes nothing more. */
  lemma UpdateUserTwice(users: seq<User>, id: string, p: UserPatch)
    requires p.id.None? || p.id == Some(id)
    ensures UpdateUser(UpdateUser(users, id, p).0, id, p) == UpdateUser(users, id, p)
  {
    var once := UpdateUser(users, id, p).0;
    match FindById(users, id)
    case None =>
    case Some(k) =>
      ApplyIdempotent(users[k], p);
      assert once[k] == Apply(users[k], p);
      assert once[k].id == id;
      assert forall j :: 0 <= j < k ==> once[j] == users[j];
      assert FindById(once, id) == Some(k);
      assert once[k := Apply(once[k], p)] == once;
  }

  /** `deleteUser`: splice out the first user with that id and return the id,
      or return the not-found text and change nothing. */
  function DeleteUser(users: seq<User>, id: string): (r: (seq<User>, Reply<string>))
    ensures r.1.Message? <==> forall j :: 0 <= j < |users| ==> users[j].id != id
    ensures r.1.Message? ==> r.0 == users && r.1.text == NotFoundText(id)
    ensures r.1.Found? ==> r.1.value == id && |r.0| == |users| - 1
    ensures (r.1.Found? ==>
      exists k :: 0 <= k < |users| && users[k].id == id
        && (forall j :: 0 <= j < k ==> users[j].id != id)
        && r.0 == users[..k] + users[k + 1..])
  {
    match FindById(users, id)
    case None => (users, Message(NotFoundText(id)))
    case Some(k) => (users[..k] + users[k + 1..], Found(id))
  }

  /** A delete removes one user with that id and keeps every other user, in
      order: the remaining users holding the id are one fewer. */
  lemma {:induction false} DeleteUserRemovesOne(users: seq<User>, id: string)
    requires exists j :: 0 <= j < |users| && users[j].id == id
    ensures Count(DeleteUser(users, id).0, (u: User) => u.id == id)
      == Count(users, (u: User) => u.id == id) - 1
  {
    var k := FindById(users, id).value;
    CountRemoveAt(users, k, (u: User) => u.id == id);
  }

  /** With unique ids, a deleted user can no longer be found. */
  lemma DeletedUserIsGone(users: seq<User>, id: string)
    requires forall i, j :: 0 <= i < j < |users| ==> users[i].id != users[j].id
    ensures GetUserById(DeleteUser(users, id).0, id) == Message(NotFoundText(id))
  {
    var after := DeleteUser(users, id).0;
    match FindById(users, id)
    case None =>
    case Some(k) =>
      forall j | 0 <= j < |after|
        ensures after[j].id != id
      {
        if j < k {
          assert after[j] == users[j];
        } else {
          assert after[j] == users[j + 1];
        }
      }
  }
}

=== FILE: wrappers.dfy ===
/** Failure-carrying datatypes shared by every service of the back end.
    The HTTP exceptions the services throw become `HttpError` values. */
module Wrappers {

  datatype Option<+T> = None | Some(value: T) {
    function GetOr(default: T): T {
      match this
      case Some(v) => v
      case None => default
    }
  }

  /** The Nest exception classes the services raise, with their messages.
      `InternalError` stands for a plain `Error` (or a runtime TypeError),
      which Nest reports as a 500. */
  datatype HttpError =
    | BadRequest(message: string)
    | NotFound(message: string)
    | Forbidden(message: string)
    | Unauthorized(message: string)
    | InternalError(message: string)

  datatype Result<+T> = Ok(value: T) | Err(error: HttpError) {
    predicate IsFailure() {
      Err?
    }

    function PropagateFailure<U>(): Result<U>
      requires Err?
    {
      Err(error)
    }

    function Extract(): T
      requires Ok?
    {
      value
    }
  }
}
